=== FILE: README.md ===
# Exact Online connector: a Dafny model of its synchronisation core

This project models the core of the Odoo connector to Exact Online (module
`exact_online_connector`) and proves properties of that model. The modelled
parts are:

- the outbound transaction queue (`exact.transaction`). It covers creating
  transactions, running them against the remote connector, classifying
  replies with the bounded automatic retry, the cron selection, and deleting
  transactions;
- the behaviour every synchronised model inherits (`exact.sync.mixin`);
- the subscription-level rules of journals (`account.journal`);
- the queueing of posted journal entries (`account.move`) with their
  required-field check;
- the initial-sync wizard (`exact.initial_sync`). It covers its step
  machine, its buttons, the local/remote diff that creates its lines, the
  journal step and the initial move sync;
- the actions on the wizard's lines (`exact.initial_sync.line`): update,
  archive, remove, import, export and `get_ids`.

## Modelling choices

- The database is a value (`Transactions.Db`) holding:
  - the transactions by id, plus the next free id;
  - the companies;
  - the connector fields of every synchronised record, keyed by model name
    and id (`Common.Records`).

  Each operation returns a new value. A raised exception is an `Err` of
  `Common.Result`, and the caller then sees nothing of the operation,
  as with Odoo's rollback.
- An unset code (`False`) is the empty string.
- A record's sync status is an `Option`. `None` is the empty value a
  company-dependent field has on a record never touched.
- The remote connector is a parameter: a function from transaction id to
  response. The clock is a parameter (`now`, `today`). Dates are integers.
- A reply's JSON body is modelled already decoded, as the members the code
  reads. The same holds for the remote records and for a line's `data`
  field.
- Python truthiness of those values is `Common.Truthy`.
- Recordset loops are sequences processed in order. Each element sees the
  writes of the elements before it.
- Queueing moves (`Moves.QueueMove`, `Moves.QueueMoves`) takes a flag that
  picks the required-field check: the partner test as written or as
  intended (see Findings). Every property of the queueing is proved for
  both. The initial move sync uses the check as written; in initial mode
  the two agree.
- Archiving is modelled in two layers. `SyncLines.ActionArchive` is the
  toggling of `active` and the lines' `invalid` flag.
  `SyncLines.ActionArchiveDb` is the whole action on the database: a
  partner's toggle is a `write` through the sync mixin and queues the
  partner. `SyncLines.ArchiveDbAgrees` relates the two.
- The back-off between automatic retries is linear: 3, 6, 9 and 12 minutes
  after attempts one to four. The connector is sometimes described as backing
  off exponentially; the model follows the code.

## Model

| member | source | states |
|---|---|---|
| Common.StepEntity | exact_online_connector/wizards/exact_initial_sync.py:263-264 | exactly the five reconciling steps (journals, accounts, taxes, payment terms, contacts) compare records |
| Transactions.Enqueue | exact_online_connector/models/exact_transaction.py:74-92 | existing transactions are kept; the ids returned are exactly the new transactions; each is a `todo` for one of the given companies; afterwards every given company has a `todo` for the record; "at most one `todo` per company and record" is preserved |
| Transactions.EnqueueCreatesIffMissing | exact_online_connector/models/exact_transaction.py:74-91 | a transaction is created for a company exactly when the company is listed and had no `todo` for the record before |
| Transactions.ConnectedCompanies | exact_online_connector/models/exact_transaction.py:69-72 | the companies searched are exactly those that are active and have a uuid |
| Transactions.CreateTransactions | exact_online_connector/models/exact_transaction.py:66-92 | with companies given, each gets a `todo`; with none given, every new transaction belongs to a connected company; existing transactions are kept and the at-most-one-todo invariant is preserved |
| Transactions.MappedStatus | exact_online_connector/models/exact_transaction.py:178-186 | todo/retry map to queued, syncing to syncing, done to synced, every failure state to error; never to "no" |
| Transactions.FindAfterSetConnState | exact_online_connector/models/exact_transaction.py:133-137 | after a connection-state write, looking up the written company finds the new state and any other company is found as before; which companies are active does not change |
| Transactions.Classify | exact_online_connector/models/exact_transaction.py:122-171 | a credentials failure changes nothing but asks for a reconnect; otherwise the state becomes syncing exactly on a successful 200 reply (clearing the exception); retry exactly on 502/503/504 while the attempt count stays below 5, planned 3 minutes per attempt later; otherwise connector error; the attempt count grows on every non-200 reply |
| Transactions.RetryBudget | exact_online_connector/models/exact_transaction.py:148-166 | over any series of replies, automatic reschedules plus attempts already made never exceed 4 |
| Transactions.FreshTransactionReschedulesAtMostFourTimes | exact_online_connector/models/exact_transaction.py:148-158 | a new transaction is automatically rescheduled at most four times |
| Transactions.UpdateRecordState | exact_online_connector/models/exact_transaction.py:199-202 | succeeds exactly when the transaction's record exists; the record then takes the mapped status and nothing else changes |
| Transactions.HandleResponse | exact_online_connector/models/exact_transaction.py:122-172 | a credentials failure marks the company for reconnection and leaves the transaction alone; any other reply stores the classified transaction and then updates the record status, failing only when the record is gone |
| Transactions.RunOne | exact_online_connector/models/exact_transaction.py:100-120 | transactions other than todo/retry are skipped; a missing record turns a runnable transaction into an Odoo error; no other transaction changes |
| Transactions.RunOneNoRemoteCall | exact_online_connector/models/exact_transaction.py:102-111 | for skipped transactions and vanished records the result does not depend on the connector's answer |
| Transactions.RunOneUpdatesRecordStatus | exact_online_connector/models/exact_transaction.py:112-119 | after a call, the record's status is the mapped status of the transaction's new state |
| Transactions.Run | exact_online_connector/models/exact_transaction.py:100-120 | running a recordset touches only its members and never a transaction that is not todo/retry |
| Transactions.CronSelect | exact_online_connector/models/exact_transaction.py:209-219 | selects exactly the due transactions (active company in state ok, planned no later than now, todo/retry), each once, earliest planned date first |
| Transactions.CronRun | exact_online_connector/models/exact_transaction.py:209-220 | the run covers exactly the due transactions, in planned order, each once, and its result is the run of those transactions in that order; transactions that are not due stay unchanged |
| Transactions.RevertedStatus | exact_online_connector/models/exact_transaction.py:237-239 | a record falls back to synced exactly when it has a code, else to "no" |
| Transactions.Revert | exact_online_connector/models/exact_transaction.py:223-239 | fails exactly when a transaction that must revert its record finds the record gone; otherwise a record falls back exactly when a deleted transaction concerns it and no other todo, retry or syncing transaction for the same company and record survives |
| Transactions.Unlink | exact_online_connector/models/exact_transaction.py:222-240 | removes exactly the given transactions and reverts their records' statuses as above |
| Transactions.UnlinkAsWritten | exact_online_connector/models/exact_transaction.py:222-240 | the record is fetched through the whole recordset, so deleting more than one transaction fails |
| Transactions.UnlinkTwoTransactions | exact_online_connector/models/exact_transaction.py:224 | two transactions with existing records cannot be deleted together as written, but can be under the corrected reading |
| SyncMixin.WriteEnqueues | exact_online_connector/models/exact_sync_mixin.py:64-67 | a write is queued exactly when sync is not suppressed and some written field is not ignored; writing only connector fields never queues |
| SyncMixin.ExactGetCompany | exact_online_connector/models/exact_sync_mixin.py:42-58 | the context company wins, then the forced company; an empty recordset gets the user's company, a multi-record one fails; a singleton gets its company field, else its first link to a company, else the user's company |
| SyncMixin.ContextCompanyWins | exact_online_connector/models/exact_sync_mixin.py:43-44 | with a company in the context the records and the user do not matter |
| SyncMixin.ActiveOnly | exact_online_connector/models/exact_sync_mixin.py:76 | keeps exactly the active companies |
| SyncMixin.TargetCompanies | exact_online_connector/models/exact_sync_mixin.py:72-76 | the given companies, else those the record resolves to; outside an initial sync only the active ones |
| SyncMixin.ExactCreateTransaction | exact_online_connector/models/exact_sync_mixin.py:69-79 | with no target company nothing changes; otherwise each target has a `todo` for the record, the record is queued, new transactions belong to targets and other records are untouched |
| SyncMixin.NonInitialQueuesOnlyActive | exact_online_connector/models/exact_sync_mixin.py:75-79 | outside an initial sync no transaction is created for an inactive company |
| SyncMixin.HandleWrite | exact_online_connector/models/exact_sync_mixin.py:64-79 | a write queues the record, with a `todo` for each of its active companies, exactly when sync is not suppressed, a written field is not ignored and the record has an active company; otherwise nothing changes; only the record's status changes, and new transactions are `todo`s for its active companies |
| SyncMixin.Unlink | exact_online_connector/models/exact_sync_mixin.py:92-102 | deletion succeeds exactly when no record has a guid or code; it then removes exactly those records; a failure names an offending record |
| Journals.SyncAvailability | exact_online_connector/models/account_journal.py:29-42 | bank journals never send; under standard only sale and purchase journals send; under advanced all non-bank journals do; fetching is available exactly under advanced |
| Journals.NeitherAvailable | exact_online_connector/models/account_journal.py:29-42 | neither direction is available exactly for journals other than sale and purchase under a standard subscription |
| Journals.CheckNoBothWaySync | exact_online_connector/models/account_journal.py:47-55 | a journal is rejected exactly when it both sends and fetches |
| Journals.SubscriptionDomainMatchesLevel | exact_online_connector/models/account_journal.py:74-78 | under standard the domain holds exactly the company's journals that may send; under advanced all the company's journals |
| Journals.CheckSubscriptionLevel | exact_online_connector/models/account_journal.py:80-130 | corrections only clear flags and keep identity and type; a journal with neither direction available loses its send flag and code; an inactive company's journal gets only that clean-up; an active company's journal ends up with flags its level allows; rejection happens exactly for a fetching journal of an active standard company, in raising mode, or in correcting mode when the clean-up write re-runs the raising check |
| Journals.SyncToCorrectionUnreachable | exact_online_connector/models/account_journal.py:104-116 | a journal that sends under standard without being sale or purchase has neither direction available, so the first branch already cleaned it up and the send-flag correction never fires |
| Journals.CorrectingModeCanReject | exact_online_connector/models/account_journal.py:63-71 | the non-raising mode can still fail, because its corrective write re-runs the raising check |
| Journals.CheckKeepsPermitted | exact_online_connector/models/account_journal.py:80-130 | a journal whose flags its level allows, with a direction available or nothing to clean up, passes unchanged |
| Moves.FirstTaxWithoutCode | exact_online_connector/models/account_move.py:85-92 | finds a tax without a code exactly when one exists |
| Moves.CheckLines | exact_online_connector/models/account_move.py:76-92 | passes exactly when every non-display line has an account with a code and taxes with codes; a failure comes from the first incomplete line and names its account if that has no code, else its first tax without one |
| Moves.CheckTermAndLines | exact_online_connector/models/account_move.py:68-92 | passes exactly when the payment term, if any, has a code and the lines pass |
| Moves.CheckRequiredFieldsAsWritten | exact_online_connector/models/account_move.py:55-92 | the partner check fires under the double-negated condition; otherwise the term and lines decide |
| Moves.CheckRequiredFields | exact_online_connector/models/account_move.py:55-92 | fails on the partner exactly when the move has a partner without a code that is neither queued nor syncing and the sync is not initial; otherwise the term and lines decide |
| Moves.ReadingsAgreeInitially | exact_online_connector/models/account_move.py:57-60 | in initial mode both readings of the partner check agree: only the payment term and lines decide |
| Moves.PartnerCheckInverted | exact_online_connector/models/account_move.py:57-67 | as written, a partner never queued passes and a queued one is rejected; the corrected check does the opposite |
| Moves.CheckIgnoresMoveRecords | exact_online_connector/models/account_move.py:55-92 | under either reading the check reads no move record, so queueing moves cannot change another move's verdict |
| Moves.QueueMove | exact_online_connector/models/account_move.py:43-53 | a move outside the guard (inactive company outside initial sync, journal not sending, before the start date) leaves everything alone; otherwise it is queued for its own company exactly when the required-field check passes, as written or corrected according to the flag |
| Moves.QueueMoveKeepsChecks | exact_online_connector/models/account_move.py:43-53 | queueing one move changes no move's required-field verdict, under either reading of the partner test |
| Moves.QueueMoves | exact_online_connector/models/account_move.py:38-53 | keeps companies, record keys, transactions and the at-most-one-todo invariant; records other than the moves are unchanged; queued records stay queued |
| Moves.QueueMovesFailsIffRejected | exact_online_connector/models/account_move.py:43-53 | under either reading of the partner check, the recordset fails exactly when one of its eligible moves fails the required-field check |
| Moves.QueueMovesQueuesEligible | exact_online_connector/models/account_move.py:43-53 | under either reading, after success every eligible move is queued with a `todo` for its company |
| InitialSync.IndexOf | exact_online_connector/wizards/exact_initial_sync.py:219-220 | every step has exactly one position in the step order |
| InitialSync.Previous | exact_online_connector/wizards/exact_initial_sync.py:217-225 | one step back, staying at intro |
| InitialSync.NextAsWritten | exact_online_connector/wizards/exact_initial_sync.py:227-235 | one step forward, failing with an index error exactly at done |
| InitialSync.Next | exact_online_connector/wizards/exact_initial_sync.py:227-235 | one step forward, staying at done |
| InitialSync.NextAgreesBeforeDone | exact_online_connector/wizards/exact_initial_sync.py:231-234 | the corrected step equals `action_next` as written everywhere but at done, where `action_next` fails with an index error |
| InitialSync.NextPreviousRoundTrip | exact_online_connector/wizards/exact_initial_sync.py:217-235 | next then previous returns to the start except at done; previous then next except at intro |
| InitialSync.RelevantModel | exact_online_connector/wizards/exact_initial_sync.py:300-310 | exactly the reconciling steps name a model, that of their entity |
| InitialSync.RelevantModelInjective | exact_online_connector/wizards/exact_initial_sync.py:300-310 | different reconciling steps fetch different models |
| InitialSync.FetchRemote | exact_online_connector/wizards/exact_initial_sync.py:322-355 | the data of a successful 200 reply; otherwise the reply's message, else its error object's message, else a generic failure; offline and other statuses give their own errors |
| InitialSync.Invalid | exact_online_connector/wizards/exact_initial_sync.py:440 | exactly the invalid lines |
| InitialSync.AvailableActions | exact_online_connector/wizards/exact_initial_sync.py:94-163 | update exactly for an invalid line with a code that lacks one locally or links a writable record, never at accounts; archive like remove but never at accounts; remove exactly for invalid lines missing remotely; import and export only at contacts; next exactly when no invalid line is local, always at the moves steps, never at done; initial move sync exactly at its step with a start not after today and journals chosen |
| InitialSync.NextButtonNeverFails | exact_online_connector/wizards/exact_initial_sync.py:149-150 | whenever the next button is offered, `action_next` as written succeeds |
| InitialSync.NoUpdateButtonNoUpdate | exact_online_connector/wizards/exact_initial_sync.py:103-127 | where update is not offered (outside accounts) updating the invalid lines changes nothing |
| InitialSync.NoRemoveButtonNoArchive | exact_online_connector/wizards/exact_initial_sync.py:128-136 | where remove is not offered, archiving the invalid lines changes nothing |
| InitialSync.NoRemoveButtonNoArchiveDb | exact_online_connector/wizards/exact_initial_sync.py:128-136 | where remove is not offered, archiving the invalid lines against the database leaves the lines and records as they are, queues no partner and creates no transaction |
| InitialSync.NoExportButtonNoExport | exact_online_connector/wizards/exact_initial_sync.py:139-146 | where export is not offered at contacts, exporting the invalid lines changes nothing |
| InitialSync.BareLine | exact_online_connector/wizards/exact_initial_sync.py:365-388 | a new line links exactly the record it was made for |
| InitialSync.LocalLineFacts | exact_online_connector/wizards/exact_initial_sync.py:364-419 | a local record's line links it and shows its code and name; matched records are valid and show the remote name; contacts on their way are valid; the rest are invalid with reason not_exact when they have a code, else no_code |
| InitialSync.MatchedCodesMembers | exact_online_connector/wizards/exact_initial_sync.py:389-397 | the existing codes are exactly the codes of the matched local records |
| InitialSync.MatchedCodesCount | exact_online_connector/wizards/exact_initial_sync.py:397 | one existing-code entry per matched local record |
| InitialSync.Unmatched | exact_online_connector/wizards/exact_initial_sync.py:420-433 | a code is listed exactly when it is a remote code not among the existing ones |
| InitialSync.UnmatchedInOrder | exact_online_connector/wizards/exact_initial_sync.py:420-433 | the list keeps remote order: its entries are the codes at the unmatched remote positions, one per position, in increasing position order |
| InitialSync.Diff | exact_online_connector/wizards/exact_initial_sync.py:357-436 | one line per local record plus one per unmatched remote code |
| InitialSync.DiffNumbering | exact_online_connector/wizards/exact_initial_sync.py:365-366 | every line belongs to the wizard and no two lines share an id |
| InitialSync.DiffLocalLines | exact_online_connector/wizards/exact_initial_sync.py:364-419 | line i is the line of local record i, classified as above |
| InitialSync.DiffRemoteLines | exact_online_connector/wizards/exact_initial_sync.py:420-433 | the later lines are invalid not_odoo lines that link nothing and carry the remote record's name and data |
| InitialSync.DiffRemoteCodes | exact_online_connector/wizards/exact_initial_sync.py:420-433 | a remote code gets a later line exactly when no matched local record has it |
| InitialSync.DiffInvalidCount | exact_online_connector/wizards/exact_initial_sync.py:436 | the invalid count is the number of invalid lines |
| InitialSync.DiffCounts | exact_online_connector/wizards/exact_initial_sync.py:435-436 | the valid count is the number of matched records; valid, on-their-way and invalid add up to all lines |
| InitialSync.EnableJournals | exact_online_connector/wizards/exact_initial_sync.py:372-380 | every sale and purchase journal is set to send, others are untouched; the step fails exactly when one of them also fetches |
| InitialSync.EnableJournalSets | exact_online_connector/wizards/exact_initial_sync.py:375-380 | a sale or purchase journal that does not fetch is set to send, and one that fetches is rejected |
| InitialSync.EnableJournalsIdempotent | exact_online_connector/wizards/exact_initial_sync.py:372-380 | passing the journals step twice gives what passing it once gives |
| InitialSync.FindAfterSetSyncFrom | exact_online_connector/wizards/exact_initial_sync.py:290 | looking a company up after the write sees the new start for the wizard's company and nothing new elsewhere |
| InitialSync.Selected | exact_online_connector/wizards/exact_initial_sync.py:277-286 | exactly the moves of the domain: the company's posted moves in sending journals with status "no", from the start date on |
| InitialSync.InsertByDateSorted | exact_online_connector/wizards/exact_initial_sync.py:295 | inserting into a date-ordered list keeps it ordered |
| InitialSync.SortByDate | exact_online_connector/wizards/exact_initial_sync.py:295 | the result is in date order and a permutation of the input |
| InitialSync.Chosen | exact_online_connector/wizards/exact_initial_sync.py:294-296 | the moves searched are exactly those of the domain, oldest first |
| InitialSync.InitialDomainEligible | exact_online_connector/wizards/exact_initial_sync.py:277-286 | a move of the domain passes the move's own queueing guard and the partner check in initial mode |
| InitialSync.InitialMoveSync | exact_online_connector/wizards/exact_initial_sync.py:288-298 | writes the start on the company; keeps record keys and existing transactions, and the at-most-one-todo invariant |
| InitialSync.InitialMoveSyncIs | exact_online_connector/wizards/exact_initial_sync.py:288-296 | the initial move sync queues the chosen moves, in initial mode, once the start is written |
| InitialSync.ChosenRejectedIff | exact_online_connector/wizards/exact_initial_sync.py:294-296 | a chosen move is rejected exactly when its required fields fail |
| InitialSync.InitialMoveSyncFailsIff | exact_online_connector/wizards/exact_initial_sync.py:288-296 | the sync fails exactly when a move of the domain misses a required code |
| InitialSync.InitialMoveSyncQueues | exact_online_connector/wizards/exact_initial_sync.py:294-296 | after success every move of the domain is queued with a `todo` for the company |
| InitialSync.InitialMoveSyncKeepsOthers | exact_online_connector/wizards/exact_initial_sync.py:294-296 | after success every record other than a chosen move is unchanged |
| InitialSync.InitialChosenEligible | exact_online_connector/wizards/exact_initial_sync.py:277-286 | every chosen move is eligible once the start is written |
| SyncLines.UpdateTarget | exact_online_connector/wizards/exact_initial_sync_line.py:51-87 | the first of journal, tax, payment term, partner whose branch applies; never an account; none exactly when no branch applies |
| SyncLines.UpdateLine | exact_online_connector/wizards/exact_initial_sync_line.py:45-87 | the line changes exactly when it is invalid, has a code and a branch applies; it then becomes valid and the target record gets the line's code; links never change |
| SyncLines.UpdateLineIdempotent | exact_online_connector/wizards/exact_initial_sync_line.py:45-87 | updating a line twice gives what updating it once gives |
| SyncLines.AccountLinesNotUpdated | exact_online_connector/wizards/exact_initial_sync_line.py:51-87 | a line that links only an account is never updated |
| SyncLines.ActionUpdate | exact_online_connector/wizards/exact_initial_sync_line.py:43-87 | every line is either kept or only marked valid, only updatable lines are marked, lines linking only an account are kept; keeps every link resolved |
| SyncLines.ActionUpdateLineAlone | exact_online_connector/wizards/exact_initial_sync_line.py:45-87 | a line whose records no other updatable line links is updated exactly as it would be alone, and when it is marked valid the record of the first applicable branch ends with the line's code |
| SyncLines.UpdateLineSameRecords | exact_online_connector/wizards/exact_initial_sync_line.py:47-87 | one line's update reads only the records it links: stores that agree there give the same branch and the same line |
| SyncLines.ActionUpdateWritesLinkedCodes | exact_online_connector/wizards/exact_initial_sync_line.py:43-87 | a record changes only by taking the code of a line that links it |
| SyncLines.TargetIsLinked | exact_online_connector/wizards/exact_initial_sync_line.py:92-106 | a line has a target exactly when it links something, and links its target |
| SyncLines.ArchiveLine | exact_online_connector/wizards/exact_initial_sync_line.py:90-106 | the record-level part of one iteration: a discardable line toggles its target's active flag and becomes invalid exactly when the record is now active; nothing else changes |
| SyncLines.ActionArchive | exact_online_connector/wizards/exact_initial_sync_line.py:89-106 | the record-level part: only the invalid flag of lines changes, only on discardable lines with a target; links stay resolved |
| SyncLines.ArchiveTouchesTargets | exact_online_connector/wizards/exact_initial_sync_line.py:89-106 | in the record-level part only the active flag of records changes, and only on targets of discardable lines (the queueing of partners is stated by `SyncLines.ArchiveDbTouches`) |
| SyncLines.ArchiveInvalidMatchesActive | exact_online_connector/wizards/exact_initial_sync_line.py:92-106 | a line whose target no other discardable line shares ends up invalid exactly when its record ends up active, i.e. when it was archived before |
| SyncLines.ArchiveWrite | exact_online_connector/models/exact_sync_mixin.py:64-79 | the write of `active` on a partner changes at most its status, to queued, and creates only `todo`s for it and its active companies |
| SyncLines.ArchiveLineDb | exact_online_connector/wizards/exact_initial_sync_line.py:90-106 | one iteration against the database: the line and the records' active flags are as in the record-level part; a status changes only on a partner target, to queued; new transactions are `todo`s for that partner and its active companies |
| SyncLines.ArchiveLineDbQueues | exact_online_connector/wizards/exact_initial_sync_line.py:104-106 | archiving a partner queues it, with a `todo` for each of its active companies, unless sync is suppressed |
| SyncLines.ActionArchiveDb | exact_online_connector/wizards/exact_initial_sync_line.py:89-106 | against the database: keeps companies, record keys, transactions and the at-most-one-todo invariant; queued records stay queued |
| SyncLines.ArchiveDbAgrees | exact_online_connector/wizards/exact_initial_sync_line.py:89-106 | against the database the lines end up as in the record-level part and records differ from it only in status |
| SyncLines.ArchiveDbStatus | exact_online_connector/wizards/exact_initial_sync_line.py:104-106 | a status changes only on a partner that a discardable line targets, and only to queued |
| SyncLines.ArchiveDbNewTxs | exact_online_connector/wizards/exact_initial_sync_line.py:104-106 | every new transaction is a `todo` for an archived partner and one of its active companies |
| SyncLines.ArchiveDbQueues | exact_online_connector/wizards/exact_initial_sync_line.py:104-106 | unless sync is suppressed, every archived partner with an active company ends up queued with a `todo` for each active company |
| SyncLines.ArchiveDbNothingDiscardable | exact_online_connector/wizards/exact_initial_sync_line.py:89-106 | when no line is discardable, archiving keeps the lines, the records and the transactions as they are |
| SyncLines.ArchiveDbTouches | exact_online_connector/wizards/exact_initial_sync_line.py:89-106 | a record changes only in its active flag and status; it is unchanged unless a discardable line targets it; its status changes only on a partner, to queued |
| SyncLines.DeleteRecord | exact_online_connector/wizards/exact_initial_sync_line.py:123-125 | deleting a partner known remotely fails; any other deletion removes exactly that record |
| SyncLines.RemoveFrom | exact_online_connector/wizards/exact_initial_sync_line.py:108-126 | after success links stay resolved and surviving records are unchanged; the removal itself is stated by the lemmas below |
| SyncLines.RemoveFailsOnSyncedPartner | exact_online_connector/wizards/exact_initial_sync_line.py:123-125 | the action fails only on a discardable line whose partner is known remotely, and succeeds when there is none |
| SyncLines.RemoveLeavesNothingRemovable | exact_online_connector/wizards/exact_initial_sync_line.py:108-126 | afterwards no line is left that the action would act on |
| SyncLines.RemoveKeepsTheRest | exact_online_connector/wizards/exact_initial_sync_line.py:108-126 | every line the action does not act on survives, at most with links to deleted records emptied |
| SyncLines.RemoveComesFromOriginals | exact_online_connector/wizards/exact_initial_sync_line.py:108-126 | every remaining line is an original one, at most with links emptied |
| SyncLines.RemoveDeletesOnlyLinked | exact_online_connector/wizards/exact_initial_sync_line.py:108-126 | only records linked by a discardable line are deleted |
| SyncLines.RemoveDeletesTargets | exact_online_connector/wizards/exact_initial_sync_line.py:111-124 | after success the record every removable line targets is deleted |
| SyncLines.RemoveDropsLine | exact_online_connector/wizards/exact_initial_sync_line.py:111-125 | a removable line whose record no other discardable line links is itself deleted: no remaining line carries its id, when ids are distinct |
| SyncLines.ActionRemove | exact_online_connector/wizards/exact_initial_sync_line.py:108-126 | all of the above for the whole recordset, including that every removable line's target record is deleted |
| SyncLines.ActionRemoveDropsLine | exact_online_connector/wizards/exact_initial_sync_line.py:111-125 | on the whole recordset, a removable line whose record no other discardable line links is deleted along with that record |
| SyncLines.ExportLine | exact_online_connector/wizards/exact_initial_sync_line.py:277-280 | the line's partner is queued with a `todo` for the wizard's company; other records are unchanged |
| SyncLines.ExportWith | exact_online_connector/wizards/exact_initial_sync_line.py:275-280 | keeps companies, record keys, existing transactions and the at-most-one-todo invariant; queued records stay queued |
| SyncLines.ExportQueuesChosen | exact_online_connector/wizards/exact_initial_sync_line.py:275-280 | every chosen line's partner ends up queued with a `todo` for the wizard's company |
| SyncLines.ExportTouchesOnlyChosen | exact_online_connector/wizards/exact_initial_sync_line.py:275-280 | records that no chosen line links are unchanged |
| SyncLines.ExportNothingChosen | exact_online_connector/wizards/exact_initial_sync_line.py:275-280 | with no line chosen nothing changes |
| SyncLines.ExportAsWritten | exact_online_connector/wizards/exact_initial_sync_line.py:271-280 | as written only no_code lines can be exported |
| SyncLines.ActionExport | exact_online_connector/wizards/exact_initial_sync_line.py:271-280 | lines missing remotely (no_code or not_exact) with a partner and no code have their partner queued; without such lines nothing changes |
| SyncLines.ExportSkipsNotExact | exact_online_connector/wizards/exact_initial_sync_line.py:276 | a not_exact line is ignored as written and exported when corrected |
| SyncLines.ResolveCode | exact_online_connector/wizards/exact_initial_sync_line.py:215-232 | a truthy country code is replaced by the id found for it (false when none); other keys are untouched |
| SyncLines.FixLang | exact_online_connector/wizards/exact_initial_sync_line.py:254-256 | a truthy language is an installed one or the user's; other keys are untouched |
| SyncLines.Rank | exact_online_connector/wizards/exact_initial_sync_line.py:257-260 | a truthy flag or rank makes the rank 1; other keys are untouched |
| SyncLines.Prepare | exact_online_connector/wizards/exact_initial_sync_line.py:215-260 | only the rewritten keys change |
| SyncLines.PrepareResolvesCodes | exact_online_connector/wizards/exact_initial_sync_line.py:215-253 | country and currency codes become ids and no truthy code is left |
| SyncLines.PrepareFixesLang | exact_online_connector/wizards/exact_initial_sync_line.py:254-256 | after preparation a truthy language is installed or the user's |
| SyncLines.PrepareRanks | exact_online_connector/wizards/exact_initial_sync_line.py:257-260 | after preparation a truthy flag or rank gives rank 1 |
| SyncLines.RewrittenKeysDistinct | exact_online_connector/wizards/exact_initial_sync_line.py:215-260 | the keys the rewriting steps touch do not overlap |
| SyncLines.Codes | exact_online_connector/wizards/exact_initial_sync_line.py:215-253 | both codes resolved; no truthy code key remains; other keys untouched |
| SyncLines.Ranks | exact_online_connector/wizards/exact_initial_sync_line.py:257-260 | both ranks set from flags; other keys untouched |
| SyncLines.ImportVals | exact_online_connector/wizards/exact_initial_sync_line.py:214-267 | only partner fields remain; codes resolved, language fixed, ranks set; untouched partner fields keep their values |
| SyncLines.ImportValsIdempotent | exact_online_connector/wizards/exact_initial_sync_line.py:214-267 | preparing values twice gives what preparing them once gives |
| SyncLines.ActionImport | exact_online_connector/wizards/exact_initial_sync_line.py:203-269 | the values created are exactly the prepared values of not_odoo lines with a code whose wizard is at the contacts step; it fails, creating nothing, exactly when such a line has no data |
| SyncLines.ActionImportInOrder | exact_online_connector/wizards/exact_initial_sync_line.py:211-266 | on success one value is created per importable line, in line order: the j-th value is the prepared values of the j-th importable line |
| SyncLines.SingleSyncIffOneWizard | exact_online_connector/wizards/exact_initial_sync_line.py:283-285 | the lines belong to a single wizard exactly when their wizard set has one element |
| SyncLines.Linked | exact_online_connector/wizards/exact_initial_sync_line.py:287 | ids gathered so far stay in front |
| SyncLines.LinkedIsDistinctLinks | exact_online_connector/wizards/exact_initial_sync_line.py:287 | each linked record appears once, and only linked records appear |
| SyncLines.GetIds | exact_online_connector/wizards/exact_initial_sync_line.py:282-296 | fails exactly for lines of several wizards; otherwise the distinct records the current step's field links, or nothing outside a reconciling step |

## Left out

- HTTP, JSON decoding and the `call_exact` plumbing: replies, remote records and line data are modelled already decoded.
- `cr.commit()` calls and concurrency between the cron and users: each operation is atomic in the model.
- Activity scheduling on a lost connection (`exact_schedule_activity_connection_to_odoo_lost`): a side effect outside the queue.
- Human-readable exception texts: they are replaced by the `Common.Failure` kinds that stand for them.
- `name_get`, `action_retry`, `action_run`, `post_master_run`, `action_view_transactions`, `fields_view_get`, `create_print_attachment` and `_post` wiring: framework or UI plumbing with no logic of their own.
- `create` of the mixin and of journals: the model covers only the queueing (`CreateEnqueues`) and the subscription check they call.
- The journal `write` override: it is modelled only as the check re-running after a write of the sync flags (`Journals.CorrectingModeCanReject`, `InitialSync.EnableJournal`).
- Subscription level unset: companies always have standard or advanced.
- `load_step`: its side effects are modelled as parts. These are the start-date write and the journals search (`InitialSync.SetSyncFrom`, `Journals.InSubscriptionDomain`) and the diff (`InitialSync.Diff`). The `exact.init_done` call at done is remote I/O.
- `action_try_match`: fuzzy `ilike` name search over the database, with no modellable contract beyond calling `action_update`.
- The `action_*_invalid` wrappers: they only apply a line action to the invalid lines and reload, as composed in the button lemmas.
- The `init` state: no step of the selection is `init`, so the branch that names it is dead.
- `action_reload`, `action_recheck`, `action_open_records_tree`, `_compute_moves_to_sync`: window actions and a count.
- `InitialSync.Diff`: the model lists and numbers the lines as local records in order, then unmatched remote codes. `determine_valid_invalid` creates the flagged local lines one by one inside the loop (`wizards/exact_initial_sync.py:418`) and the matched, will-be-synced and unmatched remote lines later in one batch (`:434`), so its ids and the `_order` of line searches differ from the model's. Only the lines' contents, their wizard and distinct ids are modelled.
- `InitialSync.DiffCounts`: states the counts `determine_valid_invalid` sets. The later recomputation by `_compute_valid_count` and `_compute_invalid_count` from the line sets is not modelled.
- `InitialSync.InitialMoveSync`: the write of `sync_with_exact_online` on `journals_to_sync` and the `moves_synced` flag are not modelled. The chosen journals' moves are modelled as already flagged for sending.
- `InitialSync.InitialMoveSync`: transaction ids follow the queueing order, but the model proves only that moves are queued oldest first (`InitialSync.Chosen`), not that ids increase with date.
- `Common.Rec`: a partner's `exact_online_code`, `exact_online_guid` and `exact_online_state` are company dependent (`models/res_partner.py:12-14`), but the model keeps one value per partner: that of the company the operation runs for. The move's partner check, `action_update` under `with_company`, the unlink guard and the status revert on deletion all read or write that one company's values.
- Transactions.Classify: clock time is the `now` parameter. Date arithmetic is minutes added to an integer.

## Findings

| source | as written | input that shows it | evidently intended | confidence | as-written member | corrected member |
|---|---|---|---|---|---|---|
| exact_online_connector/models/exact_transaction.py:224 | `record = self._get_record()` fetches through the whole recordset, and `_get_record` calls `ensure_one` | deleting two transactions whose records exist | `transaction._get_record()`, each transaction reverting its own record | high, not executed | Transactions.UnlinkAsWritten (shown by Transactions.UnlinkTwoTransactions) | Transactions.Unlink |
| exact_online_connector/wizards/exact_initial_sync.py:231 | `if index < len(order)` always holds, so `order[index + 1]` is read past the end | `action_next` at the `done` step | `index + 1 < len(order)`, falling back to `done` | high, not executed | InitialSync.NextAsWritten (shown by InitialSync.NextAgreesBeforeDone) | InitialSync.Next |
| exact_online_connector/wizards/exact_initial_sync_line.py:276 | the reason list reads `"no_exact"`, which is not a reason value | a `not_exact` line with a partner whose code the user cleared | `"not_exact"`, the reason the export button is offered for | high, not executed | SyncLines.ExportAsWritten (shown by SyncLines.ExportSkipsNotExact) | SyncLines.ActionExport |
| exact_online_connector/models/account_move.py:59 | `not move.partner_id.exact_online_state not in [...]` parses as `not (state not in [...])`, i.e. state is queued or syncing | posting a move whose partner has no code and was never queued passes; one whose partner is queued is rejected | reject a move whose partner has no code and is neither queued nor syncing; a move without a partner is not stopped by this test | medium, not executed | Moves.CheckRequiredFieldsAsWritten (shown by Moves.PartnerCheckInverted) | Moves.CheckRequiredFields |

=== FILE: account_move.dfy ===
/** Journal entries (`account.move`): a posted move is queued for its own
    company only, when its journal sends moves and its date lies inside the
    company's sync window, and only once the partner, payment term, accounts
    and taxes it uses are known remotely. Dates are days. */
module Moves {
  import opened Common
  import opened Transactions
  import SyncMixin

  datatype MoveLine = MoveLine(displayLine: bool, account: nat, taxes: seq<nat>)

  /** A move; `journalSynced` is the send flag of its journal. */
  datatype Move = Move(
    id: nat,
    company: nat,
    journalSynced: bool,
    date: int,
    posted: bool,
    partner: Option<nat>,
    paymentTerm: Option<nat>,
    lines: seq<MoveLine>)

  const MoveModel: string := "account.move"

  function MoveRef(m: Move): Ref { Ref(MoveModel, m.id) }

  /** The start of the company's sync window, if it has one. */
  function SyncFrom(cs: seq<Company>, id: nat): Option<int> {
    var c := FindCompany(cs, id);
    if c.Some? then c.value.syncFrom else None
  }

  predicate InSyncWindow(cs: seq<Company>, m: Move) {
    var from := SyncFrom(cs, m.company);
    from.None? || from.value <= m.date
  }

  /** The guard of the move's `exact_create_transaction`. */
  predicate Eligible(cs: seq<Company>, m: Move, initial: bool) {
    (CompanyActive(cs, m.company) || initial) && m.journalSynced && InSyncWindow(cs, m)
  }

  function PartnerCode(recs: Records, m: Move): Code {
    if m.partner.Some? then CodeAt(recs, EntityRef(PartnerE, m.partner.value)) else ""
  }

  function PartnerStatus(recs: Records, m: Move): Option<SyncStatus> {
    if m.partner.Some? then StatusAt(recs, EntityRef(PartnerE, m.partner.value)) else None
  }

  predicate PartnerUnderway(recs: Records, m: Move) {
    PartnerStatus(recs, m) == Some(Queued) || PartnerStatus(recs, m) == Some(Syncing)
  }

  /** The partner condition as written: `not state not in [...]` reads as
      `state in [...]`, so only a partner that is already queued or syncing
      blocks the move. */
  predicate PartnerBlocksAsWritten(recs: Records, m: Move, initial: bool) {
    !HasCode(PartnerCode(recs, m)) && PartnerUnderway(recs, m) && !initial
  }

  /** The partner condition as intended: a partner without a code that is not
      on its way to the remote side blocks the move. */
  predicate PartnerBlocks(recs: Records, m: Move, initial: bool) {
    m.partner.Some? && !HasCode(PartnerCode(recs, m)) && !PartnerUnderway(recs, m) && !initial
  }

  /** The first tax without a remote code. */
  function FirstTaxWithoutCode(recs: Records, taxes: seq<nat>): (r: Option<nat>)
    ensures r.None? <==> forall i :: 0 <= i < |taxes| ==> HasCode(CodeAt(recs, EntityRef(TaxE, taxes[i])))
    ensures r.Some? ==> r.value in taxes && !HasCode(CodeAt(recs, EntityRef(TaxE, r.value)))
    decreases |taxes|
  {
    if |taxes| == 0 then None
    else if !HasCode(CodeAt(recs, EntityRef(TaxE, taxes[0]))) then Some(taxes[0])
    else
      var rest := FirstTaxWithoutCode(recs, taxes[1..]);
      assert forall i :: 0 < i < |taxes| ==> taxes[i] == taxes[1..][i - 1];
      rest
  }

  predicate LineComplete(recs: Records, l: MoveLine) {
    && HasCode(CodeAt(recs, EntityRef(AccountE, l.account)))
    && forall i :: 0 <= i < |l.taxes| ==> HasCode(CodeAt(recs, EntityRef(TaxE, l.taxes[i])))
  }

  /** Line `i` is the first line, display lines aside, that is not complete. */
  predicate FirstIncomplete(recs: Records, lines: seq<MoveLine>, i: int) {
    && 0 <= i < |lines| && !lines[i].displayLine && !LineComplete(recs, lines[i])
    && forall j :: 0 <= j < i && !lines[j].displayLine ==> LineComplete(recs, lines[j])
  }

  /** The error an incomplete line raises: its account when that has no
      code, otherwise its first tax without one. */
  function LineFailure(recs: Records, l: MoveLine): Failure
    requires !LineComplete(recs, l)
  {
    if !HasCode(CodeAt(recs, EntityRef(AccountE, l.account))) then AccountWithoutCode(l.account)
    else TaxWithoutCode(FirstTaxWithoutCode(recs, l.taxes).value)
  }

  /** The line loop of `exact_check_required_fields`: each line that is not a
      display line needs a coded account, then coded taxes. */
  function CheckLines(recs: Records, lines: seq<MoveLine>): (r: Result<()>)
    ensures r.Ok? <==> forall i :: 0 <= i < |lines| && !lines[i].displayLine ==> LineComplete(recs, lines[i])
    ensures r.Err? ==> exists i :: FirstIncomplete(recs, lines, i) && r.failure == LineFailure(recs, lines[i])
    decreases |lines|
  {
    if |lines| == 0 then Ok(())
    else
      var l := lines[0];
      var rest := CheckLines(recs, lines[1..]);
      assert forall i :: 0 < i < |lines| ==> lines[i] == lines[1..][i - 1];
      if l.displayLine then rest
      else if !HasCode(CodeAt(recs, EntityRef(AccountE, l.account))) then Err(AccountWithoutCode(l.account))
      else
        var tax := FirstTaxWithoutCode(recs, l.taxes);
        if tax.Some? then Err(TaxWithoutCode(tax.value)) else rest
  }

  /** Payment term and lines, the part both partner readings share. */
  function CheckTermAndLines(m: Move, recs: Records): (r: Result<Move>)
    ensures r.Ok? <==> (m.paymentTerm.Some? ==> HasCode(CodeAt(recs, EntityRef(PaymentTermE, m.paymentTerm.value))))
                       && CheckLines(recs, m.lines).Ok?
    ensures r.Ok? ==> r.value == m
    ensures m.paymentTerm.Some? && !HasCode(CodeAt(recs, EntityRef(PaymentTermE, m.paymentTerm.value))) ==>
              r == Err(TermWithoutCode(m.paymentTerm.value))
  {
    if m.paymentTerm.Some? && !HasCode(CodeAt(recs, EntityRef(PaymentTermE, m.paymentTerm.value))) then
      Err(TermWithoutCode(m.paymentTerm.value))
    else
      var lines :- CheckLines(recs, m.lines);
      Ok(m)
  }

  /** `exact_check_required_fields` as written. */
  function CheckRequiredFieldsAsWritten(m: Move, recs: Records, initial: bool): (r: Result<Move>)
    ensures r.Err? && r.failure.PartnerNotSynced? <==> PartnerBlocksAsWritten(recs, m, initial)
    ensures !PartnerBlocksAsWritten(recs, m, initial) ==> r == CheckTermAndLines(m, recs)
  {
    if PartnerBlocksAsWritten(recs, m, initial) then Err(PartnerNotSynced(m.partner))
    else CheckTermAndLines(m, recs)
  }

  /** `exact_check_required_fields` with the partner condition as intended. */
  function CheckRequiredFields(m: Move, recs: Records, initial: bool): (r: Result<Move>)
    ensures r.Err? && r.failure.PartnerNotSynced? <==> PartnerBlocks(recs, m, initial)
    ensures r.Ok? <==> !PartnerBlocks(recs, m, initial)
                       && (m.paymentTerm.Some? ==> HasCode(CodeAt(recs, EntityRef(PaymentTermE, m.paymentTerm.value))))
                       && forall i :: 0 <= i < |m.lines| && !m.lines[i].displayLine ==> LineComplete(recs, m.lines[i])
    ensures initial ==> !(r.Err? && r.failure.PartnerNotSynced?)
  {
    if PartnerBlocks(recs, m, initial) then Err(PartnerNotSynced(m.partner))
    else CheckTermAndLines(m, recs)
  }

  /** The check a queueing call runs: `exact_check_required_fields` as
      written, or with the partner condition as intended. */
  function RequiredFields(m: Move, recs: Records, initial: bool, asWritten: bool): Result<Move> {
    if asWritten then CheckRequiredFieldsAsWritten(m, recs, initial) else CheckRequiredFields(m, recs, initial)
  }

  /** In initial mode the partner is never checked, so both readings agree. */
  lemma ReadingsAgreeInitially(m: Move, recs: Records, asWritten: bool)
    ensures RequiredFields(m, recs, true, asWritten) == CheckRequiredFields(m, recs, true) == CheckTermAndLines(m, recs)
  {
  }

  /** The discrepancy: a partner without a code that was never queued lets the
      move through as written, and a partner that is already queued stops it. */
  lemma PartnerCheckInverted(recs: Records, m: Move)
    requires m.partner.Some? && m.paymentTerm.None? && m.lines == []
    requires EntityRef(PartnerE, m.partner.value) in recs
    requires !HasCode(recs[EntityRef(PartnerE, m.partner.value)].code)
    ensures recs[EntityRef(PartnerE, m.partner.value)].status == Some(NothingToSync) ==>
              CheckRequiredFieldsAsWritten(m, recs, false).Ok? && CheckRequiredFields(m, recs, false).Err?
    ensures recs[EntityRef(PartnerE, m.partner.value)].status == Some(Queued) ==>
              CheckRequiredFieldsAsWritten(m, recs, false).Err? && CheckRequiredFields(m, recs, false).Ok?
  {
  }

  /** The required-field check reads only partners, payment terms, accounts
      and taxes, so marking a move does not change any check. */
  lemma CheckIgnoresMoveRecords(m: Move, recs: Records, initial: bool, asWritten: bool, x: Ref, v: Rec)
    requires x.model == MoveModel
    ensures RequiredFields(m, recs[x := v], initial, asWritten) == RequiredFields(m, recs, initial, asWritten)
  {
    var recs2 := recs[x := v];
    forall e: Entity, id: nat ensures CodeAt(recs2, EntityRef(e, id)) == CodeAt(recs, EntityRef(e, id))
                                    && StatusAt(recs2, EntityRef(e, id)) == StatusAt(recs, EntityRef(e, id))
    {
      assert ModelName(e)[0] != MoveModel[0] || ModelName(e)[8] != MoveModel[8];
    }
    CheckLinesFrame(recs, recs2, m.lines);
  }

  lemma CheckLinesFrame(recs: Records, recs2: Records, lines: seq<MoveLine>)
    requires forall e: Entity, id: nat :: CodeAt(recs2, EntityRef(e, id)) == CodeAt(recs, EntityRef(e, id))
    ensures CheckLines(recs2, lines) == CheckLines(recs, lines)
    decreases |lines|
  {
    if |lines| > 0 {
      CheckLinesFrame(recs, recs2, lines[1..]);
      TaxFrame(recs, recs2, lines[0].taxes);
    }
  }

  lemma TaxFrame(recs: Records, recs2: Records, taxes: seq<nat>)
    requires forall e: Entity, id: nat :: CodeAt(recs2, EntityRef(e, id)) == CodeAt(recs, EntityRef(e, id))
    ensures FirstTaxWithoutCode(recs2, taxes) == FirstTaxWithoutCode(recs, taxes)
    decreases |taxes|
  {
    if |taxes| > 0 {
      TaxFrame(recs, recs2, taxes[1..]);
    }
  }

  /** The move's `exact_create_transaction` for one move; `asWritten` picks
      the reading of the partner test in the required-field check. */
  function QueueMove(db: Db, m: Move, initial: bool, asWritten: bool, now: int): (r: Result<Db>)
    requires Fresh(db) && MoveRef(m) in db.records
    ensures !Eligible(db.companies, m, initial) ==> r == Ok(db)
    ensures Eligible(db.companies, m, initial) ==> (r.Ok? <==> RequiredFields(m, db.records, initial, asWritten).Ok?)
    ensures r.Ok? ==> Fresh(r.value) && r.value.companies == db.companies && r.value.records.Keys == db.records.Keys
    ensures r.Ok? ==> forall x :: x in db.records && x != MoveRef(m) ==> r.value.records[x] == db.records[x]
    ensures r.Ok? ==> forall k :: k in db.txs ==> k in r.value.txs && r.value.txs[k] == db.txs[k]
    ensures r.Ok? ==> forall k :: k in r.value.txs && k !in db.txs ==>
              IsTodoFor(r.value.txs[k], m.company, MoveModel, m.id)
    ensures r.Ok? && Eligible(db.companies, m, initial) ==>
              r.value.records[MoveRef(m)].status == Some(Queued) && HasTodo(r.value.txs, m.company, MoveModel, m.id)
    ensures r.Ok? ==> (AtMostOneTodo(db.txs) ==> AtMostOneTodo(r.value.txs))
  {
    if !Eligible(db.companies, m, initial) then Ok(db)
    else
      var checked :- RequiredFields(m, db.records, initial, asWritten);
      assert SyncMixin.TargetCompanies(db, Some([m.company]), [], initial) == [m.company];
      Ok(SyncMixin.ExactCreateTransaction(db, MoveRef(m), Some([m.company]), [], initial, now))
  }

  /** Queueing one move leaves the required-field check of every move as it was. */
  lemma QueueMoveKeepsChecks(db: Db, m: Move, initial: bool, asWritten: bool, now: int, other: Move)
    requires Fresh(db) && MoveRef(m) in db.records
    requires QueueMove(db, m, initial, asWritten, now).Ok?
    ensures var db1 := QueueMove(db, m, initial, asWritten, now).value;
      RequiredFields(other, db1.records, initial, asWritten) == RequiredFields(other, db.records, initial, asWritten)
  {
    var db1 := QueueMove(db, m, initial, asWritten, now).value;
    assert db1.records == db.records[MoveRef(m) := db1.records[MoveRef(m)]];
    CheckIgnoresMoveRecords(other, db.records, initial, asWritten, MoveRef(m), db1.records[MoveRef(m)]);
  }

  /** A move the call would queue but whose required fields are missing. */
  predicate Rejected(db: Db, m: Move, initial: bool, asWritten: bool) {
    Eligible(db.companies, m, initial) && RequiredFields(m, db.records, initial, asWritten).Err?
  }

  /** The moves' `exact_create_transaction` over a recordset: the first move
      that fails its checks aborts the whole call. */
  function QueueMoves(db: Db, ms: seq<Move>, initial: bool, asWritten: bool, now: int): (r: Result<Db>)
    requires Fresh(db) && forall i :: 0 <= i < |ms| ==> MoveRef(ms[i]) in db.records
    ensures r.Ok? ==> Fresh(r.value) && r.value.companies == db.companies && r.value.records.Keys == db.records.Keys
    ensures r.Ok? ==> forall x :: x in db.records && (forall i :: 0 <= i < |ms| ==> x != MoveRef(ms[i])) ==>
              r.value.records[x] == db.records[x]
    ensures r.Ok? ==> forall x :: x in db.records && db.records[x].status == Some(Queued) ==>
              r.value.records[x].status == Some(Queued)
    ensures r.Ok? ==> forall k :: k in db.txs ==> k in r.value.txs && r.value.txs[k] == db.txs[k]
    ensures r.Ok? ==> (AtMostOneTodo(db.txs) ==> AtMostOneTodo(r.value.txs))
    decreases |ms|
  {
    if |ms| == 0 then Ok(db)
    else
      var db1 :- QueueMove(db, ms[0], initial, asWritten, now);
      assert forall i :: 0 < i < |ms| ==> ms[i] == ms[1..][i - 1];
      QueueMoves(db1, ms[1..], initial, asWritten, now)
  }

  /** The call fails exactly when one of the moves it would queue misses a
      required field: queueing a move never changes another move's check. */
  lemma {:induction false} QueueMovesFailsIffRejected(db: Db, ms: seq<Move>, initial: bool, asWritten: bool, now: int)
    requires Fresh(db) && forall i :: 0 <= i < |ms| ==> MoveRef(ms[i]) in db.records
    ensures QueueMoves(db, ms, initial, asWritten, now).Err? <==> exists i :: 0 <= i < |ms| && Rejected(db, ms[i], initial, asWritten)
    decreases |ms|
  {
    if |ms| > 0 {
      var head := QueueMove(db, ms[0], initial, asWritten, now);
      if head.Ok? {
        var db1 := head.value;
        assert forall i :: 0 < i < |ms| ==> ms[i] == ms[1..][i - 1];
        forall i | 0 <= i < |ms|
          ensures Rejected(db1, ms[i], initial, asWritten) <==> Rejected(db, ms[i], initial, asWritten)
        {
          QueueMoveKeepsChecks(db, ms[0], initial, asWritten, now, ms[i]);
        }
        QueueMovesFailsIffRejected(db1, ms[1..], initial, asWritten, now);
        if QueueMoves(db1, ms[1..], initial, asWritten, now).Err? {
          var j :| 0 <= j < |ms[1..]| && Rejected(db1, ms[1..][j], initial, asWritten);
          assert Rejected(db, ms[j + 1], initial, asWritten);
        }
      }
    }
  }

  /** A successful call is the first move's queueing followed by the call
      on the rest. */
  lemma QueueMovesStep(db: Db, ms: seq<Move>, initial: bool, asWritten: bool, now: int)
    requires Fresh(db) && forall j :: 0 <= j < |ms| ==> MoveRef(ms[j]) in db.records
    requires QueueMoves(db, ms, initial, asWritten, now).Ok? && |ms| > 0
    ensures QueueMove(db, ms[0], initial, asWritten, now).Ok?
    ensures var db1 := QueueMove(db, ms[0], initial, asWritten, now).value;
      && Fresh(db1) && db1.companies == db.companies
      && (forall j :: 0 <= j < |ms[1..]| ==> MoveRef(ms[1..][j]) in db1.records)
      && QueueMoves(db, ms, initial, asWritten, now) == QueueMoves(db1, ms[1..], initial, asWritten, now)
  {
    assert forall j :: 0 <= j < |ms[1..]| ==> ms[1..][j] == ms[j + 1];
  }

  /** A move already queued, with a todo transaction, stays so while further
      moves are queued. */
  lemma QueuedKept(db: Db, ms: seq<Move>, m: Move, initial: bool, asWritten: bool, now: int)
    requires Fresh(db) && forall j :: 0 <= j < |ms| ==> MoveRef(ms[j]) in db.records
    requires QueueMoves(db, ms, initial, asWritten, now).Ok?
    requires MoveRef(m) in db.records && db.records[MoveRef(m)].status == Some(Queued)
    requires HasTodo(db.txs, m.company, MoveModel, m.id)
    ensures var r := QueueMoves(db, ms, initial, asWritten, now).value;
      r.records[MoveRef(m)].status == Some(Queued) && HasTodo(r.txs, m.company, MoveModel, m.id)
  {
    var r := QueueMoves(db, ms, initial, asWritten, now).value;
    HasTodoKept(db.txs, r.txs, m.company, MoveModel, m.id);
  }

  /** When the call succeeds, eligible move `i` is queued and has a todo
      transaction for its company. */
  lemma {:induction false} QueueMovesQueuesEligibleAt(db: Db, ms: seq<Move>, initial: bool, asWritten: bool, now: int, i: nat)
    requires Fresh(db) && forall j :: 0 <= j < |ms| ==> MoveRef(ms[j]) in db.records
    requires QueueMoves(db, ms, initial, asWritten, now).Ok?
    requires i < |ms| && Eligible(db.companies, ms[i], initial)
    ensures var r := QueueMoves(db, ms, initial, asWritten, now).value;
      r.records[MoveRef(ms[i])].status == Some(Queued) && HasTodo(r.txs, ms[i].company, MoveModel, ms[i].id)
    decreases i
  {
    if i == 0 {
      QueueMovesStep(db, ms, initial, asWritten, now);
      QueuedKept(QueueMove(db, ms[0], initial, asWritten, now).value, ms[1..], ms[0], initial, asWritten, now);
    } else {
      QueueMovesStep(db, ms, initial, asWritten, now);
      var db1 := QueueMove(db, ms[0], initial, asWritten, now).value;
      assert ms[1..][i - 1] == ms[i];
      QueueMovesQueuesEligibleAt(db1, ms[1..], initial, asWritten, now, i - 1);
    }
  }

  /** When the call succeeds, every eligible move is queued and has a todo
      transaction for its company. */
  lemma QueueMovesQueuesEligible(db: Db, ms: seq<Move>, initial: bool, asWritten: bool, now: int)
    requires Fresh(db) && forall i :: 0 <= i < |ms| ==> MoveRef(ms[i]) in db.records
    requires QueueMoves(db, ms, initial, asWritten, now).Ok?
    ensures var r := QueueMoves(db, ms, initial, asWritten, now).value;
      forall i :: 0 <= i < |ms| && Eligible(db.companies, ms[i], initial) ==>
        r.records[MoveRef(ms[i])].status == Some(Queued) && HasTodo(r.txs, ms[i].company, MoveModel, ms[i].id)
  {
    forall i | 0 <= i < |ms| && Eligible(db.companies, ms[i], initial)
      ensures var r := QueueMoves(db, ms, initial, asWritten, now).value;
        r.records[MoveRef(ms[i])].status == Some(Queued) && HasTodo(r.txs, ms[i].company, MoveModel, ms[i].id)
    {
      QueueMovesQueuesEligibleAt(db, ms, initial, asWritten, now, i);
    }
  }
}

=== FILE: common.dfy ===
/** Vocabulary shared by every part of the Exact Online connector model:
    failure values standing for the exceptions the connector raises, record
    references into an abstract record store, company settings and the shape
    of the replies the remote connector sends back. */
module Common {

  datatype Option<+T> = None | Some(value: T) {
    function GetOr(default: T): T {
      match this
      case Some(v) => v
      case None => default
    }
  }

  /** Every exception the modelled code can raise, as a value. An `Err`
      aborts the whole operation: the host framework rolls the database
      transaction back, so nothing of the failed call survives. */
  datatype Failure =
    | MissingRecord(ref: Ref)            // a write to a record that no longer exists
    | NotSingleton                       // `ensure_one` on a recordset of another size
    | IndexOutOfRange                    // a list index past the end
    | BothWaySync                        // journal syncs to and from the remote side
    | SyncToNeedsSaleOrPurchase          // standard level, journal of another type
    | SyncFromNeedsAdvanced              // syncing from the remote side below advanced
    | SyncedRecordNotDeletable(ref: Ref) // record carries a remote code or guid
    | PartnerNotSynced(partner: Option<nat>)
    | TermWithoutCode(term: nat)
    | AccountWithoutCode(account: nat)
    | TaxWithoutCode(tax: nat)
    | RemoteMessage(message: string)     // the reply's own message
    | RemoteGenericFailure               // failure reply without any message
    | ConnectorOffline                   // HTTP 502/503/504
    | NoRemoteData                       // any other HTTP status
    | MalformedReply                     // a reply field has an unexpected shape
    | MixedSyncs                         // lines of zero or several wizards
    | MissingImportData                  // a line without the remote payload

  datatype Result<+T> = Ok(value: T) | Err(failure: Failure) {
    predicate IsFailure() { Err? }
    function PropagateFailure<U>(): Result<U>
      requires Err?
    {
      Err(failure)
    }
    function Extract(): T
      requires Ok?
    {
      value
    }
  }

  /** `idx` picks positions of a sequence of length `n`, in increasing order:
      the positions an order-keeping filter keeps. */
  predicate Ascending(idx: seq<nat>, n: nat) {
    (forall j :: 0 <= j < |idx| ==> idx[j] < n)
    && forall a, b :: 0 <= a < b < |idx| ==> idx[a] < idx[b]
  }

  /** The positions `idx` picked from a sequence's tail, as positions of the
      whole sequence, after position 0 when `first` holds. */
  function Shift(idx: seq<nat>, first: bool): (r: seq<nat>)
    ensures |r| == |idx| + (if first then 1 else 0)
  {
    var d := if first then 1 else 0;
    seq(|idx| + d, j requires 0 <= j < |idx| + d => if j < d then 0 else idx[j - d] + 1)
  }

  /** Shifting keeps an increasing choice increasing, one position longer. */
  lemma ShiftAscending(idx: seq<nat>, n: nat, first: bool)
    requires Ascending(idx, n)
    ensures Ascending(Shift(idx, first), n + 1)
  {
    var r := Shift(idx, first);
    var d := |r| - |idx|;
    forall j | 0 <= j < |r|
      ensures r[j] < n + 1
    {
      if j >= d {
        assert r[j] == idx[j - d] + 1;
      }
    }
    forall a, b | 0 <= a < b < |r|
      ensures r[a] < r[b]
    {
      assert r[b] == idx[b - d] + 1;
      if a >= d {
        assert r[a] == idx[a - d] + 1;
      }
    }
  }

  /** Position `j` of the tail is position `j + 1` of the whole sequence. */
  lemma ShiftAt(idx: seq<nat>, first: bool, j: nat)
    requires j < |idx|
    ensures Shift(idx, first)[j + |Shift(idx, first)| - |idx|] == idx[j] + 1
  {
  }

  /** Position 0 is picked when `first` holds, and every later position
      whose tail position was picked is picked. */
  lemma ShiftHits(idx: seq<nat>, first: bool, i: nat)
    requires (i == 0 && first) || (i > 0 && i - 1 in idx)
    ensures i in Shift(idx, first)
  {
    var r := Shift(idx, first);
    if i == 0 {
      assert r[0] == 0;
    } else {
      var k :| 0 <= k < |idx| && idx[k] == i - 1;
      ShiftAt(idx, first, k);
    }
  }

  /** A remote code (`exact_online_code`). The empty string stands for an
      unset field, which the connector tests for falsity. */
  type Code = string

  predicate HasCode(c: Code) { c != "" }

  /** The `exact_online_state` selection of a synchronised record. */
  datatype SyncStatus = NothingToSync | Queued | Syncing | SyncError | Synced

  /** The connection state of a company (`res.company.exact_online_state`). */
  datatype ConnState = NotConnected | Registered | AwaitingPayment | ReadyForInit
                     | Operating | Reconnect | ConnError

  datatype Level = Standard | Advanced

  /** The connector settings of one company. `syncFrom` is a date in days. */
  datatype Company = Company(
    id: nat,
    active: bool,
    uuid: string,
    state: ConnState,
    level: Level,
    syncFrom: Option<int>)

  /** The first company with the given id, in database order. */
  function FindCompany(cs: seq<Company>, id: nat): (r: Option<Company>)
    ensures r.Some? ==> r.value in cs && r.value.id == id
    ensures r.None? ==> forall k :: 0 <= k < |cs| ==> cs[k].id != id
  {
    if |cs| == 0 then None
    else if cs[0].id == id then Some(cs[0])
    else FindCompany(cs[1..], id)
  }

  predicate CompanyActive(cs: seq<Company>, id: nat) {
    var c := FindCompany(cs, id); c.Some? && c.value.active
  }

  /** The kinds of records the initial-sync wizard reconciles. */
  datatype Entity = JournalE | AccountE | TaxE | PaymentTermE | PartnerE

  function ModelName(e: Entity): string {
    match e
    case JournalE => "account.journal"
    case AccountE => "account.account"
    case TaxE => "account.tax"
    case PaymentTermE => "account.payment.term"
    case PartnerE => "res.partner"
  }

  lemma ModelNameInjective(a: Entity, b: Entity)
    requires ModelName(a) == ModelName(b)
    ensures a == b
  {
  }

  /** The steps of the initial-sync wizard, in declaration order. */
  datatype Step = IntroStep | JournalsStep | AccountsStep | TaxesStep | PaymentTermsStep
                | ContactsStep | MovesStep | MovesInitialStep | DoneStep

  /** The kind of record a reconciliation step compares; the other steps
      compare nothing. */
  function StepEntity(s: Step): (r: Option<Entity>)
    ensures r.Some? <==> s in {JournalsStep, AccountsStep, TaxesStep, PaymentTermsStep, ContactsStep}
  {
    match s
    case JournalsStep => Some(JournalE)
    case AccountsStep => Some(AccountE)
    case TaxesStep => Some(TaxE)
    case PaymentTermsStep => Some(PaymentTermE)
    case ContactsStep => Some(PartnerE)
    case _ => None
  }

  /** A reference to a record: model name and database id. */
  datatype Ref = Ref(model: string, id: int)

  function EntityRef(e: Entity, id: nat): Ref { Ref(ModelName(e), id) }

  /** The connector fields of a record. `status` is `None` where the
      (company dependent) field holds no value at all. */
  datatype Rec = Rec(code: Code, guid: string, status: Option<SyncStatus>, active: bool)

  type Records = map<Ref, Rec>

  /** Reading a field through a reference that resolves to nothing yields
      the empty value, as reading through an empty many2one does. */
  function CodeAt(recs: Records, r: Ref): Code {
    if r in recs then recs[r].code else ""
  }

  function StatusAt(recs: Records, r: Ref): Option<SyncStatus> {
    if r in recs then recs[r].status else None
  }

  /** A JSON scalar, as found in the remote payload of a record. */
  datatype Value = VNull | VBool(b: bool) | VInt(i: int) | VStr(s: string)

  /** Python truthiness of a JSON scalar. */
  predicate Truthy(v: Value) {
    match v
    case VNull => false
    case VBool(b) => b
    case VInt(i) => i != 0
    case VStr(s) => s != ""
  }

  /** One record as the remote side describes it: its name and every field
      it sent, keyed by field name. */
  datatype RemoteEntry = RemoteEntry(name: string, fields: map<string, Value>)

  /** An insertion-ordered dictionary from remote code to remote record,
      which is what decoding the remote JSON object yields. */
  datatype Remote = Remote(codes: seq<Code>, entries: map<Code, RemoteEntry>)

  ghost predicate WellFormedRemote(d: Remote) {
    && (forall i, j :: 0 <= i < j < |d.codes| ==> d.codes[i] != d.codes[j])
    && (forall c :: c in d.entries <==> c in d.codes)
  }

  /** The `error` member of a reply: absent, a plain tag such as
      `"credentials"`, or an object whose `data.message` may be present. */
  datatype ErrorField = NoError | ErrorTag(tag: string) | ErrorObject(dataMessage: Option<string>)

  /** The decoded members of a reply object that the connector reads. */
  datatype Reply = Reply(
    success: bool,
    error: ErrorField,
    message: Option<string>,
    data: Option<Remote>)

  /** A decoded JSON body: the top-level object and, when it has a `result`
      member, that member. */
  datatype Payload = Payload(top: Reply, result: Option<Reply>)

  /** The reply the connector reads: a `result` envelope is unwrapped. */
  function Unwrap(p: Payload): (r: Reply)
    ensures p.result.Some? ==> r == p.result.value
    ensures p.result.None? ==> r == p.top
  {
    if p.result.Some? then p.result.value else p.top
  }

  /** An HTTP response of the remote connector. `text` is the raw body. */
  datatype Response = Response(status: int, payload: Payload, text: string)

  predicate Offline(status: int) { status == 502 || status == 503 || status == 504 }
}

=== FILE: initial_sync.dfy ===
/** The initial-sync wizard (`exact.initial_sync`): its linear step machine,
    the comparison of the local records of a step with the remote ones that
    produces the wizard's lines, the buttons it offers, and the selection of
    the moves an initial move sync queues. */
module InitialSync {
  import opened Common
  import opened Transactions
  import Journals
  import SyncLines
  import SyncMixin
  import Moves

  // ---------------------------------------------------------------------
  // The step machine

  /** `get_step_order`: the steps in the order the state field declares them. */
  const StepOrder: seq<Step> := [IntroStep, JournalsStep, AccountsStep, TaxesStep, PaymentTermsStep,
                                 ContactsStep, MovesStep, MovesInitialStep, DoneStep]

  /** `order.index(state)`: the position of a step in the order; every step
      occurs exactly once. */
  function IndexOf(s: Step): (i: nat)
    ensures i < |StepOrder| && StepOrder[i] == s
    ensures forall j :: 0 <= j < |StepOrder| && StepOrder[j] == s ==> j == i
  {
    match s
    case IntroStep => 0
    case JournalsStep => 1
    case AccountsStep => 2
    case TaxesStep => 3
    case PaymentTermsStep => 4
    case ContactsStep => 5
    case MovesStep => 6
    case MovesInitialStep => 7
    case DoneStep => 8
  }

  /** `action_previous`: one step back, staying at the first step. */
  function Previous(s: Step): (r: Step)
    ensures s == IntroStep ==> r == IntroStep
    ensures s != IntroStep ==> IndexOf(r) + 1 == IndexOf(s)
  {
    var i := IndexOf(s);
    if 0 < i then StepOrder[i - 1] else IntroStep
  }

  /** `action_next` as written: its guard `index < len(order)` always holds,
      so at the last step it indexes past the end of the order. */
  function NextAsWritten(s: Step): (r: Result<Step>)
    ensures r.Err? <==> s == DoneStep
    ensures r.Err? ==> r.failure == IndexOutOfRange
    ensures r.Ok? ==> IndexOf(r.value) == IndexOf(s) + 1
  {
    var i := IndexOf(s);
    if i + 1 < |StepOrder| then Ok(StepOrder[i + 1]) else Err(IndexOutOfRange)
  }

  /** `action_next` as its fallback to `done` evidently intends: one step
      forward, staying at the last step. */
  function Next(s: Step): (r: Step)
    ensures s == DoneStep ==> r == DoneStep
    ensures s != DoneStep ==> IndexOf(r) == IndexOf(s) + 1
  {
    var i := IndexOf(s);
    if i + 1 < |StepOrder| then StepOrder[i + 1] else DoneStep
  }

  /** The corrected step agrees with `action_next` wherever `action_next`
      does not fail, and it fails only at the last step. */
  lemma NextAgreesBeforeDone(s: Step)
    ensures s != DoneStep ==> NextAsWritten(s) == Ok(Next(s))
    ensures NextAsWritten(DoneStep) == Err(IndexOutOfRange) && Next(DoneStep) == DoneStep
  {
  }

  /** Going forward and back returns to the start, and so does going back and
      forward, away from the ends. */
  lemma NextPreviousRoundTrip(s: Step)
    ensures s != DoneStep ==> Previous(Next(s)) == s
    ensures s != IntroStep ==> Next(Previous(s)) == s
  {
  }

  /** `get_relevant_model`: the model whose records a step reconciles. */
  function RelevantModel(s: Step): (r: Option<string>)
    ensures r.Some? <==> StepEntity(s).Some?
    ensures r.Some? ==> r.value == ModelName(StepEntity(s).value)
  {
    match s
    case JournalsStep => Some("account.journal")
    case AccountsStep => Some("account.account")
    case TaxesStep => Some("account.tax")
    case PaymentTermsStep => Some("account.payment.term")
    case ContactsStep => Some("res.partner")
    case _ => None
  }

  /** Different reconciling steps fetch different models. */
  lemma RelevantModelInjective(s: Step, t: Step)
    requires RelevantModel(s).Some? && RelevantModel(s) == RelevantModel(t)
    ensures s == t
  {
    ModelNameInjective(StepEntity(s).value, StepEntity(t).value);
  }

  // ---------------------------------------------------------------------
  // Fetching the remote records

  /** A message is given when it is a non-empty string. */
  predicate HasMessage(m: Option<string>) {
    m.Some? && m.value != ""
  }

  /** `get_data_from_exact` on the connector's response: the remote records
      of a successful reply, or the reason the step cannot be loaded. */
  function FetchRemote(resp: Response): (r: Result<Remote>)
    ensures r.Ok? <==> resp.status == 200 && Unwrap(resp.payload).success && Unwrap(resp.payload).data.Some?
    ensures r.Ok? ==> r.value == Unwrap(resp.payload).data.value
    // a failing reply: its own message, else the message of its error object
    ensures resp.status == 200 && !Unwrap(resp.payload).success && HasMessage(Unwrap(resp.payload).message) ==>
              r == Err(RemoteMessage(Unwrap(resp.payload).message.value))
    ensures resp.status == 200 && !Unwrap(resp.payload).success && !HasMessage(Unwrap(resp.payload).message) ==>
              match Unwrap(resp.payload).error
              case ErrorObject(Some(m)) => r == Err(RemoteMessage(m))
              case ErrorObject(None) => r == Err(RemoteGenericFailure)
              case NoError => r == Err(RemoteGenericFailure)
              case ErrorTag(_) => r == Err(MalformedReply)
    ensures resp.status != 200 ==> r == Err(if Offline(resp.status) then ConnectorOffline else NoRemoteData)
  {
    if resp.status == 200 then
      var reply := Unwrap(resp.payload);
      if reply.success then
        if reply.data.Some? then Ok(reply.data.value) else Err(MalformedReply)
      else if HasMessage(reply.message) then Err(RemoteMessage(reply.message.value))
      else
        match reply.error
        case ErrorObject(m) => Err(if m.Some? then RemoteMessage(m.value) else RemoteGenericFailure)
        case NoError => Err(RemoteGenericFailure)
        case ErrorTag(_) => Err(MalformedReply)
    else if Offline(resp.status) then Err(ConnectorOffline)
    else Err(NoRemoteData)
  }

  // ---------------------------------------------------------------------
  // The buttons

  datatype Actions = Actions(
    update: bool,
    archive: bool,
    remove: bool,
    importing: bool,
    exporting: bool,
    next: bool,
    initialMoveSync: bool)

  /** An invalid line the update button is offered for: it has a code, and
      either lacks one locally or links a record update can write to. */
  predicate OffersUpdate(l: SyncLines.Line) {
    && HasCode(l.code)
    && (l.reason == Some(SyncLines.NoCode)
        || ((l.reason == Some(SyncLines.NotOdoo) || l.reason == Some(SyncLines.NotExact))
            && (l.journal.Some? || l.tax.Some? || l.paymentTerm.Some? || l.partner.Some?)))
  }

  /** An invalid line missing remotely, for want of a code or of a counterpart. */
  predicate MissingRemotely(l: SyncLines.Line) {
    l.reason == Some(SyncLines.NoCode) || l.reason == Some(SyncLines.NotExact)
  }

  /** The wizard's invalid lines. */
  function Invalid(lines: seq<SyncLines.Line>): (r: seq<SyncLines.Line>)
    ensures forall l :: l in r <==> l in lines && l.invalid
  {
    if |lines| == 0 then []
    else
      assert forall l :: l in lines <==> l == lines[0] || l in lines[1..];
      (if lines[0].invalid then [lines[0]] else []) + Invalid(lines[1..])
  }

  /** `_compute_available_actions` for a wizard at `state` with lines `lines`,
      start date `start`, today `today`, and whether journals are chosen. */
  function AvailableActions(state: Step, lines: seq<SyncLines.Line>, start: int, today: int, journalsChosen: bool): (a: Actions)
    // accounts are matched on their code: neither updated nor archived
    ensures state == AccountsStep ==> !a.update && !a.archive
    ensures state != AccountsStep ==> (a.update <==> exists l :: l in lines && l.invalid && OffersUpdate(l))
    ensures state != AccountsStep ==> a.archive == a.remove
    ensures a.remove <==> exists l :: l in lines && l.invalid && MissingRemotely(l)
    // importing and exporting belong to the contacts step
    ensures a.importing <==> state == ContactsStep
    ensures a.exporting <==> state == ContactsStep && a.remove
    // the last step has no next; moves steps always have one
    ensures state == DoneStep ==> !a.next
    ensures state != DoneStep ==>
              (a.next <==> state == MovesStep || state == MovesInitialStep
                           || forall l :: l in lines && l.invalid ==> !l.inOdoo)
    ensures a.initialMoveSync <==> state == MovesInitialStep && start <= today && journalsChosen
  {
    var inv := Invalid(lines);
    var update := exists l :: l in inv && OffersUpdate(l);
    var missing := exists l :: l in inv && MissingRemotely(l);
    var noneLocal := forall l :: l in inv ==> !l.inOdoo;
    Actions(
      update && state != AccountsStep,
      missing && state != AccountsStep,
      missing,
      state == ContactsStep,
      state == ContactsStep && missing,
      // `_compute_available_actions` also lists a state "init", which no step is
      (noneLocal || state == MovesStep || state == MovesInitialStep) && state != DoneStep,
      state == MovesInitialStep && start <= today && journalsChosen)
  }

  /** The next button never offers the step `action_next` cannot take. */
  lemma NextButtonNeverFails(state: Step, lines: seq<SyncLines.Line>, start: int, today: int, journalsChosen: bool)
    requires AvailableActions(state, lines, start, today, journalsChosen).next
    ensures NextAsWritten(state).Ok?
  {
  }

  /** Where update is not offered, `action_update` on the invalid lines has
      nothing to do. */
  lemma NoUpdateButtonNoUpdate(state: Step, lines: seq<SyncLines.Line>, start: int, today: int, journalsChosen: bool,
                               recs: Records)
    requires state != AccountsStep && !AvailableActions(state, lines, start, today, journalsChosen).update
    requires SyncLines.Resolves(Invalid(lines), recs)
    ensures SyncLines.ActionUpdate(Invalid(lines), recs) == (Invalid(lines), recs)
  {
    var inv := Invalid(lines);
    var r := SyncLines.ActionUpdate(inv, recs);
    forall i | 0 <= i < |inv| ensures r.0[i] == inv[i] {
      var l := inv[i];
      assert l in inv;
      assert !OffersUpdate(l);
      if SyncLines.Updatable(l) {
        assert l.reason.Some? && HasCode(l.code);
        assert !l.reason.value.NoCode?;
        assert l.reason.value.NotOdoo? || l.reason.value.NotExact?;
        assert l.journal.None? && l.tax.None? && l.paymentTerm.None? && l.partner.None?;
        forall e | e != AccountE ensures SyncLines.Link(l, e).None? {
        }
      }
    }
    assert |r.0| == |inv|;
    assert r.0 == inv;
    forall x | x in recs ensures r.1[x] == recs[x] {
      SyncLines.ActionUpdateWritesLinkedCodes(inv, recs, x);
    }
    assert r.1 == recs;
  }

  /** Where remove is not offered, archiving the invalid lines has nothing to
      do either. */
  lemma NoRemoveButtonNoArchive(state: Step, lines: seq<SyncLines.Line>, start: int, today: int, journalsChosen: bool,
                                recs: Records)
    requires !AvailableActions(state, lines, start, today, journalsChosen).remove
    requires SyncLines.Resolves(Invalid(lines), recs)
    ensures SyncLines.ActionArchive(Invalid(lines), recs) == (Invalid(lines), recs)
  {
    var inv := Invalid(lines);
    var r := SyncLines.ActionArchive(inv, recs);
    forall i | 0 <= i < |inv| ensures !SyncLines.Discardable(inv[i]) {
      assert inv[i] in inv;
    }
    assert r.0 == inv;
    forall x | x in recs ensures r.1[x] == recs[x] {
      SyncLines.ArchiveTouchesTargets(inv, recs, x);
    }
    assert r.1 == recs;
  }

  /** The same against the database: the lines and the records stay as they
      are, no partner is queued and no transaction is created. */
  lemma NoRemoveButtonNoArchiveDb(state: Step, lines: seq<SyncLines.Line>, start: int, today: int, journalsChosen: bool,
                                  db: Db, ctx: SyncMixin.Context, fields: map<string, SyncMixin.FieldType>,
                                  owners: Ref -> seq<nat>, now: int)
    requires !AvailableActions(state, lines, start, today, journalsChosen).remove
    requires Fresh(db) && SyncLines.Resolves(Invalid(lines), db.records)
    ensures var r := SyncLines.ActionArchiveDb(Invalid(lines), db, ctx, fields, owners, now);
      r.0 == Invalid(lines) && r.1.records == db.records && r.1.txs == db.txs
  {
    var inv := Invalid(lines);
    forall i | 0 <= i < |inv| ensures !SyncLines.Discardable(inv[i]) {
      assert inv[i] in inv;
    }
    SyncLines.ArchiveDbNothingDiscardable(inv, db, ctx, fields, owners, now);
  }

  /** Where export is not offered at the contacts step, exporting the invalid
      lines queues nothing. */
  lemma NoExportButtonNoExport(lines: seq<SyncLines.Line>, start: int, today: int, journalsChosen: bool,
                               db: Db, wizards: map<nat, SyncLines.Wizard>, now: int)
    requires !AvailableActions(ContactsStep, lines, start, today, journalsChosen).exporting
    requires SyncLines.ExportReady(db, Invalid(lines), wizards)
    ensures SyncLines.ActionExport(db, Invalid(lines), wizards, now) == db
  {
    var inv := Invalid(lines);
    forall i | 0 <= i < |inv| ensures !SyncLines.Exportable(inv[i]) {
      assert inv[i] in inv;
    }
  }

  // ---------------------------------------------------------------------
  // Comparing local and remote records

  /** What the comparison reads of a local record of the step's model. */
  datatype Local = Local(id: nat, name: string, code: Code, status: Option<SyncStatus>)

  /** The record's code is a key of the remote records. An empty code is
      never one. */
  predicate Matched(remote: Remote, l: Local) {
    HasCode(l.code) && l.code in remote.entries
  }

  /** A contact already queued, syncing or synced is not flagged. */
  predicate WillBeSynced(step: Step, l: Local) {
    step == ContactsStep && l.status.Some? && l.status.value != NothingToSync
  }

  /** How the comparison classifies a local record. */
  datatype Kind = MatchedK | WillBeSyncedK | FlaggedK

  function KindOf(step: Step, remote: Remote, l: Local): Kind {
    if Matched(remote, l) then MatchedK
    else if WillBeSynced(step, l) then WillBeSyncedK
    else FlaggedK
  }

  /** A line of the wizard with nothing set but its id and wizard, linking
      record `recId` of the step's kind. */
  function BareLine(id: nat, sync: nat, e: Entity, recId: nat): (l: SyncLines.Line)
    ensures SyncLines.Link(l, e) == Some(recId)
    ensures forall f :: f != e ==> SyncLines.Link(l, f).None?
  {
    SyncLines.Line(id, sync,
                   if e == JournalE then Some(recId) else None,
                   if e == AccountE then Some(recId) else None,
                   if e == TaxE then Some(recId) else None,
                   if e == PaymentTermE then Some(recId) else None,
                   if e == PartnerE then Some(recId) else None,
                   "", "", false, false, "", false, None, None)
  }

  /** The line of a local record. */
  function LocalLine(sync: nat, step: Step, remote: Remote, l: Local, id: nat): SyncLines.Line
    requires StepEntity(step).Some?
  {
    var base := BareLine(id, sync, StepEntity(step).value, l.id).(nameInOdoo := l.name, inOdoo := true, code := l.code);
    match KindOf(step, remote, l)
    case MatchedK => base.(nameInExact := remote.entries[l.code].name, inExact := true)
    case WillBeSyncedK => base.(nameInExact := "Will be synced", inExact := true)
    case FlaggedK => base.(invalid := true, reason := Some(if HasCode(l.code) then SyncLines.NotExact else SyncLines.NoCode))
  }

  /** The line of a remote record no local record matched. */
  function RemoteLine(sync: nat, remote: Remote, code: Code, id: nat): SyncLines.Line
    requires code in remote.entries
  {
    SyncLines.Line(id, sync, None, None, None, None, None, "", remote.entries[code].name, false, true, code,
                   true, Some(SyncLines.NotOdoo), Some(remote.entries[code].fields))
  }

  /** What a local record's line shows, by kind. */
  lemma LocalLineFacts(sync: nat, step: Step, remote: Remote, l: Local, id: nat)
    requires StepEntity(step).Some?
    ensures var line := LocalLine(sync, step, remote, l, id);
      && SyncLines.Link(line, StepEntity(step).value) == Some(l.id)
      && line.inOdoo && line.code == l.code && line.nameInOdoo == l.name
      && (Matched(remote, l) ==> !line.invalid && line.inExact && line.nameInExact == remote.entries[l.code].name)
      && (!Matched(remote, l) && WillBeSynced(step, l) ==> !line.invalid && line.inExact)
      && (!Matched(remote, l) && !WillBeSynced(step, l) ==>
            && line.invalid && !line.inExact
            && line.reason == Some(if HasCode(l.code) then SyncLines.NotExact else SyncLines.NoCode))
  {
  }

  /** The lines of the local records, numbered from `firstId`. */
  function LocalLines(sync: nat, step: Step, remote: Remote, locals: seq<Local>, firstId: nat): (r: seq<SyncLines.Line>)
    requires StepEntity(step).Some?
  {
    seq(|locals|, i requires 0 <= i < |locals| => LocalLine(sync, step, remote, locals[i], firstId + i))
  }

  /** The lines of the unmatched remote codes, numbered from `firstId`. */
  function RemoteLines(sync: nat, remote: Remote, codes: seq<Code>, firstId: nat): (r: seq<SyncLines.Line>)
    requires forall c :: c in codes ==> c in remote.entries
  {
    seq(|codes|, j requires 0 <= j < |codes| => RemoteLine(sync, remote, codes[j], firstId + j))
  }

  /** The number of local records of a kind. */
  function CountKind(step: Step, remote: Remote, locals: seq<Local>, k: Kind): nat
    decreases |locals|
  {
    if |locals| == 0 then 0
    else (if KindOf(step, remote, locals[0]) == k then 1 else 0) + CountKind(step, remote, locals[1..], k)
  }

  /** `existing_codes`: the codes of the matched local records, one entry per
      record. */
  function MatchedCodes(remote: Remote, locals: seq<Local>): seq<Code>
    decreases |locals|
  {
    if |locals| == 0 then []
    else (if Matched(remote, locals[0]) then [locals[0].code] else []) + MatchedCodes(remote, locals[1..])
  }

  /** The matched codes are the codes of the matched local records. */
  lemma {:induction false} MatchedCodesMembers(remote: Remote, locals: seq<Local>)
    ensures forall c :: c in MatchedCodes(remote, locals) <==>
                        exists i :: 0 <= i < |locals| && Matched(remote, locals[i]) && locals[i].code == c
    decreases |locals|
  {
    if |locals| > 0 {
      MatchedCodesMembers(remote, locals[1..]);
      assert forall i :: 0 < i < |locals| ==> locals[i] == locals[1..][i - 1];
      forall c | exists i :: 0 <= i < |locals| && Matched(remote, locals[i]) && locals[i].code == c
        ensures c in MatchedCodes(remote, locals)
      {
        var i :| 0 <= i < |locals| && Matched(remote, locals[i]) && locals[i].code == c;
        if i > 0 {
          assert Matched(remote, locals[1..][i - 1]);
        }
      }
    }
  }

  /** Every step's counts add up: one entry per matched record. */
  lemma {:induction false} MatchedCodesCount(step: Step, remote: Remote, locals: seq<Local>)
    ensures |MatchedCodes(remote, locals)| == CountKind(step, remote, locals, MatchedK)
    decreases |locals|
  {
    if |locals| > 0 {
      MatchedCodesCount(step, remote, locals[1..]);
    }
  }

  /** `not_existing_codes`: the remote codes, in remote order, that no local
      record matched. */
  function Unmatched(codes: seq<Code>, matched: seq<Code>): (r: seq<Code>)
    ensures forall c :: c in r <==> c in codes && c !in matched
    ensures |r| <= |codes|
    decreases |codes|
  {
    if |codes| == 0 then []
    else
      var rest := Unmatched(codes[1..], matched);
      assert forall c :: c in codes <==> c == codes[0] || c in codes[1..];
      (if codes[0] !in matched then [codes[0]] else []) + rest
  }

  /** `idx` lists the positions of `codes` holding an unmatched code, in
      increasing order, and the unmatched codes are the codes at them. */
  predicate UnmatchedAt(codes: seq<Code>, matched: seq<Code>, idx: seq<nat>) {
    var r := Unmatched(codes, matched);
    Ascending(idx, |codes|) && |idx| == |r|
    && (forall j :: 0 <= j < |idx| ==> r[j] == codes[idx[j]])
    && forall i :: 0 <= i < |codes| && codes[i] !in matched ==> i in idx
  }

  /** One step of `Unmatched`: the first code, when unmatched, is picked in
      front of the tail's picks. */
  lemma UnmatchedAtCons(codes: seq<Code>, matched: seq<Code>, tail: seq<nat>, keep: bool)
    requires |codes| > 0 && UnmatchedAt(codes[1..], matched, tail)
    requires keep <==> codes[0] !in matched
    ensures UnmatchedAt(codes, matched, Shift(tail, keep))
  {
    var idx := Shift(tail, keep);
    ShiftAscending(tail, |codes| - 1, keep);
    var rest := Unmatched(codes[1..], matched);
    var r := Unmatched(codes, matched);
    assert r == (if keep then [codes[0]] else []) + rest;
    var d := |idx| - |tail|;
    forall j | 0 <= j < |idx|
      ensures r[j] == codes[idx[j]]
    {
      if j >= d {
        ShiftAt(tail, keep, j - d);
        assert r[j] == rest[j - d];
      }
    }
    forall i | 0 <= i < |codes| && codes[i] !in matched
      ensures i in idx
    {
      if i > 0 {
        assert codes[1..][i - 1] == codes[i];
      }
      ShiftHits(tail, keep, i);
    }
  }

  /** The unmatched codes keep remote order: they are the codes at the
      unmatched positions, one each, in increasing position order. */
  lemma {:induction false} UnmatchedInOrder(codes: seq<Code>, matched: seq<Code>)
    ensures exists idx :: UnmatchedAt(codes, matched, idx)
    decreases |codes|
  {
    if |codes| == 0 {
      assert UnmatchedAt(codes, matched, []);
    } else {
      UnmatchedInOrder(codes[1..], matched);
      var tail :| UnmatchedAt(codes[1..], matched, tail);
      UnmatchedAtCons(codes, matched, tail, codes[0] !in matched);
    }
  }

  datatype DiffResult = DiffResult(lines: seq<SyncLines.Line>, validCount: nat, invalidCount: nat)

  /** The lines `determine_valid_invalid` creates for a reconciling step, with
      the valid and invalid counts it sets: the local records' lines, then
      one line per unmatched remote record, numbered from `firstId`. */
  function Diff(sync: nat, step: Step, remote: Remote, locals: seq<Local>, firstId: nat): (r: DiffResult)
    requires StepEntity(step).Some? && WellFormedRemote(remote)
    ensures var unmatched := Unmatched(remote.codes, MatchedCodes(remote, locals));
      |r.lines| == |locals| + |unmatched|
  {
    var matched := MatchedCodes(remote, locals);
    var unmatched := Unmatched(remote.codes, matched);
    var lines := LocalLines(sync, step, remote, locals, firstId) + RemoteLines(sync, remote, unmatched, firstId + |locals|);
    DiffResult(lines, |matched|, CountKind(step, remote, locals, FlaggedK) + |unmatched|)
  }

  /** The remote codes no local record matched. */
  function UnmatchedCodes(remote: Remote, locals: seq<Local>): seq<Code> {
    Unmatched(remote.codes, MatchedCodes(remote, locals))
  }

  /** The comparison's lines are the local records' lines, then the
      unmatched remote codes' lines. */
  lemma DiffLines(sync: nat, step: Step, remote: Remote, locals: seq<Local>, firstId: nat)
    requires StepEntity(step).Some? && WellFormedRemote(remote)
    ensures forall c :: c in UnmatchedCodes(remote, locals) ==> c in remote.entries
    ensures Diff(sync, step, remote, locals, firstId).lines
            == LocalLines(sync, step, remote, locals, firstId)
               + RemoteLines(sync, remote, UnmatchedCodes(remote, locals), firstId + |locals|)
  {
  }

  /** Line `k` of the comparison, for `k` below the number of local
      records, is the line of local record `k`. */
  lemma DiffAtLocal(sync: nat, step: Step, remote: Remote, locals: seq<Local>, firstId: nat, k: nat)
    requires StepEntity(step).Some? && WellFormedRemote(remote)
    requires k < |locals|
    ensures var r := Diff(sync, step, remote, locals, firstId);
      k < |r.lines| && r.lines[k] == LocalLine(sync, step, remote, locals[k], firstId + k)
  {
    DiffLines(sync, step, remote, locals, firstId);
    var ll := LocalLines(sync, step, remote, locals, firstId);
    assert Diff(sync, step, remote, locals, firstId).lines[k] == ll[k];
  }

  /** The later lines are those of the unmatched remote codes, in order. */
  lemma DiffAtRemote(sync: nat, step: Step, remote: Remote, locals: seq<Local>, firstId: nat, k: nat)
    requires StepEntity(step).Some? && WellFormedRemote(remote)
    requires |locals| <= k < |Diff(sync, step, remote, locals, firstId).lines|
    ensures var unmatched := UnmatchedCodes(remote, locals);
      && k - |locals| < |unmatched| && unmatched[k - |locals|] in remote.entries
      && Diff(sync, step, remote, locals, firstId).lines[k]
         == RemoteLine(sync, remote, unmatched[k - |locals|], firstId + k)
  {
    DiffLines(sync, step, remote, locals, firstId);
    var unmatched := UnmatchedCodes(remote, locals);
    var rl := RemoteLines(sync, remote, unmatched, firstId + |locals|);
    assert Diff(sync, step, remote, locals, firstId).lines[k] == rl[k - |locals|];
  }

  lemma DiffIdAt(sync: nat, step: Step, remote: Remote, locals: seq<Local>, firstId: nat, k: nat)
    requires StepEntity(step).Some? && WellFormedRemote(remote)
    requires k < |Diff(sync, step, remote, locals, firstId).lines|
    ensures var r := Diff(sync, step, remote, locals, firstId);
      r.lines[k].id == firstId + k && r.lines[k].sync == sync
  {
    if k < |locals| {
      DiffAtLocal(sync, step, remote, locals, firstId, k);
    } else {
      DiffAtRemote(sync, step, remote, locals, firstId, k);
    }
  }

  /** The lines belong to the wizard and no two share an id: the model
      numbers them consecutively in its own order. */
  lemma DiffNumbering(sync: nat, step: Step, remote: Remote, locals: seq<Local>, firstId: nat)
    requires StepEntity(step).Some? && WellFormedRemote(remote)
    ensures var r := Diff(sync, step, remote, locals, firstId);
      forall k :: 0 <= k < |r.lines| ==> r.lines[k].id == firstId + k && r.lines[k].sync == sync
    ensures var r := Diff(sync, step, remote, locals, firstId);
      forall a, b :: 0 <= a < b < |r.lines| ==> r.lines[a].id != r.lines[b].id
  {
    var r := Diff(sync, step, remote, locals, firstId);
    forall k | 0 <= k < |r.lines| ensures r.lines[k].id == firstId + k && r.lines[k].sync == sync {
      DiffIdAt(sync, step, remote, locals, firstId, k);
    }
  }

  /** Each local record gets the line of its kind: matched records are valid
      and carry the remote name; unmatched contacts on their way are valid;
      the others are invalid, for want of a counterpart if they have a code,
      else for want of a code. */
  lemma DiffLocalLines(sync: nat, step: Step, remote: Remote, locals: seq<Local>, firstId: nat)
    requires StepEntity(step).Some? && WellFormedRemote(remote)
    ensures var r := Diff(sync, step, remote, locals, firstId);
      var e := StepEntity(step).value;
      forall i :: 0 <= i < |locals| ==>
        && SyncLines.Link(r.lines[i], e) == Some(locals[i].id)
        && r.lines[i].inOdoo && r.lines[i].code == locals[i].code && r.lines[i].nameInOdoo == locals[i].name
        && (Matched(remote, locals[i]) ==>
              !r.lines[i].invalid && r.lines[i].inExact && r.lines[i].nameInExact == remote.entries[locals[i].code].name)
        && (!Matched(remote, locals[i]) && WillBeSynced(step, locals[i]) ==> !r.lines[i].invalid && r.lines[i].inExact)
        && (!Matched(remote, locals[i]) && !WillBeSynced(step, locals[i]) ==>
              && r.lines[i].invalid && !r.lines[i].inExact
              && r.lines[i].reason == Some(if HasCode(locals[i].code) then SyncLines.NotExact else SyncLines.NoCode))
  {
    var r := Diff(sync, step, remote, locals, firstId);
    var e := StepEntity(step).value;
    forall i | 0 <= i < |locals|
      ensures SyncLines.Link(r.lines[i], e) == Some(locals[i].id)
      ensures r.lines[i].inOdoo && r.lines[i].code == locals[i].code && r.lines[i].nameInOdoo == locals[i].name
      ensures Matched(remote, locals[i]) ==>
                !r.lines[i].invalid && r.lines[i].inExact && r.lines[i].nameInExact == remote.entries[locals[i].code].name
      ensures !Matched(remote, locals[i]) && WillBeSynced(step, locals[i]) ==> !r.lines[i].invalid && r.lines[i].inExact
      ensures !Matched(remote, locals[i]) && !WillBeSynced(step, locals[i]) ==>
                && r.lines[i].invalid && !r.lines[i].inExact
                && r.lines[i].reason == Some(if HasCode(locals[i].code) then SyncLines.NotExact else SyncLines.NoCode)
    {
      DiffAtLocal(sync, step, remote, locals, firstId, i);
      LocalLineFacts(sync, step, remote, locals[i], firstId + i);
    }
  }

  /** The lines after the local ones are `not_odoo` lines: invalid, not
      local, and carrying the remote data of their code. */
  lemma DiffRemoteLines(sync: nat, step: Step, remote: Remote, locals: seq<Local>, firstId: nat)
    requires StepEntity(step).Some? && WellFormedRemote(remote)
    ensures var r := Diff(sync, step, remote, locals, firstId);
      forall k :: |locals| <= k < |r.lines| ==>
        && r.lines[k].reason == Some(SyncLines.NotOdoo) && r.lines[k].invalid && !r.lines[k].inOdoo && r.lines[k].inExact
        && r.lines[k].code in remote.entries
        && r.lines[k].data == Some(remote.entries[r.lines[k].code].fields)
        && SyncLines.Unlinked(r.lines[k]) == r.lines[k]
  {
    var r := Diff(sync, step, remote, locals, firstId);
    var unmatched := UnmatchedCodes(remote, locals);
    forall k | |locals| <= k < |r.lines|
      ensures unmatched[k - |locals|] in remote.entries
      ensures r.lines[k] == RemoteLine(sync, remote, unmatched[k - |locals|], firstId + k)
    {
      DiffAtRemote(sync, step, remote, locals, firstId, k);
    }
  }

  /** Exactly the remote codes no local record matched get a line after the
      local ones. */
  lemma DiffRemoteCodes(sync: nat, step: Step, remote: Remote, locals: seq<Local>, firstId: nat)
    requires StepEntity(step).Some? && WellFormedRemote(remote)
    ensures var r := Diff(sync, step, remote, locals, firstId);
      forall c :: c in remote.codes ==>
        ((exists k :: |locals| <= k < |r.lines| && r.lines[k].code == c)
         <==> !exists i :: 0 <= i < |locals| && Matched(remote, locals[i]) && locals[i].code == c)
  {
    var r := Diff(sync, step, remote, locals, firstId);
    var unmatched := UnmatchedCodes(remote, locals);
    MatchedCodesMembers(remote, locals);
    forall k | |locals| <= k < |r.lines|
      ensures r.lines[k].code == unmatched[k - |locals|]
    {
      DiffAtRemote(sync, step, remote, locals, firstId, k);
    }
    forall c | c in remote.codes
      ensures (exists k :: |locals| <= k < |r.lines| && r.lines[k].code == c)
              <==> !exists i :: 0 <= i < |locals| && Matched(remote, locals[i]) && locals[i].code == c
    {
      if c in unmatched {
        var j :| 0 <= j < |unmatched| && unmatched[j] == c;
        assert r.lines[|locals| + j].code == c;
      }
    }
  }

  /** The number of invalid lines. */
  function CountInvalid(lines: seq<SyncLines.Line>): nat
    decreases |lines|
  {
    if |lines| == 0 then 0
    else (if lines[0].invalid then 1 else 0) + CountInvalid(lines[1..])
  }

  lemma {:induction false} CountInvalidAppend(a: seq<SyncLines.Line>, b: seq<SyncLines.Line>)
    ensures CountInvalid(a + b) == CountInvalid(a) + CountInvalid(b)
    decreases |a|
  {
    if |a| > 0 {
      assert (a + b)[0] == a[0] && (a + b)[1..] == a[1..] + b;
      CountInvalidAppend(a[1..], b);
    } else {
      assert a + b == b;
    }
  }

  lemma {:induction false} LocalLinesInvalid(sync: nat, step: Step, remote: Remote, locals: seq<Local>, firstId: nat)
    requires StepEntity(step).Some?
    ensures CountInvalid(LocalLines(sync, step, remote, locals, firstId)) == CountKind(step, remote, locals, FlaggedK)
    decreases |locals|
  {
    if |locals| > 0 {
      LocalLinesCons(sync, step, remote, locals, firstId);
      LocalLinesInvalid(sync, step, remote, locals[1..], firstId + 1);
    }
  }

  /** The local lines are the first record's line, then the others' lines. */
  lemma LocalLinesCons(sync: nat, step: Step, remote: Remote, locals: seq<Local>, firstId: nat)
    requires StepEntity(step).Some? && |locals| > 0
    ensures var ll := LocalLines(sync, step, remote, locals, firstId);
      && ll[0] == LocalLine(sync, step, remote, locals[0], firstId)
      && ll[1..] == LocalLines(sync, step, remote, locals[1..], firstId + 1)
  {
    var ll := LocalLines(sync, step, remote, locals, firstId);
    var tl := LocalLines(sync, step, remote, locals[1..], firstId + 1);
    forall i | 0 <= i < |tl| ensures ll[1..][i] == tl[i] {
      assert locals[1..][i] == locals[i + 1];
    }
  }

  lemma {:induction false} RemoteLinesInvalid(sync: nat, remote: Remote, codes: seq<Code>, firstId: nat)
    requires forall c :: c in codes ==> c in remote.entries
    ensures CountInvalid(RemoteLines(sync, remote, codes, firstId)) == |codes|
    decreases |codes|
  {
    if |codes| > 0 {
      var rl := RemoteLines(sync, remote, codes, firstId);
      assert forall c :: c in codes[1..] ==> c in codes;
      assert rl[1..] == RemoteLines(sync, remote, codes[1..], firstId + 1);
      assert rl[0].invalid;
      RemoteLinesInvalid(sync, remote, codes[1..], firstId + 1);
    }
  }

  lemma {:induction false} KindsPartition(step: Step, remote: Remote, locals: seq<Local>)
    ensures CountKind(step, remote, locals, MatchedK) + CountKind(step, remote, locals, WillBeSyncedK)
            + CountKind(step, remote, locals, FlaggedK) == |locals|
    decreases |locals|
  {
    if |locals| > 0 {
      KindsPartition(step, remote, locals[1..]);
    }
  }

  lemma DiffInvalidCount(sync: nat, step: Step, remote: Remote, locals: seq<Local>, firstId: nat)
    requires StepEntity(step).Some? && WellFormedRemote(remote)
    ensures var r := Diff(sync, step, remote, locals, firstId);
      r.invalidCount == CountInvalid(r.lines)
  {
    DiffLines(sync, step, remote, locals, firstId);
    var unmatched := UnmatchedCodes(remote, locals);
    var ll := LocalLines(sync, step, remote, locals, firstId);
    var rl := RemoteLines(sync, remote, unmatched, firstId + |locals|);
    CountInvalidAppend(ll, rl);
    LocalLinesInvalid(sync, step, remote, locals, firstId);
    RemoteLinesInvalid(sync, remote, unmatched, firstId + |locals|);
  }

  /** The counts the comparison sets: the invalid count is the number of
      invalid lines, and the valid count leaves out the contacts on their
      way, whose lines are valid too. */
  lemma DiffCounts(sync: nat, step: Step, remote: Remote, locals: seq<Local>, firstId: nat)
    requires StepEntity(step).Some? && WellFormedRemote(remote)
    ensures var r := Diff(sync, step, remote, locals, firstId);
      && r.invalidCount == CountInvalid(r.lines)
      && r.validCount + CountKind(step, remote, locals, WillBeSyncedK) + r.invalidCount == |r.lines|
      && r.validCount == CountKind(step, remote, locals, MatchedK)
  {
    DiffInvalidCount(sync, step, remote, locals, firstId);
    MatchedCodesCount(step, remote, locals);
    KindsPartition(step, remote, locals);
  }

  // ---------------------------------------------------------------------
  // The journals step turns on sending for sale and purchase journals

  /** Setting the send flag of one journal: the `write` runs the
      one-direction constraint, then the subscription check. */
  function EnableJournal(j: Journals.Journal, c: Company): Result<Journals.Journal> {
    var j1 :- Journals.CheckNoBothWaySync(j.(syncTo := true));
    Journals.CheckSubscriptionLevel(j1, c, true)
  }

  /** While comparing the journals, `determine_valid_invalid` sets the send
      flag of every sale and purchase journal; the first one that already
      fetches moves aborts the step. Both subscription levels enable them. */
  function EnableJournals(js: seq<Journals.Journal>, c: Company): (r: Result<seq<Journals.Journal>>)
    ensures r.Err? <==> exists i :: 0 <= i < |js| && Journals.SaleOrPurchase(js[i].jtype) && js[i].syncFrom
    ensures r.Err? ==> r.failure == BothWaySync
    ensures r.Ok? ==> |r.value| == |js|
    ensures r.Ok? ==> forall i :: 0 <= i < |js| ==>
              r.value[i] == if Journals.SaleOrPurchase(js[i].jtype) then js[i].(syncTo := true) else js[i]
    decreases |js|
  {
    if |js| == 0 then Ok([])
    else
      assert forall i :: 0 < i < |js| ==> js[i] == js[1..][i - 1];
      var j := js[0];
      var j1 :- if Journals.SaleOrPurchase(j.jtype) then EnableJournal(j, c) else Ok(j);
      var rest :- EnableJournals(js[1..], c);
      Ok([j1] + rest)
  }

  /** Enabling a sale or purchase journal that does not fetch moves succeeds
      and only sets its send flag. */
  lemma EnableJournalSets(j: Journals.Journal, c: Company)
    requires Journals.SaleOrPurchase(j.jtype)
    ensures EnableJournal(j, c) == if j.syncFrom then Err(BothWaySync) else Ok(j.(syncTo := true))
  {
    if !j.syncFrom {
      Journals.CheckKeepsPermitted(j.(syncTo := true), c, true);
    }
  }

  /** Passing the journals step twice changes nothing the first pass did not. */
  lemma EnableJournalsIdempotent(js: seq<Journals.Journal>, c: Company)
    requires EnableJournals(js, c).Ok?
    ensures EnableJournals(EnableJournals(js, c).value, c) == EnableJournals(js, c)
  {
    var r := EnableJournals(js, c).value;
    assert forall i :: 0 <= i < |r| ==> r[i].jtype == js[i].jtype && r[i].syncFrom == js[i].syncFrom;
    var r2 := EnableJournals(r, c).value;
    assert r2 == r;
  }

  // ---------------------------------------------------------------------
  // The initial move sync

  /** `get_initial_move_sync_domain`: the company's posted moves in sending
      journals that the connector has not seen yet, dated inside its sync
      window. */
  predicate InInitialDomain(c: Company, recs: Records, m: Moves.Move) {
    && m.company == c.id && m.posted && m.journalSynced
    && StatusAt(recs, Moves.MoveRef(m)) == Some(NothingToSync)
    && (c.syncFrom.None? || c.syncFrom.value <= m.date)
  }

  /** The company list after writing a company's sync start. */
  function SetSyncFrom(cs: seq<Company>, id: nat, from: Option<int>): (r: seq<Company>)
    ensures |r| == |cs|
    ensures forall k :: 0 <= k < |cs| ==>
              r[k] == if cs[k].id == id then cs[k].(syncFrom := from) else cs[k]
  {
    seq(|cs|, k requires 0 <= k < |cs| => if cs[k].id == id then cs[k].(syncFrom := from) else cs[k])
  }

  /** Looking a company up after the write finds the written start for that
      company, and everything else as before. */
  lemma {:induction false} FindAfterSetSyncFrom(cs: seq<Company>, id: nat, from: Option<int>, x: nat)
    ensures var f := FindCompany(SetSyncFrom(cs, id, from), x);
      f == if x == id && FindCompany(cs, x).Some? then Some(FindCompany(cs, x).value.(syncFrom := from))
           else FindCompany(cs, x)
    decreases |cs|
  {
    if |cs| > 0 {
      var r := SetSyncFrom(cs, id, from);
      assert r[1..] == SetSyncFrom(cs[1..], id, from);
      FindAfterSetSyncFrom(cs[1..], id, from, x);
    }
  }

  /** The moves of `ms` in the domain, in order. */
  function Selected(c: Company, recs: Records, ms: seq<Moves.Move>): (r: seq<Moves.Move>)
    ensures forall m :: m in r <==> m in ms && InInitialDomain(c, recs, m)
    ensures |r| <= |ms|
    decreases |ms|
  {
    if |ms| == 0 then []
    else
      assert forall m :: m in ms <==> m == ms[0] || m in ms[1..];
      (if InInitialDomain(c, recs, ms[0]) then [ms[0]] else []) + Selected(c, recs, ms[1..])
  }

  predicate ByDate(ms: seq<Moves.Move>) {
    forall i, j :: 0 <= i < j < |ms| ==> ms[i].date <= ms[j].date
  }

  /** Inserting a move into a date-ordered list after the moves of the same
      date. */
  function InsertByDate(m: Moves.Move, ms: seq<Moves.Move>): seq<Moves.Move>
    decreases |ms|
  {
    if |ms| == 0 then [m]
    else if m.date < ms[0].date then [m] + ms
    else [ms[0]] + InsertByDate(m, ms[1..])
  }

  /** Insertion adds exactly the move. */
  lemma {:induction false} InsertByDateAdds(m: Moves.Move, ms: seq<Moves.Move>)
    ensures multiset(InsertByDate(m, ms)) == multiset(ms) + multiset{m}
    decreases |ms|
  {
    if |ms| > 0 && m.date >= ms[0].date {
      InsertByDateAdds(m, ms[1..]);
      assert ms == [ms[0]] + ms[1..];
    }
  }

  /** Insertion keeps the order; the first move is the inserted one or the
      old first. */
  lemma {:induction false} InsertByDateSorted(m: Moves.Move, ms: seq<Moves.Move>)
    requires ByDate(ms)
    ensures var r := InsertByDate(m, ms);
      ByDate(r) && |r| > 0 && (r[0] == m || (|ms| > 0 && r[0] == ms[0]))
    decreases |ms|
  {
    if |ms| > 0 && m.date >= ms[0].date {
      var rest := InsertByDate(m, ms[1..]);
      InsertByDateSorted(m, ms[1..]);
      var r := [ms[0]] + rest;
      assert ms[0].date <= rest[0].date;
      forall i, j | 0 <= i < j < |r| ensures r[i].date <= r[j].date {
        if i == 0 && j > 1 {
          assert rest[0].date <= rest[j - 1].date;
        }
      }
    }
  }

  /** `order="date asc"`: the moves in chronological order. */
  function SortByDate(ms: seq<Moves.Move>): (r: seq<Moves.Move>)
    ensures ByDate(r)
    ensures multiset(r) == multiset(ms)
    decreases |ms|
  {
    if |ms| == 0 then []
    else
      assert ms == [ms[0]] + ms[1..];
      var rest := SortByDate(ms[1..]);
      InsertByDateSorted(ms[0], rest);
      InsertByDateAdds(ms[0], rest);
      InsertByDate(ms[0], rest)
  }

  /** The moves the initial move sync queues, oldest first. */
  function Chosen(c: Company, recs: Records, ms: seq<Moves.Move>): (r: seq<Moves.Move>)
    ensures ByDate(r)
    ensures forall m :: m in r <==> m in ms && InInitialDomain(c, recs, m)
  {
    var sel := Selected(c, recs, ms);
    var r := SortByDate(sel);
    assert forall m :: m in r <==> m in multiset(r);
    assert forall m :: m in sel <==> m in multiset(sel);
    r
  }

  /** The company as the domain sees it once the chosen start is written. */
  function Started(cs: seq<Company>, company: nat, start: Option<int>): Company
    requires FindCompany(cs, company).Some?
  {
    FindCompany(cs, company).value.(syncFrom := start)
  }

  /** A move of the domain passes the guard of its own queueing in initial
      mode, and its partner never blocks it there. */
  lemma InitialDomainEligible(cs: seq<Company>, c: Company, recs: Records, m: Moves.Move)
    requires FindCompany(cs, m.company) == Some(c)
    requires InInitialDomain(c, recs, m)
    ensures Moves.Eligible(cs, m, true)
    ensures !Moves.PartnerBlocks(recs, m, true)
  {
  }

  /** `action_do_initial_move_sync`: write the chosen sync start on the
      company, then queue the moves of the domain, oldest first, with the
      initial-sync relaxations and the required-field check as written. */
  function InitialMoveSync(db: Db, company: nat, start: Option<int>, ms: seq<Moves.Move>, now: int): (r: Result<Db>)
    requires Fresh(db) && FindCompany(db.companies, company).Some?
    requires forall m :: m in ms ==> Moves.MoveRef(m) in db.records
    ensures r.Ok? ==> Fresh(r.value) && r.value.companies == SetSyncFrom(db.companies, company, start)
    ensures r.Ok? ==> r.value.records.Keys == db.records.Keys
    ensures r.Ok? ==> forall k :: k in db.txs ==> k in r.value.txs && r.value.txs[k] == db.txs[k]
    ensures r.Ok? ==> (AtMostOneTodo(db.txs) ==> AtMostOneTodo(r.value.txs))
  {
    var db1 := db.(companies := SetSyncFrom(db.companies, company, start));
    FindAfterSetSyncFrom(db.companies, company, start, company);
    var chosen := Chosen(Started(db.companies, company, start), db.records, ms);
    Moves.QueueMoves(db1, chosen, true, true, now)
  }

  /** The database the moves are queued in: the chosen start written. */
  function WithStart(db: Db, company: nat, start: Option<int>): Db {
    db.(companies := SetSyncFrom(db.companies, company, start))
  }

  lemma InitialMoveSyncIs(db: Db, company: nat, start: Option<int>, ms: seq<Moves.Move>, now: int)
    requires Fresh(db) && FindCompany(db.companies, company).Some?
    requires forall m :: m in ms ==> Moves.MoveRef(m) in db.records
    ensures var chosen := Chosen(Started(db.companies, company, start), db.records, ms);
      && Fresh(WithStart(db, company, start))
      && (forall i :: 0 <= i < |chosen| ==> Moves.MoveRef(chosen[i]) in db.records)
      && InitialMoveSync(db, company, start, ms, now) == Moves.QueueMoves(WithStart(db, company, start), chosen, true, true, now)
  {
  }

  /** A chosen move is rejected exactly when its required fields check
      fails. */
  lemma ChosenRejectedIff(db: Db, company: nat, start: Option<int>, ms: seq<Moves.Move>)
    requires FindCompany(db.companies, company).Some?
    ensures var c := Started(db.companies, company, start);
      var chosen := Chosen(c, db.records, ms);
      (exists i :: 0 <= i < |chosen| && Moves.Rejected(WithStart(db, company, start), chosen[i], true, true)) <==>
        exists m :: m in ms && InInitialDomain(c, db.records, m) && Moves.CheckRequiredFields(m, db.records, true).Err?
  {
    var c := Started(db.companies, company, start);
    var chosen := Chosen(c, db.records, ms);
    InitialChosenEligible(db, company, start, ms);
    if exists m :: m in ms && InInitialDomain(c, db.records, m) && Moves.CheckRequiredFields(m, db.records, true).Err? {
      var m :| m in ms && InInitialDomain(c, db.records, m) && Moves.CheckRequiredFields(m, db.records, true).Err?;
      assert m in chosen && Moves.Rejected(WithStart(db, company, start), m, true, true);
      RejectedAt(WithStart(db, company, start), chosen, m);
    }
  }

  /** A rejected move of a list is rejected at some position of it. */
  lemma RejectedAt(db: Db, chosen: seq<Moves.Move>, m: Moves.Move)
    requires m in chosen && Moves.Rejected(db, m, true, true)
    ensures exists i :: 0 <= i < |chosen| && Moves.Rejected(db, chosen[i], true, true)
  {
    var i :| 0 <= i < |chosen| && chosen[i] == m;
  }

  /** The initial move sync fails exactly when a move of the domain misses a
      payment term, account or tax code; the partner never stops it. */
  lemma InitialMoveSyncFailsIff(db: Db, company: nat, start: Option<int>, ms: seq<Moves.Move>, now: int)
    requires Fresh(db) && FindCompany(db.companies, company).Some?
    requires forall m :: m in ms ==> Moves.MoveRef(m) in db.records
    ensures var c := Started(db.companies, company, start);
      InitialMoveSync(db, company, start, ms, now).Err? <==>
        exists m :: m in ms && InInitialDomain(c, db.records, m) && Moves.CheckRequiredFields(m, db.records, true).Err?
  {
    var chosen := Chosen(Started(db.companies, company, start), db.records, ms);
    InitialMoveSyncIs(db, company, start, ms, now);
    Moves.QueueMovesFailsIffRejected(WithStart(db, company, start), chosen, true, true, now);
    ChosenRejectedIff(db, company, start, ms);
  }

  /** Queueing eligible moves of one company queues each of them. */
  lemma QueuesEachOf(db: Db, chosen: seq<Moves.Move>, company: nat, now: int)
    requires Fresh(db) && forall i :: 0 <= i < |chosen| ==> Moves.MoveRef(chosen[i]) in db.records
    requires Moves.QueueMoves(db, chosen, true, true, now).Ok?
    requires forall m :: m in chosen ==> Moves.Eligible(db.companies, m, true) && m.company == company
    ensures var r := Moves.QueueMoves(db, chosen, true, true, now).value;
      forall m :: m in chosen ==>
        Moves.MoveRef(m) in r.records
        && r.records[Moves.MoveRef(m)].status == Some(Queued) && HasTodo(r.txs, company, Moves.MoveModel, m.id)
  {
    Moves.QueueMovesQueuesEligible(db, chosen, true, true, now);
  }

  /** When it succeeds, every move of the domain is queued with a todo
      transaction for the company. */
  lemma InitialMoveSyncQueues(db: Db, company: nat, start: Option<int>, ms: seq<Moves.Move>, now: int)
    requires Fresh(db) && FindCompany(db.companies, company).Some?
    requires forall m :: m in ms ==> Moves.MoveRef(m) in db.records
    requires InitialMoveSync(db, company, start, ms, now).Ok?
    ensures var r := InitialMoveSync(db, company, start, ms, now).value;
      var c := Started(db.companies, company, start);
      forall m :: m in ms && InInitialDomain(c, db.records, m) ==>
        r.records[Moves.MoveRef(m)].status == Some(Queued) && HasTodo(r.txs, company, Moves.MoveModel, m.id)
  {
    var c := Started(db.companies, company, start);
    InitialMoveSyncIs(db, company, start, ms, now);
    InitialChosenEligible(db, company, start, ms);
    QueuesEachOf(WithStart(db, company, start), Chosen(c, db.records, ms), company, now);
  }

  /** When it succeeds, every record other than the moves of the domain is
      as it was. */
  lemma InitialMoveSyncKeepsOthers(db: Db, company: nat, start: Option<int>, ms: seq<Moves.Move>, now: int)
    requires Fresh(db) && FindCompany(db.companies, company).Some?
    requires forall m :: m in ms ==> Moves.MoveRef(m) in db.records
    requires InitialMoveSync(db, company, start, ms, now).Ok?
    ensures var r := InitialMoveSync(db, company, start, ms, now).value;
      var c := Started(db.companies, company, start);
      forall x :: x in db.records && (forall m :: m in ms && InInitialDomain(c, db.records, m) ==> x != Moves.MoveRef(m)) ==>
        r.records[x] == db.records[x]
  {
    var c := Started(db.companies, company, start);
    InitialMoveSyncIs(db, company, start, ms, now);
    KeepsAllBut(WithStart(db, company, start), Chosen(c, db.records, ms), now);
  }

  /** Queueing moves leaves every record that is not one of them as it was. */
  lemma KeepsAllBut(db: Db, chosen: seq<Moves.Move>, now: int)
    requires Fresh(db) && forall i :: 0 <= i < |chosen| ==> Moves.MoveRef(chosen[i]) in db.records
    requires Moves.QueueMoves(db, chosen, true, true, now).Ok?
    ensures var r := Moves.QueueMoves(db, chosen, true, true, now).value;
      forall x :: x in db.records && (forall m :: m in chosen ==> x != Moves.MoveRef(m)) ==>
        x in r.records && r.records[x] == db.records[x]
  {
  }

  /** Every chosen move is eligible after the write of the start, and is
      rejected exactly when its required fields check fails. */
  lemma InitialChosenEligible(db: Db, company: nat, start: Option<int>, ms: seq<Moves.Move>)
    requires FindCompany(db.companies, company).Some?
    ensures var cs := SetSyncFrom(db.companies, company, start);
      var c := Started(db.companies, company, start);
      forall m :: m in Chosen(c, db.records, ms) ==>
        && Moves.Eligible(cs, m, true)
        && (Moves.Rejected(WithStart(db, company, start), m, true, true) <==> Moves.CheckRequiredFields(m, db.records, true).Err?)
  {
    var cs := SetSyncFrom(db.companies, company, start);
    FindAfterSetSyncFrom(db.companies, company, start, company);
    var c := Started(db.companies, company, start);
    forall m | m in Chosen(c, db.records, ms)
      ensures Moves.Eligible(cs, m, true)
      ensures Moves.Rejected(WithStart(db, company, start), m, true, true) <==> Moves.CheckRequiredFields(m, db.records, true).Err?
    {
      InitialDomainEligible(cs, c, db.records, m);
      Moves.ReadingsAgreeInitially(m, db.records, true);
    }
  }
}

=== FILE: journal.dfy ===
/** Subscription-level rules of journals (`account.journal`): which journals
    may send moves to the remote administration or fetch them from it, the
    one-direction rule, and the check that corrects or rejects journals
    whose flags the company's subscription level does not allow. */
module Journals {
  import opened Common

  datatype JournalType = Sale | Purchase | Cash | Bank | General

  datatype Journal = Journal(
    id: nat,
    company: nat,
    jtype: JournalType,
    syncTo: bool,    // `sync_with_exact_online`: send posted moves
    syncFrom: bool,  // `sync_from_exact_online`: fetch remote moves
    code: Code)

  predicate SaleOrPurchase(t: JournalType) { t == Sale || t == Purchase }

  datatype Availability = Availability(to: bool, from: bool)

  /** `_compute_sync_availability`. */
  function SyncAvailability(t: JournalType, level: Level): (a: Availability)
    ensures t == Bank ==> !a.to
    ensures level == Standard ==> (a.to <==> SaleOrPurchase(t))
    ensures level == Advanced ==> (a.to <==> t != Bank)
    ensures a.from <==> level == Advanced
  {
    var to := if t == Bank then false
              else if level == Standard then SaleOrPurchase(t)
              else true;
    Availability(to, level == Advanced)
  }

  /** Neither direction is available exactly for journals other than sale and
      purchase under a standard subscription. */
  lemma NeitherAvailable(t: JournalType, level: Level)
    ensures var a := SyncAvailability(t, level);
      !(a.to || a.from) <==> level == Standard && !SaleOrPurchase(t)
  {
  }

  /** `_check_no_both_way_sync`. */
  function CheckNoBothWaySync(j: Journal): (r: Result<Journal>)
    ensures r.Ok? <==> !(j.syncTo && j.syncFrom)
    ensures r.Ok? ==> r.value == j
    ensures r.Err? ==> r.failure == BothWaySync
  {
    if j.syncTo && j.syncFrom then Err(BothWaySync) else Ok(j)
  }

  /** `exact_get_subscription_level_domain`: the journals of the company,
      restricted to sale and purchase under a standard subscription. */
  predicate InSubscriptionDomain(c: Company, j: Journal) {
    j.company == c.id && (c.level == Standard ==> SaleOrPurchase(j.jtype))
  }

  /** Under a standard subscription the domain holds only journals that may
      send moves; under advanced it holds every journal of the company. */
  lemma SubscriptionDomainMatchesLevel(c: Company, j: Journal)
    ensures c.level == Standard && InSubscriptionDomain(c, j) ==> SyncAvailability(j.jtype, c.level).to
    ensures c.level == Standard && j.company == c.id && !SyncAvailability(j.jtype, c.level).to ==> !InSubscriptionDomain(c, j)
    ensures c.level == Advanced ==> (InSubscriptionDomain(c, j) <==> j.company == c.id)
  {
  }

  /** Number of connector flags set on a journal; every correction clears one. */
  function Flags(j: Journal): nat {
    (if j.syncTo then 1 else 0) + (if j.syncFrom then 1 else 0) + (if HasCode(j.code) then 1 else 0)
  }

  /** The flags a subscription level allows. */
  predicate Permitted(j: Journal, level: Level) {
    && (j.syncTo ==> level == Advanced || SaleOrPurchase(j.jtype))
    && (j.syncFrom ==> level == Advanced)
  }

  /** `exact_check_subscription_level` on one journal. Each correction is a
      `write` of the flags, and that write runs the whole check again with
      its default `raise_exception`, which is true. */
  function CheckSubscriptionLevel(j: Journal, c: Company, raiseException: bool): (r: Result<Journal>)
    // a correction only ever clears flags
    ensures r.Ok? ==> r.value.id == j.id && r.value.company == j.company && r.value.jtype == j.jtype
    ensures r.Ok? ==>
              (r.value.syncTo ==> j.syncTo) && (r.value.syncFrom ==> j.syncFrom)
              && (HasCode(r.value.code) ==> r.value.code == j.code)
    ensures r.Ok? ==> Flags(r.value) <= Flags(j)
    // a journal with neither direction available loses its send flag and its code
    ensures var a := SyncAvailability(j.jtype, c.level);
      !(a.to || a.from) && (j.syncTo || HasCode(j.code)) && r.Ok? ==>
        r.value == j.(syncTo := false, code := "")
    // an inactive company only gets that clean-up
    ensures !c.active ==> r.Ok?
    ensures !c.active ==> var a := SyncAvailability(j.jtype, c.level);
      r.value == if !(a.to || a.from) && (j.syncTo || HasCode(j.code)) then j.(syncTo := false, code := "") else j
    // an active company ends up with flags its level allows
    ensures r.Ok? && c.active ==> Permitted(r.value, c.level)
    // what is rejected
    ensures r.Err? <==>
              (c.active && j.syncFrom && c.level == Standard
               && (raiseException || (!SaleOrPurchase(j.jtype) && (j.syncTo || HasCode(j.code)))))
    ensures r.Err? ==> r.failure == SyncFromNeedsAdvanced
    decreases Flags(j)
  {
    var a := SyncAvailability(j.jtype, c.level);
    if !(a.to || a.from) && (j.syncTo || HasCode(j.code)) then
      CheckSubscriptionLevel(j.(syncTo := false, code := ""), c, true)
    else
      if j.syncTo && c.active && c.level == Standard && !SaleOrPurchase(j.jtype) then
        // Unreachable (SyncToCorrectionUnreachable): such a journal has neither
        // direction available and was cleaned up above.
        // `exact_check_subscription_level` raises here, or clears the send
        // flag in correcting mode.
        assert false; Err(SyncToNeedsSaleOrPurchase)
      else if j.syncFrom && c.active && c.level != Advanced then
        (if raiseException then Err(SyncFromNeedsAdvanced)
         else CheckSubscriptionLevel(j.(syncFrom := false), c, true))
      else Ok(j)
  }

  /** The send-flag correction inside the check is dead: a journal that sends
      under a standard subscription without being sale or purchase has neither
      direction available and is cleaned up by the first branch. */
  lemma SyncToCorrectionUnreachable(j: Journal, c: Company)
    requires j.syncTo && c.level == Standard && !SaleOrPurchase(j.jtype)
    ensures var a := SyncAvailability(j.jtype, c.level); !(a.to || a.from)
  {
  }

  /** In correcting mode the check still rejects a journal when the clean-up
      write re-enters it: a general journal with a code that fetches moves,
      once its company drops to the standard level. */
  lemma CorrectingModeCanReject()
    ensures var c := Company(1, true, "u", Operating, Standard, None);
      var j := Journal(7, 1, General, false, true, "70");
      CheckSubscriptionLevel(j, c, false) == Err(SyncFromNeedsAdvanced)
  {
  }

  /** A journal whose flags its level allows, and that has a direction
      available or nothing to clean up, passes the check unchanged. */
  lemma CheckKeepsPermitted(j: Journal, c: Company, raiseException: bool)
    requires Permitted(j, c.level)
    requires var a := SyncAvailability(j.jtype, c.level); a.to || a.from || !(j.syncTo || HasCode(j.code))
    ensures CheckSubscriptionLevel(j, c, raiseException) == Ok(j)
  {
  }
}

=== FILE: sync_line.dfy ===
/** The lines of the initial-sync wizard (`exact.initial_sync.line`): one
    line per local record or unmatched remote record, and the fix-up
    actions the wizard runs on its invalid lines. */
module SyncLines {
  import opened Common
  import opened Transactions
  import SyncMixin

  datatype Reason = NoCode | NotOdoo | NotExact

  /** A line; `data` is the remote record as decoded from its JSON text. */
  datatype Line = Line(
    id: nat,
    sync: nat,
    journal: Option<nat>,
    account: Option<nat>,
    tax: Option<nat>,
    paymentTerm: Option<nat>,
    partner: Option<nat>,
    nameInOdoo: string,
    nameInExact: string,
    inOdoo: bool,
    inExact: bool,
    code: Code,
    invalid: bool,
    reason: Option<Reason>,
    data: Option<map<string, Value>>)

  /** The wizard a line belongs to: its company and current step. */
  datatype Wizard = Wizard(company: nat, state: Step)

  /** The line's many2one field to records of kind `e`. */
  function Link(l: Line, e: Entity): Option<nat> {
    match e
    case JournalE => l.journal
    case AccountE => l.account
    case TaxE => l.tax
    case PaymentTermE => l.paymentTerm
    case PartnerE => l.partner
  }

  /** The line with every link emptied: what is left besides its links. */
  function Unlinked(l: Line): Line {
    l.(journal := None, account := None, tax := None, paymentTerm := None, partner := None)
  }

  predicate LinksTo(l: Line, x: Ref) {
    exists e :: Link(l, e).Some? && EntityRef(e, Link(l, e).value) == x
  }

  /** Every link of every line names an existing record: deleting a record
      empties the many2one fields that pointed to it. */
  predicate Resolves(lines: seq<Line>, recs: Records) {
    forall i, e :: 0 <= i < |lines| && Link(lines[i], e).Some? ==> EntityRef(e, Link(lines[i], e).value) in recs
  }

  /** `a` is `b` with some links possibly emptied. */
  predicate Weakened(a: Line, b: Line) {
    Unlinked(a) == Unlinked(b) && forall e :: Link(a, e) == Link(b, e) || Link(a, e).None?
  }

  /** Resolution survives any change that keeps the links and the records. */
  lemma ResolvesSameLinks(lines: seq<Line>, recs: Records, lines2: seq<Line>, recs2: Records)
    requires Resolves(lines, recs) && |lines2| == |lines| && recs.Keys <= recs2.Keys
    requires forall i, e :: 0 <= i < |lines| ==> Link(lines2[i], e) == Link(lines[i], e)
    ensures Resolves(lines2, recs2)
  {
    forall i, e | 0 <= i < |lines2| && Link(lines2[i], e).Some?
      ensures EntityRef(e, Link(lines2[i], e).value) in recs2
    {
      assert Link(lines[i], e) == Link(lines2[i], e);
    }
  }

  // ---------------------------------------------------------------------
  // action_update

  /** The kinds `action_update` writes to, in the order it tries them;
      accounts are not among them. */
  function UpdateRank(e: Entity): nat
    requires e != AccountE
  {
    match e
    case JournalE => 0
    case TaxE => 1
    case PaymentTermE => 2
    case PartnerE => 3
  }

  /** A line `action_update` considers at all. */
  predicate Updatable(l: Line) {
    l.invalid && l.reason.Some? && HasCode(l.code)
  }

  /** The condition of one branch of `action_update`: the link is set, and the
      record lacks a code or, for a `not_exact` line, has another one. */
  predicate UpdateApplies(l: Line, recs: Records, e: Entity) {
    && Link(l, e).Some?
    && (l.reason == Some(NoCode) || l.reason == Some(NotOdoo)
        || (l.reason == Some(NotExact) && CodeAt(recs, EntityRef(e, Link(l, e).value)) != l.code))
  }

  /** The record kind `action_update` writes the line's code to: the first
      branch whose condition holds. */
  function UpdateTarget(l: Line, recs: Records): (r: Option<Entity>)
    ensures r.Some? ==> r.value != AccountE && UpdateApplies(l, recs, r.value)
    ensures r.Some? ==> forall e :: e != AccountE && UpdateRank(e) < UpdateRank(r.value) ==> !UpdateApplies(l, recs, e)
    ensures r.None? <==> forall e :: e != AccountE ==> !UpdateApplies(l, recs, e)
  {
    if UpdateApplies(l, recs, JournalE) then Some(JournalE)
    else if UpdateApplies(l, recs, TaxE) then Some(TaxE)
    else if UpdateApplies(l, recs, PaymentTermE) then Some(PaymentTermE)
    else if UpdateApplies(l, recs, PartnerE) then Some(PartnerE)
    else None
  }

  predicate LineResolves(l: Line, recs: Records) {
    forall e :: Link(l, e).Some? ==> EntityRef(e, Link(l, e).value) in recs
  }

  /** One iteration of `action_update`. */
  function UpdateLine(l: Line, recs: Records): (r: (Line, Records))
    requires LineResolves(l, recs)
    ensures r.1.Keys == recs.Keys
    ensures forall e :: Link(r.0, e) == Link(l, e)
    ensures r.0 != l <==> Updatable(l) && UpdateTarget(l, recs).Some?
    ensures r.0 == l ==> r.1 == recs
    ensures r.0 != l ==>
              var e := UpdateTarget(l, recs).value;
              var x := EntityRef(e, Link(l, e).value);
              && r.0 == l.(invalid := false)
              && r.1 == recs[x := recs[x].(code := l.code)]
  {
    var target := UpdateTarget(l, recs);
    if !Updatable(l) || target.None? then (l, recs)
    else
      var x := EntityRef(target.value, Link(l, target.value).value);
      (l.(invalid := false), recs[x := recs[x].(code := l.code)])
  }

  /** A line `action_update` has handled is left alone the next time. */
  lemma UpdateLineIdempotent(l: Line, recs: Records)
    requires LineResolves(l, recs)
    ensures var r := UpdateLine(l, recs);
      LineResolves(r.0, r.1) && UpdateLine(r.0, r.1) == r
  {
  }

  /** A line that links nothing but an account is never updated. */
  lemma AccountLinesNotUpdated(l: Line, recs: Records)
    requires LineResolves(l, recs)
    requires forall e :: e != AccountE ==> Link(l, e).None?
    ensures UpdateLine(l, recs) == (l, recs)
  {
  }

  /** `action_update`: the lines in order, each seeing the writes of the
      lines before it. */
  function ActionUpdate(lines: seq<Line>, recs: Records): (r: (seq<Line>, Records))
    requires Resolves(lines, recs)
    ensures |r.0| == |lines| && r.1.Keys == recs.Keys
    ensures forall i :: 0 <= i < |lines| ==>
              r.0[i] == lines[i] || (Updatable(lines[i]) && r.0[i] == lines[i].(invalid := false))
    ensures forall i :: 0 <= i < |lines| && (forall e :: e != AccountE ==> Link(lines[i], e).None?) ==>
              r.0[i] == lines[i]
    ensures Resolves(r.0, r.1)
    decreases |lines|
  {
    if |lines| == 0 then ([], recs)
    else
      var first := UpdateLine(lines[0], recs);
      assert forall i :: 0 < i < |lines| ==> lines[i] == lines[1..][i - 1];
      var rest := ActionUpdate(lines[1..], first.1);
      var r := ([first.0] + rest.0, rest.1);
      assert forall i :: 0 < i < |lines| ==> r.0[i] == rest.0[i - 1];
      r
  }

  /** `action_update` changes records only by giving them the code of a line
      that links them and that it marked valid. */
  lemma {:induction false} ActionUpdateWritesLinkedCodes(lines: seq<Line>, recs: Records, x: Ref)
    requires Resolves(lines, recs) && x in recs
    ensures var r := ActionUpdate(lines, recs);
      || r.1[x] == recs[x]
      || exists i :: 0 <= i < |lines| && r.0[i] != lines[i] && LinksTo(lines[i], x)
                     && r.1[x] == recs[x].(code := lines[i].code)
    decreases |lines|
  {
    if |lines| > 0 {
      var first := UpdateLine(lines[0], recs);
      var tail := lines[1..];
      assert forall i :: 0 <= i < |tail| ==> tail[i] == lines[i + 1];
      ResolvesSameLinks(tail, recs, tail, first.1);
      var rest := ActionUpdate(tail, first.1);
      var out := [first.0] + rest.0;
      var r := ActionUpdate(lines, recs);
      assert r == (out, rest.1);
      ActionUpdateWritesLinkedCodes(tail, first.1, x);
      if rest.1[x] != first.1[x] {
        var j :| 0 <= j < |tail| && rest.0[j] != tail[j] && LinksTo(tail[j], x)
                 && rest.1[x] == first.1[x].(code := tail[j].code);
        ConsAt(first.0, rest.0, j);
        assert tail[j] == lines[j + 1];
        assert out[j + 1] != lines[j + 1] && LinksTo(lines[j + 1], x);
        if first.1[x] != recs[x] {
          UpdateLineWrites(lines[0], recs, x);
        }
        assert rest.1[x] == recs[x].(code := lines[j + 1].code);
      } else if first.1[x] != recs[x] {
        UpdateLineWrites(lines[0], recs, x);
        assert out[0] == first.0;
        assert out[0] != lines[0] && LinksTo(lines[0], x) && rest.1[x] == recs[x].(code := lines[0].code);
      }
    }
  }

  /** No other line `action_update` may mark valid links a record that line
      `i` links. */
  ghost predicate OwnsItsRecords(lines: seq<Line>, i: nat)
    requires i < |lines|
  {
    forall j, x :: 0 <= j < |lines| && j != i && Updatable(lines[j]) && LinksTo(lines[i], x) ==> !LinksTo(lines[j], x)
  }

  /** A line whose records no other updatable line shares fares in
      `action_update` as it would alone: it is updated as `UpdateLine` on the
      original records says, and the record that step writes ends up with
      the line's code. */
  lemma {:induction false} ActionUpdateLineAlone(lines: seq<Line>, recs: Records, i: nat)
    requires Resolves(lines, recs)
    requires i < |lines| && OwnsItsRecords(lines, i)
    ensures var r := ActionUpdate(lines, recs);
      && r.0[i] == UpdateLine(lines[i], recs).0
      && (r.0[i] != lines[i] ==>
            var e := UpdateTarget(lines[i], recs).value;
            var x := EntityRef(e, Link(lines[i], e).value);
            x in r.1 && r.1[x].code == lines[i].code)
    decreases |lines|
  {
    var first := UpdateLine(lines[0], recs);
    var tail := lines[1..];
    if i == 0 {
      if first.0 != lines[0] {
        var e := UpdateTarget(lines[0], recs).value;
        var x := EntityRef(e, Link(lines[0], e).value);
        assert LinksTo(lines[0], x);
        UpdateHeadKept(lines, recs, first, tail, x);
      }
    } else {
      UpdateShift(lines, recs, i, first, tail);
      ActionUpdateLineAlone(tail, first.1, i - 1);
      ConsAt(first.0, ActionUpdate(tail, first.1).0, i - 1);
    }
  }

  /** The lines after one that owns its records leave those records be. */
  lemma UpdateHeadKept(lines: seq<Line>, recs: Records, first: (Line, Records), tail: seq<Line>, x: Ref)
    requires Resolves(lines, recs) && |lines| > 0 && OwnsItsRecords(lines, 0) && LinksTo(lines[0], x)
    requires first == UpdateLine(lines[0], recs) && tail == lines[1..] && x in recs
    ensures Resolves(tail, first.1) && ActionUpdate(tail, first.1).1[x] == first.1[x]
  {
    assert forall j :: 0 <= j < |tail| ==> tail[j] == lines[j + 1];
    ResolvesSameLinks(tail, recs, tail, first.1);
    var rest := ActionUpdate(tail, first.1);
    forall j | 0 <= j < |tail| && rest.0[j] != tail[j]
      ensures !LinksTo(tail[j], x)
    {
      assert Updatable(lines[j + 1]);
    }
    ActionUpdateWritesLinkedCodes(tail, first.1, x);
  }

  /** The hypotheses of `ActionUpdateLineAlone` carry over to the tail once
      the first line is updated, and that update leaves the records of line
      `i` as they were, so line `i` sees the same records. */
  lemma UpdateShift(lines: seq<Line>, recs: Records, i: nat, first: (Line, Records), tail: seq<Line>)
    requires Resolves(lines, recs)
    requires 0 < i < |lines| && OwnsItsRecords(lines, i)
    requires first == UpdateLine(lines[0], recs) && tail == lines[1..]
    ensures Resolves(tail, first.1) && tail[i - 1] == lines[i]
    ensures OwnsItsRecords(tail, i - 1)
    ensures UpdateLine(tail[i - 1], first.1).0 == UpdateLine(lines[i], recs).0
    ensures UpdateLine(tail[i - 1], first.1).0 != lines[i] ==>
              UpdateTarget(lines[i], first.1) == UpdateTarget(lines[i], recs)
  {
    assert forall j :: 0 <= j < |tail| ==> tail[j] == lines[j + 1];
    ResolvesSameLinks(tail, recs, tail, first.1);
    var l := lines[i];
    forall e | Link(l, e).Some?
      ensures first.1[EntityRef(e, Link(l, e).value)] == recs[EntityRef(e, Link(l, e).value)]
    {
      var x := EntityRef(e, Link(l, e).value);
      assert LinksTo(l, x);
      if first.1[x] != recs[x] {
        UpdateLineWrites(lines[0], recs, x);
        assert false;
      }
    }
    UpdateLineSameRecords(l, recs, first.1);
  }

  /** `action_update` reads and writes, for one line, only records that line
      links: on two record stores that agree there, it decides alike. */
  lemma UpdateLineSameRecords(l: Line, a: Records, b: Records)
    requires LineResolves(l, a) && LineResolves(l, b)
    requires forall e :: Link(l, e).Some? ==> b[EntityRef(e, Link(l, e).value)] == a[EntityRef(e, Link(l, e).value)]
    ensures UpdateTarget(l, b) == UpdateTarget(l, a)
    ensures UpdateLine(l, b).0 == UpdateLine(l, a).0
  {
    forall e | e != AccountE
      ensures UpdateApplies(l, b, e) == UpdateApplies(l, a, e)
    {
      if Link(l, e).Some? {
        assert CodeAt(b, EntityRef(e, Link(l, e).value)) == CodeAt(a, EntityRef(e, Link(l, e).value));
      }
    }
  }

  /** Element `j + 1` of a sequence with `a` put in front is element `j`. */
  lemma ConsAt<T>(a: T, s: seq<T>, j: nat)
    requires j < |s|
    ensures j + 1 < |[a] + s| && ([a] + s)[j + 1] == s[j]
  {
  }

  /** One line writes a record only by giving it the line's code, and only
      when the line links it and is marked valid. */
  lemma UpdateLineWrites(l: Line, recs: Records, x: Ref)
    requires LineResolves(l, recs) && x in recs
    requires UpdateLine(l, recs).1[x] != recs[x]
    ensures UpdateLine(l, recs).0 != l && LinksTo(l, x)
    ensures UpdateLine(l, recs).1[x] == recs[x].(code := l.code)
  {
    var e := UpdateTarget(l, recs).value;
    assert Link(l, e).Some? && EntityRef(e, Link(l, e).value) == x;
  }

  // ---------------------------------------------------------------------
  // action_archive and action_remove

  /** The lines archiving and removal act on: invalid, for want of a code or
      of a remote counterpart. */
  predicate Discardable(l: Line) {
    l.invalid && (l.reason == Some(NoCode) || l.reason == Some(NotExact))
  }

  /** The record both actions act on: the first link in the order journal,
      account, tax, payment term, partner. */
  function Target(l: Line): Option<Ref> {
    if Link(l, JournalE).Some? then Some(EntityRef(JournalE, Link(l, JournalE).value))
    else if Link(l, AccountE).Some? then Some(EntityRef(AccountE, Link(l, AccountE).value))
    else if Link(l, TaxE).Some? then Some(EntityRef(TaxE, Link(l, TaxE).value))
    else if Link(l, PaymentTermE).Some? then Some(EntityRef(PaymentTermE, Link(l, PaymentTermE).value))
    else if Link(l, PartnerE).Some? then Some(EntityRef(PartnerE, Link(l, PartnerE).value))
    else None
  }

  /** A line has a target exactly when it links something, and it links its
      target. */
  lemma TargetIsLinked(l: Line)
    ensures Target(l).Some? <==> exists e :: Link(l, e).Some?
    ensures Target(l).Some? ==> LinksTo(l, Target(l).value)
  {
    if Target(l).None? {
      forall e ensures Link(l, e).None? {
      }
    }
  }

  /** One iteration of `action_archive`: toggle the record's `active` and mark
      the line invalid exactly when the record is still active. Accounts have
      no `active` field; the wizard never offers archiving at the accounts
      step (`InitialSync.AvailableActions`), so an account target is toggled
      here only on a call the user interface does not make. */
  function ArchiveLine(l: Line, recs: Records): (r: (Line, Records))
    requires LineResolves(l, recs)
    ensures r.1.Keys == recs.Keys
    ensures forall e :: Link(r.0, e) == Link(l, e)
    ensures !Discardable(l) || Target(l).None? ==> r == (l, recs)
    ensures Discardable(l) && Target(l).Some? ==>
              var x := Target(l).value;
              && r.0 == l.(invalid := r.1[x].active)
              && r.1[x] == recs[x].(active := !recs[x].active)
              && forall y :: y in recs && y != x ==> r.1[y] == recs[y]
  {
    var t := Target(l);
    if !Discardable(l) || t.None? then (l, recs)
    else
      var x := t.value;
      var active := !recs[x].active;
      (l.(invalid := active), recs[x := recs[x].(active := active)])
  }

  /** `action_archive` over the lines in order. */
  function ActionArchive(lines: seq<Line>, recs: Records): (r: (seq<Line>, Records))
    requires Resolves(lines, recs)
    ensures |r.0| == |lines| && r.1.Keys == recs.Keys
    ensures forall i :: 0 <= i < |lines| ==> r.0[i] == lines[i].(invalid := r.0[i].invalid)
    ensures forall i :: 0 <= i < |lines| && (!Discardable(lines[i]) || Target(lines[i]).None?) ==> r.0[i] == lines[i]
    ensures forall i, e :: 0 <= i < |lines| ==> Link(r.0[i], e) == Link(lines[i], e)
    ensures Resolves(r.0, r.1)
    decreases |lines|
  {
    if |lines| == 0 then ([], recs)
    else
      var first := ArchiveLine(lines[0], recs);
      assert forall i :: 0 < i < |lines| ==> lines[i] == lines[1..][i - 1];
      var rest := ActionArchive(lines[1..], first.1);
      var r := ([first.0] + rest.0, rest.1);
      assert forall i :: 0 < i < |lines| ==> r.0[i] == rest.0[i - 1];
      ResolvesSameLinks(lines, recs, r.0, r.1);
      r
  }

  /** Archiving only toggles `active`, and only on records that a
      discardable line targets. */
  lemma {:induction false} ArchiveTouchesTargets(lines: seq<Line>, recs: Records, x: Ref)
    requires Resolves(lines, recs) && x in recs
    ensures var r := ActionArchive(lines, recs);
      && r.1[x] == recs[x].(active := r.1[x].active)
      && ((forall i :: 0 <= i < |lines| && Discardable(lines[i]) ==> Target(lines[i]) != Some(x)) ==> r.1[x] == recs[x])
    decreases |lines|
  {
    if |lines| > 0 {
      var first := ArchiveLine(lines[0], recs);
      var tail := lines[1..];
      assert forall j :: 0 <= j < |tail| ==> tail[j] == lines[j + 1];
      ResolvesSameLinks(tail, recs, tail, first.1);
      ArchiveTouchesTargets(tail, first.1, x);
    }
  }

  /** A line whose record no other archived line shares ends up invalid
      exactly when that record, toggled once, is still active. */
  lemma {:induction false} ArchiveInvalidMatchesActive(lines: seq<Line>, recs: Records, i: nat)
    requires Resolves(lines, recs)
    requires i < |lines| && Discardable(lines[i]) && Target(lines[i]).Some?
    requires forall j :: 0 <= j < |lines| && j != i && Discardable(lines[j]) ==> Target(lines[j]) != Target(lines[i])
    ensures var r := ActionArchive(lines, recs);
      var x := Target(lines[i]).value;
      r.0[i].invalid == r.1[x].active == !recs[x].active
    decreases |lines|
  {
    var x := Target(lines[i]).value;
    var first := ArchiveLine(lines[0], recs);
    var tail := lines[1..];
    var rest := ActionArchive(tail, first.1);
    var r := ActionArchive(lines, recs);
    assert r.0 == [first.0] + rest.0 && r.1 == rest.1;
    if i == 0 {
      assert forall j :: 0 <= j < |tail| && Discardable(tail[j]) ==> Target(tail[j]) != Some(x) by {
        forall j | 0 <= j < |tail| && Discardable(tail[j])
          ensures Target(tail[j]) != Some(x)
        {
          assert tail[j] == lines[j + 1];
        }
      }
      ArchiveTouchesTargets(tail, first.1, x);
    } else {
      ArchiveShift(lines, recs, i, first, tail);
      ArchiveInvalidMatchesActive(tail, first.1, i - 1);
      assert r.0[i] == rest.0[i - 1];
    }
  }

  /** The hypotheses of `ArchiveInvalidMatchesActive` carry over from the
      lines to their tail once the first line is archived. */
  lemma ArchiveShift(lines: seq<Line>, recs: Records, i: nat, first: (Line, Records), tail: seq<Line>)
    requires Resolves(lines, recs)
    requires 0 < i < |lines| && Discardable(lines[i]) && Target(lines[i]).Some?
    requires forall j :: 0 <= j < |lines| && j != i && Discardable(lines[j]) ==> Target(lines[j]) != Target(lines[i])
    requires first == ArchiveLine(lines[0], recs) && tail == lines[1..]
    ensures Resolves(tail, first.1)
    ensures Discardable(tail[i - 1]) && Target(tail[i - 1]) == Target(lines[i])
    ensures forall j :: 0 <= j < |tail| && j != i - 1 && Discardable(tail[j]) ==> Target(tail[j]) != Target(tail[i - 1])
    ensures first.1[Target(lines[i]).value] == recs[Target(lines[i]).value]
  {
    assert forall j :: 0 <= j < |tail| ==> tail[j] == lines[j + 1];
    ResolvesSameLinks(lines[1..], recs, tail, first.1);
  }

  // action_archive against the database: `toggle_active` is a `write` of
  // `active`, and of the records a line can target only partners carry the
  // sync mixin, so archiving a partner also runs `exact_handle_write`.

  predicate IsPartner(x: Ref) { x.model == ModelName(PartnerE) }

  /** A discardable line of `lines` targets `x`. */
  predicate Archived(lines: seq<Line>, x: Ref) {
    exists i :: 0 <= i < |lines| && Discardable(lines[i]) && Target(lines[i]) == Some(x)
  }

  /** `a` and `b` hold the same records, their status aside. */
  predicate SameButStatus(a: Records, b: Records) {
    a.Keys == b.Keys && forall x :: x in a ==> a[x].(status := b[x].status) == b[x]
  }

  /** A transaction the archive may create: a todo for a partner that a
      discardable line targets, for an active company of that partner. */
  predicate ArchiveTodo(lines: seq<Line>, db: Db, owners: Ref -> seq<nat>, t: Transaction) {
    && t.state == Todo && IsPartner(RecordOf(t)) && Archived(lines, RecordOf(t))
    && t.company in owners(RecordOf(t)) && CompanyActive(db.companies, t.company)
  }

  /** One iteration of `action_archive` against the database. `ctx` is the
      context of the call, `fields` the partner model's fields and `owners`
      the companies `exact_get_company` resolves each partner to. */
  function ArchiveLineDb(l: Line, db: Db, ctx: SyncMixin.Context, fields: map<string, SyncMixin.FieldType>,
                         owners: Ref -> seq<nat>, now: int): (r: (Line, Db))
    requires Fresh(db) && LineResolves(l, db.records)
    ensures Fresh(r.1) && r.1.companies == db.companies && r.1.records.Keys == db.records.Keys
    ensures forall k :: k in db.txs ==> k in r.1.txs && r.1.txs[k] == db.txs[k]
    ensures AtMostOneTodo(db.txs) ==> AtMostOneTodo(r.1.txs)
    ensures r.0 == ArchiveLine(l, db.records).0
    ensures SameButStatus(r.1.records, ArchiveLine(l, db.records).1)
    ensures forall x :: x in db.records && r.1.records[x].status != db.records[x].status ==>
              r.1.records[x].status == Some(Queued) && IsPartner(x) && Discardable(l) && Target(l) == Some(x)
    ensures forall k :: k in r.1.txs && k !in db.txs ==>
              && r.1.txs[k].state == Todo && IsPartner(RecordOf(r.1.txs[k]))
              && Discardable(l) && Target(l) == Some(RecordOf(r.1.txs[k]))
              && r.1.txs[k].company in owners(RecordOf(r.1.txs[k])) && CompanyActive(db.companies, r.1.txs[k].company)
  {
    var first := ArchiveLine(l, db.records);
    var db1 := db.(records := first.1);
    assert forall y :: y in db.records ==> first.1[y].status == db.records[y].status;
    if Discardable(l) && Target(l).Some? && IsPartner(Target(l).value) then
      var x := Target(l).value;
      TargetIsLinked(l);
      ArchiveWrite(db1, x, ctx, fields, owners(x), now);
      (first.0, SyncMixin.HandleWrite(db1, x, ctx, {"active"}, fields, owners(x), now))
    else
      assert SameButStatus(db1.records, first.1);
      (first.0, db1)
  }

  /** The write of `active` on partner `x` changes at most its status, to
      queued, and creates only todos for `x` and its active companies. */
  lemma ArchiveWrite(db: Db, x: Ref, ctx: SyncMixin.Context, fields: map<string, SyncMixin.FieldType>,
                     own: seq<nat>, now: int)
    requires Fresh(db) && x in db.records
    ensures var r := SyncMixin.HandleWrite(db, x, ctx, {"active"}, fields, own, now);
      && SameButStatus(r.records, db.records)
      && (forall y :: y in db.records && r.records[y].status != db.records[y].status ==>
            y == x && r.records[y].status == Some(Queued))
      && forall k :: k in r.txs && k !in db.txs ==>
            && r.txs[k].state == Todo && RecordOf(r.txs[k]) == x
            && r.txs[k].company in own && CompanyActive(db.companies, r.txs[k].company)
  {
  }

  /** A partner that a discardable line targets is queued, with a todo for
      each of its active companies, unless the context says not to sync or
      `active` is a binary field. */
  lemma ArchiveLineDbQueues(l: Line, db: Db, ctx: SyncMixin.Context, fields: map<string, SyncMixin.FieldType>,
                            owners: Ref -> seq<nat>, now: int)
    requires Fresh(db) && LineResolves(l, db.records)
    requires Discardable(l) && Target(l).Some? && IsPartner(Target(l).value)
    requires SyncMixin.WriteEnqueues(ctx, {"active"}, fields)
    ensures var r := ArchiveLineDb(l, db, ctx, fields, owners, now);
      var x := Target(l).value;
      && x in r.1.records
      && (SyncMixin.HasActiveCompany(db, owners(x)) ==> r.1.records[x].status == Some(Queued))
      && forall c :: c in owners(x) && CompanyActive(db.companies, c) ==> HasTodo(r.1.txs, c, x.model, x.id)
  {
    var x := Target(l).value;
    var db1 := db.(records := ArchiveLine(l, db.records).1);
    TargetIsLinked(l);
    assert SyncMixin.HasActiveCompany(db1, owners(x)) == SyncMixin.HasActiveCompany(db, owners(x));
  }

  /** `action_archive` against the database, the lines in order. */
  function ActionArchiveDb(lines: seq<Line>, db: Db, ctx: SyncMixin.Context, fields: map<string, SyncMixin.FieldType>,
                           owners: Ref -> seq<nat>, now: int): (r: (seq<Line>, Db))
    requires Fresh(db) && Resolves(lines, db.records)
    ensures |r.0| == |lines| && Fresh(r.1) && r.1.companies == db.companies && r.1.records.Keys == db.records.Keys
    ensures forall k :: k in db.txs ==> k in r.1.txs && r.1.txs[k] == db.txs[k]
    ensures AtMostOneTodo(db.txs) ==> AtMostOneTodo(r.1.txs)
    ensures forall x :: x in db.records && db.records[x].status == Some(Queued) ==> r.1.records[x].status == Some(Queued)
    decreases |lines|
  {
    if |lines| == 0 then ([], db)
    else
      var first := ArchiveLineDb(lines[0], db, ctx, fields, owners, now);
      ResolvesSameLinks(lines[1..], db.records, lines[1..], first.1.records);
      var rest := ActionArchiveDb(lines[1..], first.1, ctx, fields, owners, now);
      ([first.0] + rest.0, rest.1)
  }

  /** Archiving reads only the target's `active`, so records that differ in
      status alone archive alike. */
  lemma ArchiveLineIgnoresStatus(l: Line, a: Records, b: Records)
    requires LineResolves(l, b) && SameButStatus(a, b)
    ensures LineResolves(l, a)
    ensures ArchiveLine(l, a).0 == ArchiveLine(l, b).0
    ensures SameButStatus(ArchiveLine(l, a).1, ArchiveLine(l, b).1)
  {
  }

  /** Against the database the lines end up as `ActionArchive` leaves them,
      and the records differ from its records in status alone. */
  lemma {:induction false} ArchiveDbAgrees(lines: seq<Line>, db: Db, recs: Records, ctx: SyncMixin.Context,
                                           fields: map<string, SyncMixin.FieldType>, owners: Ref -> seq<nat>, now: int)
    requires Fresh(db) && Resolves(lines, recs) && SameButStatus(db.records, recs)
    ensures Resolves(lines, db.records)
    ensures var r := ActionArchiveDb(lines, db, ctx, fields, owners, now);
      var s := ActionArchive(lines, recs);
      r.0 == s.0 && SameButStatus(r.1.records, s.1)
    decreases |lines|
  {
    ResolvesSameLinks(lines, recs, lines, db.records);
    if |lines| > 0 {
      var first := ArchiveLineDb(lines[0], db, ctx, fields, owners, now);
      var firstR := ArchiveLine(lines[0], recs);
      assert LineResolves(lines[0], recs);
      ArchiveLineIgnoresStatus(lines[0], db.records, recs);
      assert first.0 == firstR.0;
      assert SameButStatus(first.1.records, firstR.1);
      ResolvesSameLinks(lines[1..], recs, lines[1..], firstR.1);
      ArchiveDbAgrees(lines[1..], first.1, firstR.1, ctx, fields, owners, now);
    }
  }

  /** A record's status changes only on a partner that a discardable line
      targets, and only to queued. */
  lemma {:induction false} ArchiveDbStatus(lines: seq<Line>, db: Db, ctx: SyncMixin.Context,
                                           fields: map<string, SyncMixin.FieldType>, owners: Ref -> seq<nat>,
                                           now: int, x: Ref)
    requires Fresh(db) && Resolves(lines, db.records) && x in db.records
    ensures var r := ActionArchiveDb(lines, db, ctx, fields, owners, now).1;
      r.records[x].status == db.records[x].status
      || (r.records[x].status == Some(Queued) && IsPartner(x) && Archived(lines, x))
    decreases |lines|
  {
    if |lines| > 0 {
      var first := ArchiveLineDb(lines[0], db, ctx, fields, owners, now);
      var tail := lines[1..];
      ResolvesSameLinks(tail, db.records, tail, first.1.records);
      ArchiveDbStatus(tail, first.1, ctx, fields, owners, now, x);
      if Archived(tail, x) {
        var j :| 0 <= j < |tail| && Discardable(tail[j]) && Target(tail[j]) == Some(x);
        assert tail[j] == lines[j + 1];
      }
    }
  }

  /** Every transaction the archive creates is a todo for a partner that a
      discardable line targets, for an active company of that partner. */
  lemma {:induction false} ArchiveDbNewTxs(lines: seq<Line>, db: Db, ctx: SyncMixin.Context,
                                           fields: map<string, SyncMixin.FieldType>, owners: Ref -> seq<nat>, now: int)
    requires Fresh(db) && Resolves(lines, db.records)
    ensures var r := ActionArchiveDb(lines, db, ctx, fields, owners, now).1;
      forall k :: k in r.txs && k !in db.txs ==> ArchiveTodo(lines, db, owners, r.txs[k])
    decreases |lines|
  {
    if |lines| > 0 {
      var first := ArchiveLineDb(lines[0], db, ctx, fields, owners, now);
      var tail := lines[1..];
      ResolvesSameLinks(tail, db.records, tail, first.1.records);
      ArchiveDbNewTxs(tail, first.1, ctx, fields, owners, now);
      var r := ActionArchiveDb(lines, db, ctx, fields, owners, now).1;
      forall k | k in r.txs && k !in db.txs
        ensures ArchiveTodo(lines, db, owners, r.txs[k])
      {
        if k in first.1.txs {
          assert r.txs[k] == first.1.txs[k];
          assert Discardable(lines[0]) && Target(lines[0]) == Some(RecordOf(r.txs[k]));
        } else {
          ArchiveTodoFromTail(lines, db, first.1, owners, r.txs[k]);
        }
      }
    }
  }

  /** A todo the archive of the later lines creates is one of the whole
      archive. */
  lemma ArchiveTodoFromTail(lines: seq<Line>, db: Db, db1: Db, owners: Ref -> seq<nat>, t: Transaction)
    requires |lines| > 0 && db1.companies == db.companies
    requires ArchiveTodo(lines[1..], db1, owners, t)
    ensures ArchiveTodo(lines, db, owners, t)
  {
    var j :| 0 <= j < |lines[1..]| && Discardable(lines[1..][j]) && Target(lines[1..][j]) == Some(RecordOf(t));
    assert lines[1..][j] == lines[j + 1];
  }

  /** A partner that discardable line `i` targets ends up queued, with a todo
      for each of its active companies, unless the context says not to sync
      or `active` is a binary field. */
  lemma {:induction false} ArchiveDbQueuesAt(lines: seq<Line>, db: Db, ctx: SyncMixin.Context,
                                             fields: map<string, SyncMixin.FieldType>, owners: Ref -> seq<nat>,
                                             now: int, i: nat)
    requires Fresh(db) && Resolves(lines, db.records)
    requires i < |lines| && Discardable(lines[i]) && Target(lines[i]).Some? && IsPartner(Target(lines[i]).value)
    requires SyncMixin.WriteEnqueues(ctx, {"active"}, fields)
    ensures var r := ActionArchiveDb(lines, db, ctx, fields, owners, now).1;
      var x := Target(lines[i]).value;
      && x in r.records
      && (SyncMixin.HasActiveCompany(db, owners(x)) ==> r.records[x].status == Some(Queued))
      && forall c :: c in owners(x) && CompanyActive(db.companies, c) ==> HasTodo(r.txs, c, x.model, x.id)
    decreases i
  {
    var x := Target(lines[i]).value;
    var first := ArchiveLineDb(lines[0], db, ctx, fields, owners, now);
    var tail := lines[1..];
    ResolvesSameLinks(tail, db.records, tail, first.1.records);
    var r := ActionArchiveDb(lines, db, ctx, fields, owners, now).1;
    assert r == ActionArchiveDb(tail, first.1, ctx, fields, owners, now).1;
    if i == 0 {
      ArchiveLineDbQueues(lines[0], db, ctx, fields, owners, now);
      forall c | c in owners(x) && CompanyActive(db.companies, c)
        ensures HasTodo(r.txs, c, x.model, x.id)
      {
        HasTodoKept(first.1.txs, r.txs, c, x.model, x.id);
      }
    } else {
      assert tail[i - 1] == lines[i];
      ArchiveDbQueuesAt(tail, first.1, ctx, fields, owners, now, i - 1);
      assert SyncMixin.HasActiveCompany(first.1, owners(x)) == SyncMixin.HasActiveCompany(db, owners(x));
    }
  }

  /** Every partner a discardable line targets ends up queued, with a todo
      for each of its active companies, unless the context says not to sync
      or `active` is a binary field. */
  lemma ArchiveDbQueues(lines: seq<Line>, db: Db, ctx: SyncMixin.Context,
                        fields: map<string, SyncMixin.FieldType>, owners: Ref -> seq<nat>, now: int)
    requires Fresh(db) && Resolves(lines, db.records)
    requires SyncMixin.WriteEnqueues(ctx, {"active"}, fields)
    ensures var r := ActionArchiveDb(lines, db, ctx, fields, owners, now).1;
      forall x :: IsPartner(x) && Archived(lines, x) ==>
        && x in r.records
        && (SyncMixin.HasActiveCompany(db, owners(x)) ==> r.records[x].status == Some(Queued))
        && forall c :: c in owners(x) && CompanyActive(db.companies, c) ==> HasTodo(r.txs, c, x.model, x.id)
  {
    forall x | IsPartner(x) && Archived(lines, x)
      ensures var r := ActionArchiveDb(lines, db, ctx, fields, owners, now).1;
        && x in r.records
        && (SyncMixin.HasActiveCompany(db, owners(x)) ==> r.records[x].status == Some(Queued))
        && forall c :: c in owners(x) && CompanyActive(db.companies, c) ==> HasTodo(r.txs, c, x.model, x.id)
    {
      var i :| 0 <= i < |lines| && Discardable(lines[i]) && Target(lines[i]) == Some(x);
      ArchiveDbQueuesAt(lines, db, ctx, fields, owners, now, i);
    }
  }

  /** Lines none of which is discardable archive nothing: the lines and the
      records stay as they are and no transaction is created. */
  lemma ArchiveDbNothingDiscardable(lines: seq<Line>, db: Db, ctx: SyncMixin.Context,
                                    fields: map<string, SyncMixin.FieldType>, owners: Ref -> seq<nat>, now: int)
    requires Fresh(db) && Resolves(lines, db.records)
    requires forall i :: 0 <= i < |lines| ==> !Discardable(lines[i])
    ensures var r := ActionArchiveDb(lines, db, ctx, fields, owners, now);
      r.0 == lines && r.1.records == db.records && r.1.txs == db.txs
  {
    var r := ActionArchiveDb(lines, db, ctx, fields, owners, now);
    ArchiveDbAgrees(lines, db, db.records, ctx, fields, owners, now);
    forall x | x in db.records ensures r.1.records[x] == db.records[x] {
      ArchiveDbTouches(lines, db, ctx, fields, owners, now, x);
    }
    ArchiveDbNewTxs(lines, db, ctx, fields, owners, now);
    assert r.1.txs.Keys == db.txs.Keys;
  }

  /** What archiving changes on a record: its `active` flag, only when a
      discardable line targets it, and its status, only to queued and only on
      a partner. */
  lemma ArchiveDbTouches(lines: seq<Line>, db: Db, ctx: SyncMixin.Context,
                         fields: map<string, SyncMixin.FieldType>, owners: Ref -> seq<nat>, now: int, x: Ref)
    requires Fresh(db) && Resolves(lines, db.records) && x in db.records
    ensures var r := ActionArchiveDb(lines, db, ctx, fields, owners, now).1;
      && x in r.records
      && r.records[x] == db.records[x].(active := r.records[x].active, status := r.records[x].status)
      && (!Archived(lines, x) ==> r.records[x] == db.records[x])
      && (r.records[x].status != db.records[x].status ==> IsPartner(x) && r.records[x].status == Some(Queued))
  {
    ArchiveDbAgrees(lines, db, db.records, ctx, fields, owners, now);
    ArchiveTouchesTargets(lines, db.records, x);
    ArchiveDbStatus(lines, db, ctx, fields, owners, now, x);
  }

  /** A link of the line, emptied when it points to the deleted record `x`. */
  function KeptLink(l: Line, e: Entity, x: Ref): Option<nat> {
    if Link(l, e).Some? && EntityRef(e, Link(l, e).value) == x then None else Link(l, e)
  }

  /** Emptying every link of a line that points to a deleted record. */
  function Detach(l: Line, x: Ref): (r: Line)
    ensures forall e :: Link(r, e) == KeptLink(l, e, x)
    ensures Unlinked(r) == Unlinked(l)
  {
    l.(journal := KeptLink(l, JournalE, x), account := KeptLink(l, AccountE, x), tax := KeptLink(l, TaxE, x),
       paymentTerm := KeptLink(l, PaymentTermE, x), partner := KeptLink(l, PartnerE, x))
  }

  lemma DetachWeakens(l: Line, x: Ref)
    ensures Weakened(Detach(l, x), l) && !LinksTo(Detach(l, x), x)
  {
  }

  function DetachAll(lines: seq<Line>, x: Ref): (r: seq<Line>)
    ensures |r| == |lines| && forall i :: 0 <= i < |lines| ==> r[i] == Detach(lines[i], x)
  {
    seq(|lines|, i requires 0 <= i < |lines| => Detach(lines[i], x))
  }

  /** Deleting one record: partners go through the synchronised-record guard,
      the other kinds have none. */
  function DeleteRecord(recs: Records, x: Ref): (r: Result<Records>)
    requires x in recs
    ensures r.Ok? <==> x.model != ModelName(PartnerE) || SyncMixin.Deletable(recs[x])
    ensures r.Ok? ==> r.value == recs - {x}
    ensures r.Err? ==> r.failure == SyncedRecordNotDeletable(x)
  {
    if x.model == ModelName(PartnerE) then
      var left :- SyncMixin.Unlink(recs, [x]);
      assert (set y | y in [x]) == {x};
      Ok(left)
    else Ok(recs - {x})
  }

  /** A discardable line that links a partner known remotely. */
  predicate LinksSyncedPartner(l: Line, recs: Records) {
    var x := EntityRef(PartnerE, l.partner.GetOr(0));
    Discardable(l) && l.partner.Some? && x in recs && !SyncMixin.Deletable(recs[x])
  }

  lemma WeakenedTrans(a: Line, b: Line, c: Line)
    requires Weakened(a, b) && Weakened(b, c)
    ensures Weakened(a, c)
  {
  }

  /** The loop of `action_remove`: `kept` are the lines already passed over,
      `todo` those still to come. Deleting a record empties the links to it
      in both. */
  function RemoveFrom(kept: seq<Line>, todo: seq<Line>, recs: Records): (r: Result<(seq<Line>, Records)>)
    requires Resolves(kept, recs) && Resolves(todo, recs)
    ensures r.Ok? ==> Resolves(r.value.0, r.value.1)
    ensures r.Ok? ==> forall x :: x in r.value.1 ==> x in recs && r.value.1[x] == recs[x]
    decreases |todo|
  {
    if |todo| == 0 then Ok((kept, recs))
    else
      var l := todo[0];
      if Discardable(l) && Target(l).Some? then
        var x := Target(l).value;
        TargetIsLinked(l);
        var left :- DeleteRecord(recs, x);
        DetachResolves(kept, recs, x);
        DetachResolves(todo[1..], recs, x);
        RemoveFrom(DetachAll(kept, x), DetachAll(todo[1..], x), left)
      else
        RemoveFrom(kept + [l], todo[1..], recs)
  }

  /** Deleting a record and emptying the links to it keeps every link resolved. */
  lemma DetachResolves(lines: seq<Line>, recs: Records, x: Ref)
    requires Resolves(lines, recs)
    ensures Resolves(DetachAll(lines, x), recs - {x})
  {
    var d := DetachAll(lines, x);
    forall i, e | 0 <= i < |d| && Link(d[i], e).Some?
      ensures EntityRef(e, Link(d[i], e).value) in recs - {x}
    {
      assert Link(d[i], e) == KeptLink(lines[i], e, x);
    }
  }

  /** Only the partner branch of `Target` yields a partner reference. */
  lemma PartnerTarget(l: Line)
    requires Target(l).Some? && Target(l).value.model == ModelName(PartnerE)
    ensures l.partner.Some? && Target(l).value == EntityRef(PartnerE, l.partner.value)
  {
    assert ModelName(JournalE)[0] != ModelName(PartnerE)[0];
    assert ModelName(AccountE)[0] != ModelName(PartnerE)[0];
    assert ModelName(TaxE)[0] != ModelName(PartnerE)[0];
    assert ModelName(PaymentTermE)[0] != ModelName(PartnerE)[0];
  }

  /** Detaching keeps what a line is and never gives it a new record. */
  lemma DetachFacts(l: Line, x: Ref, recs: Records)
    ensures Discardable(Detach(l, x)) == Discardable(l)
    ensures Weakened(Detach(l, x), l)
    ensures Target(Detach(l, x)).Some? ==> Target(l).Some?
    ensures forall y :: LinksTo(Detach(l, x), y) ==> LinksTo(l, y)
    ensures LinksSyncedPartner(Detach(l, x), recs - {x}) ==>
              LinksSyncedPartner(l, recs) && Detach(l, x).partner == l.partner
  {
    var d := Detach(l, x);
    assert Unlinked(d) == Unlinked(l);
    assert d.invalid == l.invalid && d.reason == l.reason by {
      assert Unlinked(d).invalid == Unlinked(l).invalid && Unlinked(d).reason == Unlinked(l).reason;
    }
    DetachWeakens(l, x);
    TargetIsLinked(d);
    TargetIsLinked(l);
    if Target(d).Some? {
      var e :| Link(d, e).Some?;
      assert Link(d, e) == KeptLink(l, e, x);
    }
    forall y | LinksTo(d, y) ensures LinksTo(l, y) {
      var e :| Link(d, e).Some? && EntityRef(e, Link(d, e).value) == y;
      assert Link(d, e) == KeptLink(l, e, x);
    }
    if LinksSyncedPartner(d, recs - {x}) {
      assert Link(d, PartnerE) == KeptLink(l, PartnerE, x);
    }
  }

  /** `action_remove` fails only on a discardable line whose partner is known
      remotely, and does fail when such a line is reached. */
  lemma {:induction false} RemoveFailsOnSyncedPartner(kept: seq<Line>, todo: seq<Line>, recs: Records)
    requires Resolves(kept, recs) && Resolves(todo, recs)
    ensures var r := RemoveFrom(kept, todo, recs);
      r.Err? ==> exists i :: 0 <= i < |todo| && LinksSyncedPartner(todo[i], recs)
                             && r.failure == SyncedRecordNotDeletable(EntityRef(PartnerE, todo[i].partner.value))
    ensures (forall i :: 0 <= i < |todo| ==> !LinksSyncedPartner(todo[i], recs)) ==> RemoveFrom(kept, todo, recs).Ok?
    decreases |todo|
  {
    if |todo| > 0 {
      var l := todo[0];
      var tail := todo[1..];
      assert forall i :: 0 <= i < |tail| ==> tail[i] == todo[i + 1];
      if Discardable(l) && Target(l).Some? {
        var x := Target(l).value;
        TargetIsLinked(l);
        var del := DeleteRecord(recs, x);
        if del.Err? {
          PartnerTarget(l);
          assert LinksSyncedPartner(todo[0], recs);
        } else {
          DetachResolves(kept, recs, x);
          DetachResolves(tail, recs, x);
          var d := DetachAll(tail, x);
          RemoveFailsOnSyncedPartner(DetachAll(kept, x), d, del.value);
          forall i | 0 <= i < |d|
            ensures LinksSyncedPartner(d[i], del.value) ==>
                      LinksSyncedPartner(todo[i + 1], recs) && d[i].partner == todo[i + 1].partner
          {
            DetachFacts(tail[i], x, recs);
          }
          if (forall i :: 0 <= i < |todo| ==> !LinksSyncedPartner(todo[i], recs)) {
            assert forall i :: 0 <= i < |d| ==> !LinksSyncedPartner(d[i], del.value);
          }
        }
      } else {
        RemoveFailsOnSyncedPartner(kept + [l], tail, recs);
      }
    }
  }

  /** A line `action_remove` would still act on. */
  predicate Removable(l: Line) {
    Discardable(l) && Target(l).Some?
  }

  /** After `action_remove` no line is left that it would act on. */
  lemma {:induction false} RemoveLeavesNothingRemovable(kept: seq<Line>, todo: seq<Line>, recs: Records)
    requires Resolves(kept, recs) && Resolves(todo, recs)
    requires forall k :: 0 <= k < |kept| ==> !Removable(kept[k])
    ensures var r := RemoveFrom(kept, todo, recs);
      r.Ok? ==> forall j :: 0 <= j < |r.value.0| ==> !Removable(r.value.0[j])
    decreases |todo|
  {
    if |todo| > 0 {
      var l := todo[0];
      var tail := todo[1..];
      if Removable(l) {
        var x := Target(l).value;
        TargetIsLinked(l);
        var del := DeleteRecord(recs, x);
        if del.Ok? {
          DetachResolves(kept, recs, x);
          DetachResolves(tail, recs, x);
          var dk := DetachAll(kept, x);
          forall k | 0 <= k < |dk| ensures !Removable(dk[k]) {
            DetachFacts(kept[k], x, recs);
          }
          RemoveLeavesNothingRemovable(dk, DetachAll(tail, x), del.value);
          assert RemoveFrom(kept, todo, recs) == RemoveFrom(dk, DetachAll(tail, x), del.value);
        }
      } else {
        var k2 := kept + [l];
        assert forall k :: 0 <= k < |k2| ==> !Removable(k2[k]);
        assert RemoveFrom(kept, todo, recs) == RemoveFrom(k2, tail, recs);
        RemoveLeavesNothingRemovable(k2, tail, recs);
      }
    }
  }

  /** The lines already passed over stay in front, at most with links emptied. */
  lemma {:induction false} RemoveKeepsPrefix(kept: seq<Line>, todo: seq<Line>, recs: Records)
    requires Resolves(kept, recs) && Resolves(todo, recs)
    ensures var r := RemoveFrom(kept, todo, recs);
      r.Ok? ==> |r.value.0| >= |kept| && forall i :: 0 <= i < |kept| ==> Weakened(r.value.0[i], kept[i])
    decreases |todo|
  {
    if |todo| > 0 {
      var l := todo[0];
      var tail := todo[1..];
      if Removable(l) {
        var x := Target(l).value;
        TargetIsLinked(l);
        var del := DeleteRecord(recs, x);
        if del.Ok? {
          DetachResolves(kept, recs, x);
          DetachResolves(tail, recs, x);
          var dk := DetachAll(kept, x);
          RemoveKeepsPrefix(dk, DetachAll(tail, x), del.value);
          var r := RemoveFrom(dk, DetachAll(tail, x), del.value);
          forall i | 0 <= i < |kept| && r.Ok? ensures Weakened(r.value.0[i], kept[i]) {
            DetachFacts(kept[i], x, recs);
            WeakenedTrans(r.value.0[i], dk[i], kept[i]);
          }
          assert RemoveFrom(kept, todo, recs) == r;
        }
      } else {
        var k2 := kept + [l];
        RemoveKeepsPrefix(k2, tail, recs);
        assert forall i :: 0 <= i < |kept| ==> k2[i] == kept[i];
      }
    }
  }
  /** `a` is one of `orig`, at most with links emptied. */
  predicate ComesFrom(a: Line, orig: seq<Line>) {
    exists i :: 0 <= i < |orig| && Weakened(a, orig[i])
  }

  /** Some line of `res` is `l`, at most with links emptied. */
  predicate Survives(res: seq<Line>, l: Line) {
    exists j :: 0 <= j < |res| && Weakened(res[j], l)
  }

  lemma SurvivesWeakened(res: seq<Line>, a: Line, b: Line)
    requires Survives(res, a) && Weakened(a, b)
    ensures Survives(res, b)
  {
    var j :| 0 <= j < |res| && Weakened(res[j], a);
    WeakenedTrans(res[j], a, b);
  }

  /** Every line `action_remove` does not act on survives, at most with its
      links emptied. */
  lemma {:induction false} RemoveKeepsTheRest(kept: seq<Line>, todo: seq<Line>, recs: Records)
    requires Resolves(kept, recs) && Resolves(todo, recs)
    ensures var r := RemoveFrom(kept, todo, recs);
      r.Ok? ==> forall i :: 0 <= i < |todo| && !Discardable(todo[i]) ==> Survives(r.value.0, todo[i])
    decreases |todo|
  {
    var r := RemoveFrom(kept, todo, recs);
    if |todo| > 0 && r.Ok? {
      var l := todo[0];
      var tail := todo[1..];
      assert forall i :: 0 <= i < |tail| ==> tail[i] == todo[i + 1];
      if Removable(l) {
        var x := Target(l).value;
        TargetIsLinked(l);
        var del := DeleteRecord(recs, x);
        DetachResolves(kept, recs, x);
        DetachResolves(tail, recs, x);
        var dk := DetachAll(kept, x);
        var dt := DetachAll(tail, x);
        RemoveKeepsTheRest(dk, dt, del.value);
        assert r == RemoveFrom(dk, dt, del.value);
        forall i | 0 <= i < |todo| && !Discardable(todo[i])
          ensures Survives(r.value.0, todo[i])
        {
          DetachFacts(tail[i - 1], x, recs);
          SurvivesWeakened(r.value.0, dt[i - 1], todo[i]);
        }
      } else {
        var k2 := kept + [l];
        RemoveKeepsTheRest(k2, tail, recs);
        RemoveKeepsPrefix(k2, tail, recs);
        assert r == RemoveFrom(k2, tail, recs);
        assert Weakened(r.value.0[|kept|], todo[0]);
      }
    }
  }

  /** A line that comes from the detached lines, the first line left out,
      comes from the original ones. */
  lemma ComesFromDetached(a: Line, kept: seq<Line>, todo: seq<Line>, x: Ref)
    requires |todo| > 0 && ComesFrom(a, DetachAll(kept, x) + DetachAll(todo[1..], x))
    ensures ComesFrom(a, kept + todo)
  {
    var dk := DetachAll(kept, x);
    var dt := DetachAll(todo[1..], x);
    var all := kept + todo;
    var i :| 0 <= i < |dk + dt| && Weakened(a, (dk + dt)[i]);
    if i < |dk| {
      DetachWeakens(kept[i], x);
      WeakenedTrans(a, dk[i], kept[i]);
      assert all[i] == kept[i];
    } else {
      var t := i - |dk|;
      DetachWeakens(todo[1..][t], x);
      WeakenedTrans(a, dt[t], todo[1..][t]);
      assert all[i + 1] == todo[1..][t];
    }
  }

  /** Every line `action_remove` leaves comes from the original ones. */
  lemma {:induction false} RemoveComesFromOriginals(kept: seq<Line>, todo: seq<Line>, recs: Records)
    requires Resolves(kept, recs) && Resolves(todo, recs)
    ensures var r := RemoveFrom(kept, todo, recs);
      r.Ok? ==> forall j :: 0 <= j < |r.value.0| ==> ComesFrom(r.value.0[j], kept + todo)
    decreases |todo|
  {
    var r := RemoveFrom(kept, todo, recs);
    var all := kept + todo;
    if |todo| == 0 {
      forall j | 0 <= j < |kept| ensures ComesFrom(kept[j], all) {
        assert all[j] == kept[j];
        assert Weakened(kept[j], all[j]);
      }
    } else if r.Ok? {
      var l := todo[0];
      var tail := todo[1..];
      if Removable(l) {
        var x := Target(l).value;
        TargetIsLinked(l);
        var del := DeleteRecord(recs, x);
        DetachResolves(kept, recs, x);
        DetachResolves(tail, recs, x);
        var dk := DetachAll(kept, x);
        var dt := DetachAll(tail, x);
        RemoveComesFromOriginals(dk, dt, del.value);
        assert r == RemoveFrom(dk, dt, del.value);
        forall j | 0 <= j < |r.value.0| ensures ComesFrom(r.value.0[j], all) {
          ComesFromDetached(r.value.0[j], kept, todo, x);
        }
      } else {
        var k2 := kept + [l];
        RemoveComesFromOriginals(k2, tail, recs);
        assert r == RemoveFrom(k2, tail, recs);
        assert k2 + tail == all;
      }
    }
  }

  /** `action_remove` deletes only records that a discardable line links. */
  lemma {:induction false} RemoveDeletesOnlyLinked(kept: seq<Line>, todo: seq<Line>, recs: Records)
    requires Resolves(kept, recs) && Resolves(todo, recs)
    ensures var r := RemoveFrom(kept, todo, recs);
      r.Ok? ==> forall x :: x in recs && x !in r.value.1 ==>
                  exists i :: 0 <= i < |todo| && Discardable(todo[i]) && LinksTo(todo[i], x)
    decreases |todo|
  {
    var r := RemoveFrom(kept, todo, recs);
    if |todo| > 0 && r.Ok? {
      var l := todo[0];
      var tail := todo[1..];
      assert forall i :: 0 <= i < |tail| ==> tail[i] == todo[i + 1];
      if Removable(l) {
        var x := Target(l).value;
        TargetIsLinked(l);
        var del := DeleteRecord(recs, x);
        DetachResolves(kept, recs, x);
        DetachResolves(tail, recs, x);
        var dt := DetachAll(tail, x);
        RemoveDeletesOnlyLinked(DetachAll(kept, x), dt, del.value);
        forall y | y in recs && y !in r.value.1
          ensures exists i :: 0 <= i < |todo| && Discardable(todo[i]) && LinksTo(todo[i], y)
        {
          if y == x {
            assert Discardable(todo[0]) && LinksTo(todo[0], y);
          } else {
            var i :| 0 <= i < |dt| && Discardable(dt[i]) && LinksTo(dt[i], y);
            DetachFacts(tail[i], x, recs);
            assert Discardable(todo[i + 1]) && LinksTo(todo[i + 1], y);
          }
        }
      } else {
        RemoveDeletesOnlyLinked(kept + [l], tail, recs);
      }
    }
  }

  /** Emptying the links to another record leaves a line's target alone. */
  lemma DetachKeepsTarget(l: Line, x: Ref)
    requires Target(l).Some? && Target(l).value != x
    ensures Target(Detach(l, x)) == Target(l)
  {
  }

  /** A line's id is what is left besides its links, so emptying links keeps it. */
  lemma WeakenedSameId(a: Line, b: Line)
    requires Weakened(a, b)
    ensures a.id == b.id
  {
    assert Unlinked(a).id == Unlinked(b).id;
  }

  /** `action_remove` deletes the record every removable line targets: a
      target still present when its line is reached is deleted there, and
      one that is gone by then was deleted earlier. */
  lemma {:induction false} RemoveDeletesTargets(kept: seq<Line>, todo: seq<Line>, recs: Records)
    requires Resolves(kept, recs) && Resolves(todo, recs)
    ensures var r := RemoveFrom(kept, todo, recs);
      r.Ok? ==> forall i :: 0 <= i < |todo| && Removable(todo[i]) ==> Target(todo[i]).value !in r.value.1
    decreases |todo|
  {
    var r := RemoveFrom(kept, todo, recs);
    if |todo| > 0 && r.Ok? {
      var l := todo[0];
      var tail := todo[1..];
      assert forall i :: 0 <= i < |tail| ==> tail[i] == todo[i + 1];
      if Removable(l) {
        var x := Target(l).value;
        TargetIsLinked(l);
        var del := DeleteRecord(recs, x);
        DetachResolves(kept, recs, x);
        DetachResolves(tail, recs, x);
        var dk := DetachAll(kept, x);
        var dt := DetachAll(tail, x);
        RemoveDeletesTargets(dk, dt, del.value);
        assert r == RemoveFrom(dk, dt, del.value);
        forall i | 0 <= i < |todo| && Removable(todo[i])
          ensures Target(todo[i]).value !in r.value.1
        {
          if Target(todo[i]).value != x {
            DetachKeepsTarget(tail[i - 1], x);
            DetachFacts(tail[i - 1], x, recs);
          }
        }
      } else {
        RemoveDeletesTargets(kept + [l], tail, recs);
        assert r == RemoveFrom(kept + [l], tail, recs);
      }
    }
  }

  /** The first line, when removable, is dropped: the lines left come from
      the others. */
  lemma RemoveDropsHead(kept: seq<Line>, todo: seq<Line>, recs: Records)
    requires Resolves(kept, recs) && Resolves(todo, recs)
    requires |todo| > 0 && Removable(todo[0])
    requires forall j :: 0 < j < |todo| ==> todo[j].id != todo[0].id
    requires forall k :: 0 <= k < |kept| ==> kept[k].id != todo[0].id
    ensures var r := RemoveFrom(kept, todo, recs);
      r.Ok? ==> forall k :: 0 <= k < |r.value.0| ==> r.value.0[k].id != todo[0].id
  {
    var r := RemoveFrom(kept, todo, recs);
    var l := todo[0];
    var tail := todo[1..];
    var x := Target(l).value;
    TargetIsLinked(l);
    var del := DeleteRecord(recs, x);
    if del.Ok? {
      DetachResolves(kept, recs, x);
      DetachResolves(tail, recs, x);
      var dk := DetachAll(kept, x);
      var dt := DetachAll(tail, x);
      assert r == RemoveFrom(dk, dt, del.value);
      RemoveComesFromOriginals(dk, dt, del.value);
      forall k | r.Ok? && 0 <= k < |r.value.0| ensures r.value.0[k].id != l.id {
        var m :| 0 <= m < |dk + dt| && Weakened(r.value.0[k], (dk + dt)[m]);
        WeakenedSameId(r.value.0[k], (dk + dt)[m]);
        if m < |dk| {
          DetachFacts(kept[m], x, recs);
          WeakenedSameId(dk[m], kept[m]);
        } else {
          assert (dk + dt)[m] == dt[m - |dk|];
          DetachFacts(tail[m - |dk|], x, recs);
          WeakenedSameId(dt[m - |dk|], tail[m - |dk|]);
          assert tail[m - |dk|] == todo[m - |dk| + 1];
        }
      }
    }
  }

  /** Emptying the links to a deleted record keeps every line's id. */
  lemma RemoveShiftIds(kept: seq<Line>, tail: seq<Line>, recs: Records, x: Ref, id: nat, i: nat)
    requires i < |tail|
    requires forall j :: 0 <= j < |tail| && j != i ==> tail[j].id != tail[i].id
    requires forall k :: 0 <= k < |kept| ==> kept[k].id != tail[i].id
    ensures DetachAll(tail, x)[i].id == tail[i].id
    ensures forall j :: 0 <= j < |tail| && j != i ==> DetachAll(tail, x)[j].id != tail[i].id
    ensures forall k :: 0 <= k < |kept| ==> DetachAll(kept, x)[k].id != tail[i].id
  {
    var dk := DetachAll(kept, x);
    var dt := DetachAll(tail, x);
    forall k | 0 <= k < |dk| ensures dk[k].id == kept[k].id {
      DetachFacts(kept[k], x, recs);
      WeakenedSameId(dk[k], kept[k]);
    }
    forall j | 0 <= j < |dt| ensures dt[j].id == tail[j].id {
      DetachFacts(tail[j], x, recs);
      WeakenedSameId(dt[j], tail[j]);
    }
  }

  /** A removable line is dropped: when no other discardable line links its
      target, and no other line shares its id, no line left carries its id. */
  lemma {:induction false} RemoveDropsLine(kept: seq<Line>, todo: seq<Line>, recs: Records, i: nat)
    requires Resolves(kept, recs) && Resolves(todo, recs)
    requires i < |todo| && Removable(todo[i])
    requires forall j :: 0 <= j < |todo| && j != i && Discardable(todo[j]) ==> !LinksTo(todo[j], Target(todo[i]).value)
    requires forall j :: 0 <= j < |todo| && j != i ==> todo[j].id != todo[i].id
    requires forall k :: 0 <= k < |kept| ==> kept[k].id != todo[i].id
    ensures var r := RemoveFrom(kept, todo, recs);
      r.Ok? ==> forall k :: 0 <= k < |r.value.0| ==> r.value.0[k].id != todo[i].id
    decreases |todo|
  {
    var r := RemoveFrom(kept, todo, recs);
    var l := todo[0];
    var tail := todo[1..];
    if i == 0 {
      RemoveDropsHead(kept, todo, recs);
    } else if r.Ok? {
      assert forall j :: 0 <= j < |tail| ==> tail[j] == todo[j + 1];
      if Removable(l) {
        var x := Target(l).value;
        TargetIsLinked(l);
        var del := DeleteRecord(recs, x);
        DetachResolves(kept, recs, x);
        DetachResolves(tail, recs, x);
        var dk := DetachAll(kept, x);
        var dt := DetachAll(tail, x);
        assert r == RemoveFrom(dk, dt, del.value);
        RemoveShiftIds(kept, tail, recs, x, l.id, i - 1);
        var t := Target(todo[i]).value;
        assert x != t;
        DetachKeepsTarget(tail[i - 1], x);
        DetachFacts(tail[i - 1], x, recs);
        forall j | 0 <= j < |dt| && j != i - 1 && Discardable(dt[j])
          ensures !LinksTo(dt[j], t)
        {
          DetachFacts(tail[j], x, recs);
        }
        RemoveDropsLine(dk, dt, del.value, i - 1);
      } else {
        var k2 := kept + [l];
        assert r == RemoveFrom(k2, tail, recs);
        RemoveDropsLine(k2, tail, recs, i - 1);
      }
    }
  }

  /** `action_remove` over the lines in order. */
  function ActionRemove(lines: seq<Line>, recs: Records): (r: Result<(seq<Line>, Records)>)
    requires Resolves(lines, recs)
    ensures r.Err? ==> exists i :: 0 <= i < |lines| && LinksSyncedPartner(lines[i], recs)
                                   && r.failure == SyncedRecordNotDeletable(EntityRef(PartnerE, lines[i].partner.value))
    ensures (forall i :: 0 <= i < |lines| ==> !LinksSyncedPartner(lines[i], recs)) ==> r.Ok?
    ensures r.Ok? ==> Resolves(r.value.0, r.value.1)
    ensures r.Ok? ==> forall j :: 0 <= j < |r.value.0| ==> !Removable(r.value.0[j])
    ensures r.Ok? ==> forall j :: 0 <= j < |r.value.0| ==> ComesFrom(r.value.0[j], lines)
    ensures r.Ok? ==> forall i :: 0 <= i < |lines| && !Discardable(lines[i]) ==> Survives(r.value.0, lines[i])
    ensures r.Ok? ==> forall x :: x in r.value.1 ==> x in recs && r.value.1[x] == recs[x]
    ensures r.Ok? ==> forall x :: x in recs && x !in r.value.1 ==>
              exists i :: 0 <= i < |lines| && Discardable(lines[i]) && LinksTo(lines[i], x)
    ensures r.Ok? ==> forall i :: 0 <= i < |lines| && Removable(lines[i]) ==> Target(lines[i]).value !in r.value.1
  {
    RemoveFailsOnSyncedPartner([], lines, recs);
    RemoveLeavesNothingRemovable([], lines, recs);
    RemoveKeepsTheRest([], lines, recs);
    RemoveComesFromOriginals([], lines, recs);
    assert [] + lines == lines;
    RemoveDeletesOnlyLinked([], lines, recs);
    RemoveDeletesTargets([], lines, recs);
    RemoveFrom([], lines, recs)
  }

  /** `action_remove` unlinks a removable line itself, once its record is
      gone: when no other discardable line links that record and line ids
      are distinct, no line of the result carries the line's id. */
  lemma ActionRemoveDropsLine(lines: seq<Line>, recs: Records, i: nat)
    requires Resolves(lines, recs)
    requires i < |lines| && Removable(lines[i])
    requires forall j :: 0 <= j < |lines| && j != i && Discardable(lines[j]) ==> !LinksTo(lines[j], Target(lines[i]).value)
    requires forall j :: 0 <= j < |lines| && j != i ==> lines[j].id != lines[i].id
    ensures var r := ActionRemove(lines, recs);
      r.Ok? ==> forall k :: 0 <= k < |r.value.0| ==> r.value.0[k].id != lines[i].id
  {
    RemoveDropsLine([], lines, recs, i);
  }

  // ---------------------------------------------------------------------
  // action_export

  function PartnerRef(l: Line): Ref
    requires l.partner.Some?
  {
    EntityRef(PartnerE, l.partner.value)
  }

  /** The lines `action_export` queues as written: its reason test names
      `no_code` and `no_exact`, and no line has the reason `no_exact`. */
  predicate ExportableAsWritten(l: Line) {
    l.reason == Some(NoCode) && !HasCode(l.code) && l.partner.Some?
  }

  /** The lines `action_export` is evidently meant to queue: those missing
      from the remote side for want of a code or of a counterpart. */
  predicate Exportable(l: Line) {
    (l.reason == Some(NoCode) || l.reason == Some(NotExact)) && !HasCode(l.code) && l.partner.Some?
  }

  /** What exporting needs: every line belongs to a known wizard and links
      an existing partner. */
  ghost predicate ExportReady(db: Db, lines: seq<Line>, wizards: map<nat, Wizard>) {
    && Fresh(db)
    && (forall i :: 0 <= i < |lines| ==> lines[i].sync in wizards)
    && (forall i :: 0 <= i < |lines| && lines[i].partner.Some? ==> PartnerRef(lines[i]) in db.records)
  }

  /** The line test of the export loop, as written or corrected. */
  predicate Chosen(l: Line, asWritten: bool) {
    if asWritten then ExportableAsWritten(l) else Exportable(l)
  }

  /** The export loop, with the line test as written or corrected: each
      chosen line's partner is queued, in an initial sync, for the company of
      the line's wizard. */
  function ExportWith(db: Db, lines: seq<Line>, wizards: map<nat, Wizard>, now: int, asWritten: bool): (r: Db)
    requires ExportReady(db, lines, wizards)
    ensures Fresh(r) && r.companies == db.companies && r.records.Keys == db.records.Keys
    ensures forall k :: k in db.txs ==> k in r.txs && r.txs[k] == db.txs[k]
    ensures AtMostOneTodo(db.txs) ==> AtMostOneTodo(r.txs)
    ensures forall x :: x in db.records && db.records[x].status == Some(Queued) ==> r.records[x].status == Some(Queued)
    decreases |lines|
  {
    if |lines| == 0 then db
    else
      var l := lines[0];
      var db1 := if Chosen(l, asWritten) then ExportLine(db, l, wizards, now) else db;
      assert forall i :: 0 < i < |lines| ==> lines[i] == lines[1..][i - 1];
      ExportWith(db1, lines[1..], wizards, now, asWritten)
  }

  /** Queuing one line's partner for its wizard's company. */
  function ExportLine(db: Db, l: Line, wizards: map<nat, Wizard>, now: int): (r: Db)
    requires Fresh(db) && l.sync in wizards && l.partner.Some? && PartnerRef(l) in db.records
    ensures Fresh(r) && r.companies == db.companies && r.records.Keys == db.records.Keys
    ensures forall k :: k in db.txs ==> k in r.txs && r.txs[k] == db.txs[k]
    ensures AtMostOneTodo(db.txs) ==> AtMostOneTodo(r.txs)
    ensures forall x :: x in db.records && db.records[x].status == Some(Queued) ==> r.records[x].status == Some(Queued)
    ensures r.records[PartnerRef(l)].status == Some(Queued)
    ensures HasTodo(r.txs, wizards[l.sync].company, ModelName(PartnerE), l.partner.value)
    ensures forall x :: x in db.records && x != PartnerRef(l) ==> r.records[x] == db.records[x]
  {
    var c := wizards[l.sync].company;
    assert c in [c];
    SyncMixin.ExactCreateTransaction(db, PartnerRef(l), Some([c]), [], true, now)
  }

  /** The partner of chosen line `i` ends up queued, with a pending
      transaction for its wizard's company. */
  lemma {:induction false} ExportQueuesChosenAt(db: Db, lines: seq<Line>, wizards: map<nat, Wizard>, now: int,
                                                asWritten: bool, i: nat)
    requires ExportReady(db, lines, wizards)
    requires i < |lines| && Chosen(lines[i], asWritten)
    ensures var r := ExportWith(db, lines, wizards, now, asWritten);
      && r.records[PartnerRef(lines[i])].status == Some(Queued)
      && HasTodo(r.txs, wizards[lines[i].sync].company, ModelName(PartnerE), lines[i].partner.value)
    decreases i
  {
    var l := lines[0];
    var tail := lines[1..];
    var db1 := if Chosen(l, asWritten) then ExportLine(db, l, wizards, now) else db;
    assert forall j :: 0 <= j < |tail| ==> tail[j] == lines[j + 1];
    var r := ExportWith(db, lines, wizards, now, asWritten);
    assert r == ExportWith(db1, tail, wizards, now, asWritten);
    if i == 0 {
      HasTodoKept(db1.txs, r.txs, wizards[l.sync].company, ModelName(PartnerE), l.partner.value);
    } else {
      ExportQueuesChosenAt(db1, tail, wizards, now, asWritten, i - 1);
    }
  }

  /** Every chosen line's partner ends up queued, with a pending transaction
      for its wizard's company. */
  lemma ExportQueuesChosen(db: Db, lines: seq<Line>, wizards: map<nat, Wizard>, now: int, asWritten: bool)
    requires ExportReady(db, lines, wizards)
    ensures var r := ExportWith(db, lines, wizards, now, asWritten);
      forall i :: 0 <= i < |lines| && Chosen(lines[i], asWritten) ==>
        && r.records[PartnerRef(lines[i])].status == Some(Queued)
        && HasTodo(r.txs, wizards[lines[i].sync].company, ModelName(PartnerE), lines[i].partner.value)
  {
    forall i | 0 <= i < |lines| && Chosen(lines[i], asWritten)
      ensures var r := ExportWith(db, lines, wizards, now, asWritten);
        && r.records[PartnerRef(lines[i])].status == Some(Queued)
        && HasTodo(r.txs, wizards[lines[i].sync].company, ModelName(PartnerE), lines[i].partner.value)
    {
      ExportQueuesChosenAt(db, lines, wizards, now, asWritten, i);
    }
  }

  /** Records that no chosen line links are left as they were. */
  lemma {:induction false} ExportTouchesOnlyChosen(db: Db, lines: seq<Line>, wizards: map<nat, Wizard>, now: int,
                                                   asWritten: bool, x: Ref)
    requires ExportReady(db, lines, wizards) && x in db.records
    requires forall i :: 0 <= i < |lines| && Chosen(lines[i], asWritten) ==> PartnerRef(lines[i]) != x
    ensures ExportWith(db, lines, wizards, now, asWritten).records[x] == db.records[x]
    decreases |lines|
  {
    if |lines| > 0 {
      var l := lines[0];
      var tail := lines[1..];
      var db1 := if Chosen(l, asWritten) then ExportLine(db, l, wizards, now) else db;
      assert forall i :: 0 <= i < |tail| ==> tail[i] == lines[i + 1];
      ExportTouchesOnlyChosen(db1, tail, wizards, now, asWritten, x);
    }
  }

  /** With no line chosen the export changes nothing. */
  lemma {:induction false} ExportNothingChosen(db: Db, lines: seq<Line>, wizards: map<nat, Wizard>, now: int, asWritten: bool)
    requires ExportReady(db, lines, wizards)
    ensures (forall i :: 0 <= i < |lines| ==> !Chosen(lines[i], asWritten)) ==> ExportWith(db, lines, wizards, now, asWritten) == db
    decreases |lines|
  {
    if |lines| > 0 {
      var tail := lines[1..];
      assert forall i :: 0 <= i < |tail| ==> tail[i] == lines[i + 1];
      ExportNothingChosen(db, tail, wizards, now, asWritten);
    }
  }

  /** `action_export` as written. */
  function ExportAsWritten(db: Db, lines: seq<Line>, wizards: map<nat, Wizard>, now: int): (r: Db)
    requires ExportReady(db, lines, wizards)
    ensures (forall i :: 0 <= i < |lines| ==> lines[i].reason != Some(NoCode)) ==> r == db
  {
    ExportNothingChosen(db, lines, wizards, now, true);
    ExportWith(db, lines, wizards, now, true)
  }

  /** `action_export` as evidently intended: lines missing remotely for either
      reason have their partner queued. */
  function ActionExport(db: Db, lines: seq<Line>, wizards: map<nat, Wizard>, now: int): (r: Db)
    requires ExportReady(db, lines, wizards)
    ensures Fresh(r) && r.companies == db.companies && r.records.Keys == db.records.Keys
    ensures forall k :: k in db.txs ==> k in r.txs && r.txs[k] == db.txs[k]
    ensures AtMostOneTodo(db.txs) ==> AtMostOneTodo(r.txs)
    ensures forall i :: 0 <= i < |lines| && Exportable(lines[i]) ==>
              && r.records[PartnerRef(lines[i])].status == Some(Queued)
              && HasTodo(r.txs, wizards[lines[i].sync].company, ModelName(PartnerE), lines[i].partner.value)
    ensures (forall i :: 0 <= i < |lines| ==> !Exportable(lines[i])) ==> r == db
  {
    ExportQueuesChosen(db, lines, wizards, now, false);
    ExportNothingChosen(db, lines, wizards, now, false);
    ExportWith(db, lines, wizards, now, false)
  }

  /** As written, a `not_exact` line whose code the user cleared is never
      exported, though the corrected action queues its partner. */
  lemma ExportSkipsNotExact(db: Db, l: Line, wizards: map<nat, Wizard>, now: int)
    requires ExportReady(db, [l], wizards)
    requires l.reason == Some(NotExact) && !HasCode(l.code) && l.partner.Some?
    ensures ExportAsWritten(db, [l], wizards, now) == db
    ensures HasTodo(ActionExport(db, [l], wizards, now).txs, wizards[l.sync].company, ModelName(PartnerE), l.partner.value)
  {
    assert Exportable([l][0]);
  }

  // ---------------------------------------------------------------------
  // action_import

  /** What importing reads besides the lines: the ids of the countries and
      currencies by remote code, the installed languages, the user's
      language and the fields a partner has. */
  datatype ImportEnv = ImportEnv(
    countries: map<Value, nat>,
    currencies: map<Value, nat>,
    langs: set<string>,
    userLang: Value,
    partnerFields: set<string>)

  const CountryKey := "country_id.exact_online_code"
  const CurrencyKey := "currency_id.exact_online_code"

  /** The value of a many2one to the record found by code: its id, or false
      when the search finds nothing. */
  function FoundId(ids: map<Value, nat>, code: Value): Value {
    if code in ids then VInt(ids[code]) else VBool(false)
  }

  /** `a` and `b` agree on key `k`, present or absent. */
  predicate SameAt(a: map<string, Value>, b: map<string, Value>, k: string) {
    (k in a <==> k in b) && (k in a ==> a[k] == b[k])
  }

  /** A truthy remote code under `key` becomes the id under `target`, and
      `key` goes. */
  function ResolveCode(vals: map<string, Value>, key: string, target: string, ids: map<Value, nat>): (r: map<string, Value>)
    requires key != target
    ensures key in vals && Truthy(vals[key]) ==> key !in r && target in r && r[target] == FoundId(ids, vals[key])
    ensures !(key in vals && Truthy(vals[key])) ==> r == vals
    ensures forall k :: k != key && k != target ==> SameAt(r, vals, k)
  {
    if key in vals && Truthy(vals[key]) then (vals - {key})[target := FoundId(ids, vals[key])]
    else vals
  }

  predicate InstalledLang(v: Value, langs: set<string>) {
    v.VStr? && v.s in langs
  }

  /** A truthy language that is not installed becomes the user's. */
  function FixLang(vals: map<string, Value>, langs: set<string>, userLang: Value): (r: map<string, Value>)
    ensures "lang" in r <==> "lang" in vals
    ensures "lang" in r && Truthy(r["lang"]) ==> InstalledLang(r["lang"], langs) || r["lang"] == userLang
    ensures "lang" in r && r["lang"] != userLang ==> r["lang"] == vals["lang"]
    ensures forall k :: k != "lang" ==> SameAt(r, vals, k)
  {
    if "lang" in vals && Truthy(vals["lang"]) && !InstalledLang(vals["lang"], langs) then vals["lang" := userLang]
    else vals
  }

  /** A truthy flag or rank becomes rank 1. */
  function Rank(vals: map<string, Value>, flag: string, rank: string): (r: map<string, Value>)
    ensures (flag in vals && Truthy(vals[flag])) || (rank in vals && Truthy(vals[rank])) ==> rank in r && r[rank] == VInt(1)
    ensures forall k :: k != rank ==> SameAt(r, vals, k)
    ensures rank in r && r[rank] != VInt(1) ==> rank in vals && r[rank] == vals[rank] && !Truthy(r[rank])
  {
    if (flag in vals && Truthy(vals[flag])) || (rank in vals && Truthy(vals[rank])) then vals[rank := VInt(1)]
    else vals
  }

  /** The keys `action_import` rewrites. */
  const Rewritten: set<string> := {"country_id", "currency_id", "lang", "customer_rank", "supplier_rank", CountryKey, CurrencyKey}

  /** The rewriting `action_import` does before dropping the fields a
      partner lacks. */
  function Prepare(vals: map<string, Value>, env: ImportEnv): (r: map<string, Value>)
    ensures forall k :: k !in Rewritten ==> SameAt(r, vals, k)
  {
    Ranks(FixLang(Codes(vals, env), env.langs, env.userLang))
  }

  /** Codes of country and currency are resolved to ids, and no truthy code
      is left. */
  lemma PrepareResolvesCodes(vals: map<string, Value>, env: ImportEnv)
    ensures var r := Prepare(vals, env);
      && (CountryKey in vals && Truthy(vals[CountryKey]) ==>
            CountryKey !in r && "country_id" in r && r["country_id"] == FoundId(env.countries, vals[CountryKey]))
      && (CurrencyKey in vals && Truthy(vals[CurrencyKey]) ==>
            CurrencyKey !in r && "currency_id" in r && r["currency_id"] == FoundId(env.currencies, vals[CurrencyKey]))
      && (CountryKey in r ==> !Truthy(r[CountryKey]))
      && (CurrencyKey in r ==> !Truthy(r[CurrencyKey]))
  {
    RewrittenKeysDistinct();
    var a := Codes(vals, env);
    var b := FixLang(a, env.langs, env.userLang);
    var c := Ranks(b);
    assert SameAt(c, b, CountryKey) && SameAt(c, b, CurrencyKey) && SameAt(c, b, "country_id") && SameAt(c, b, "currency_id");
    assert SameAt(b, a, CountryKey) && SameAt(b, a, CurrencyKey) && SameAt(b, a, "country_id") && SameAt(b, a, "currency_id");
  }

  /** A truthy language is an installed one or the user's. */
  lemma PrepareFixesLang(vals: map<string, Value>, env: ImportEnv)
    ensures var r := Prepare(vals, env);
      && ("lang" in r && Truthy(r["lang"]) ==> InstalledLang(r["lang"], env.langs) || r["lang"] == env.userLang)
      && ("lang" in r && r["lang"] != env.userLang ==> "lang" in vals && r["lang"] == vals["lang"])
  {
    RewrittenKeysDistinct();
    var a := Codes(vals, env);
    var b := FixLang(a, env.langs, env.userLang);
    assert SameAt(Ranks(b), b, "lang") && SameAt(a, vals, "lang");
  }

  /** A truthy customer or supplier flag or rank makes the rank 1, and a rank
      left is 1 or falsy. */
  lemma PrepareRanks(vals: map<string, Value>, env: ImportEnv)
    ensures var r := Prepare(vals, env);
      && (("customer" in vals && Truthy(vals["customer"])) || ("customer_rank" in vals && Truthy(vals["customer_rank"])) ==>
            "customer_rank" in r && r["customer_rank"] == VInt(1))
      && (("supplier" in vals && Truthy(vals["supplier"])) || ("supplier_rank" in vals && Truthy(vals["supplier_rank"])) ==>
            "supplier_rank" in r && r["supplier_rank"] == VInt(1))
      && ("customer_rank" in r ==> r["customer_rank"] == VInt(1) || !Truthy(r["customer_rank"]))
      && ("supplier_rank" in r ==> r["supplier_rank"] == VInt(1) || !Truthy(r["supplier_rank"]))
  {
    RewrittenKeysDistinct();
    var a := Codes(vals, env);
    var b := FixLang(a, env.langs, env.userLang);
    assert SameAt(b, vals, "customer") && SameAt(b, vals, "supplier");
    assert SameAt(b, vals, "customer_rank") && SameAt(b, vals, "supplier_rank");
  }

  lemma RewrittenKeysDistinct()
    ensures "lang" !in {CountryKey, CurrencyKey, "country_id", "currency_id", "customer_rank", "supplier_rank"}
    ensures "customer_rank" !in {CountryKey, CurrencyKey, "country_id", "currency_id", "supplier_rank"}
    ensures "supplier_rank" !in {CountryKey, CurrencyKey, "country_id", "currency_id"}
    ensures CountryKey != CurrencyKey
    ensures "customer" !in {CountryKey, CurrencyKey, "country_id", "currency_id", "lang"}
    ensures "supplier" !in {CountryKey, CurrencyKey, "country_id", "currency_id", "lang"}
  {
    assert "lang"[0] == 'l';
    assert "customer_rank"[0] == 'c' && "customer_rank"[1] == 'u';
    assert "supplier_rank"[0] == 's' && "supplier"[0] == 's';
    assert "customer"[1] == 'u' && |"customer"| == 8;
    assert CountryKey[1] == 'o' && CurrencyKey[1] == 'u' && "country_id"[1] == 'o' && "currency_id"[1] == 'u';
  }

  /** Country and currency codes resolved to ids. */
  function Codes(vals: map<string, Value>, env: ImportEnv): (r: map<string, Value>)
    ensures CountryKey in vals && Truthy(vals[CountryKey]) ==>
              CountryKey !in r && "country_id" in r && r["country_id"] == FoundId(env.countries, vals[CountryKey])
    ensures CurrencyKey in vals && Truthy(vals[CurrencyKey]) ==>
              CurrencyKey !in r && "currency_id" in r && r["currency_id"] == FoundId(env.currencies, vals[CurrencyKey])
    ensures CountryKey in r ==> !Truthy(r[CountryKey])
    ensures CurrencyKey in r ==> !Truthy(r[CurrencyKey])
    ensures forall k :: k !in {CountryKey, CurrencyKey, "country_id", "currency_id"} ==> SameAt(r, vals, k)
  {
    var v1 := ResolveCode(vals, CountryKey, "country_id", env.countries);
    ResolveCode(v1, CurrencyKey, "currency_id", env.currencies)
  }

  /** Customer and supplier flags turned into ranks. */
  function Ranks(vals: map<string, Value>): (r: map<string, Value>)
    ensures ("customer" in vals && Truthy(vals["customer"])) || ("customer_rank" in vals && Truthy(vals["customer_rank"])) ==>
              "customer_rank" in r && r["customer_rank"] == VInt(1)
    ensures ("supplier" in vals && Truthy(vals["supplier"])) || ("supplier_rank" in vals && Truthy(vals["supplier_rank"])) ==>
              "supplier_rank" in r && r["supplier_rank"] == VInt(1)
    ensures "customer_rank" in r ==> r["customer_rank"] == VInt(1) || !Truthy(r["customer_rank"])
    ensures "supplier_rank" in r ==> r["supplier_rank"] == VInt(1) || !Truthy(r["supplier_rank"])
    ensures forall k :: k !in {"customer_rank", "supplier_rank"} ==> SameAt(r, vals, k)
  {
    Rank(Rank(vals, "customer", "customer_rank"), "supplier", "supplier_rank")
  }

  /** The values one `not_odoo` line contributes to the partners created:
      codes resolved to ids, an unknown language replaced by the user's,
      customer and supplier flags turned into ranks, and only partner
      fields kept. */
  function ImportVals(vals: map<string, Value>, env: ImportEnv): (r: map<string, Value>)
    ensures r.Keys <= env.partnerFields
    // the codes of country and currency become ids
    ensures "country_id" in env.partnerFields && CountryKey in vals && Truthy(vals[CountryKey]) ==>
              "country_id" in r && r["country_id"] == FoundId(env.countries, vals[CountryKey])
    ensures "currency_id" in env.partnerFields && CurrencyKey in vals && Truthy(vals[CurrencyKey]) ==>
              "currency_id" in r && r["currency_id"] == FoundId(env.currencies, vals[CurrencyKey])
    ensures CountryKey in vals && Truthy(vals[CountryKey]) ==> CountryKey !in r
    ensures CurrencyKey in vals && Truthy(vals[CurrencyKey]) ==> CurrencyKey !in r
    ensures CountryKey in r ==> !Truthy(r[CountryKey])
    ensures CurrencyKey in r ==> !Truthy(r[CurrencyKey])
    // the language is an installed one or the user's
    ensures "lang" in r && Truthy(r["lang"]) ==> InstalledLang(r["lang"], env.langs) || r["lang"] == env.userLang
    ensures "lang" in r && r["lang"] != env.userLang ==> "lang" in vals && r["lang"] == vals["lang"]
    // ranks
    ensures "customer_rank" in env.partnerFields && (("customer" in vals && Truthy(vals["customer"]))
                                                     || ("customer_rank" in vals && Truthy(vals["customer_rank"]))) ==>
              "customer_rank" in r && r["customer_rank"] == VInt(1)
    ensures "supplier_rank" in env.partnerFields && (("supplier" in vals && Truthy(vals["supplier"]))
                                                     || ("supplier_rank" in vals && Truthy(vals["supplier_rank"]))) ==>
              "supplier_rank" in r && r["supplier_rank"] == VInt(1)
    ensures "customer_rank" in r ==> r["customer_rank"] == VInt(1) || !Truthy(r["customer_rank"])
    ensures "supplier_rank" in r ==> r["supplier_rank"] == VInt(1) || !Truthy(r["supplier_rank"])
    // every other partner field passes through untouched
    ensures forall k :: k in env.partnerFields && k !in Rewritten ==> SameAt(r, vals, k)
  {
    PrepareResolvesCodes(vals, env);
    PrepareFixesLang(vals, env);
    PrepareRanks(vals, env);
    Restrict(Prepare(vals, env), env.partnerFields)
  }

  /** The values of the fields in `fields` only. */
  function Restrict(vals: map<string, Value>, fields: set<string>): (r: map<string, Value>)
    ensures forall k :: k in r <==> k in vals && k in fields
    ensures forall k :: k in r ==> r[k] == vals[k]
  {
    map k | k in vals && k in fields :: vals[k]
  }

  /** Preparing values twice gives what preparing them once gives. */
  lemma ImportValsIdempotent(vals: map<string, Value>, env: ImportEnv)
    ensures ImportVals(ImportVals(vals, env), env) == ImportVals(vals, env)
  {
    var r := ImportVals(vals, env);
    var r2 := ImportVals(r, env);
    forall k | k in env.partnerFields ensures SameAt(r2, r, k) {
      if k == "customer_rank" {
        assert "customer" !in Rewritten;
      } else if k == "supplier_rank" {
        assert "supplier" !in Rewritten;
      }
    }
    assert r2.Keys == r.Keys;
  }

  /** A line `action_import` creates a partner for: missing locally, with a
      code, while its wizard is at the contacts step. */
  predicate Importable(l: Line, wizards: map<nat, Wizard>) {
    l.reason == Some(NotOdoo) && HasCode(l.code) && l.sync in wizards && wizards[l.sync].state == ContactsStep
  }

  /** `action_import`: the values of the partners to create, in line order.
      They are created without queuing them back to the remote side. A line
      without data aborts the whole action, and nothing is created. */
  function ActionImport(lines: seq<Line>, wizards: map<nat, Wizard>, env: ImportEnv): (r: Result<seq<map<string, Value>>>)
    ensures r.Err? <==> exists l :: l in lines && Importable(l, wizards) && l.data.None?
    ensures r.Err? ==> r.failure == MissingImportData
    ensures r.Ok? ==> |r.value| <= |lines|
    ensures r.Ok? ==> forall v :: v in r.value <==>
              exists l :: l in lines && Importable(l, wizards) && l.data.Some? && v == ImportVals(l.data.value, env)
    decreases |lines|
  {
    if |lines| == 0 then Ok([])
    else
      var l := lines[0];
      var tail := lines[1..];
      assert forall x :: x in lines <==> x == l || x in tail;
      if Importable(l, wizards) then
        if l.data.None? then Err(MissingImportData)
        else
          var rest :- ActionImport(tail, wizards, env);
          Ok([ImportVals(l.data.value, env)] + rest)
      else ActionImport(tail, wizards, env)
  }

  /** `idx` lists the positions of the importable lines, in increasing order,
      and `values` holds one prepared value per such line, in that order. */
  predicate ImportedAt(lines: seq<Line>, wizards: map<nat, Wizard>, env: ImportEnv,
                       values: seq<map<string, Value>>, idx: seq<nat>)
  {
    Ascending(idx, |lines|) && |idx| == |values|
    && (forall j :: 0 <= j < |idx| ==>
          Importable(lines[idx[j]], wizards) && lines[idx[j]].data.Some?
          && values[j] == ImportVals(lines[idx[j]].data.value, env))
    && forall i :: 0 <= i < |lines| && Importable(lines[i], wizards) ==> i in idx
  }

  /** Position `j` of one step of `action_import`'s loop, given what the tail
      holds at the matching position. */
  lemma ImportedConsAt(lines: seq<Line>, wizards: map<nat, Wizard>, env: ImportEnv,
                       rest: seq<map<string, Value>>, t: seq<nat>, keep: bool, j: nat)
    requires |lines| > 0 && (keep <==> Importable(lines[0], wizards)) && (keep ==> lines[0].data.Some?)
    requires |t| == |rest| && j < |Shift(t, keep)|
    requires var d := |Shift(t, keep)| - |t|;
      j >= d ==> t[j - d] + 1 < |lines| && Importable(lines[t[j - d] + 1], wizards)
                 && lines[t[j - d] + 1].data.Some? && rest[j - d] == ImportVals(lines[t[j - d] + 1].data.value, env)
    ensures var idx := Shift(t, keep);
      var values := (if keep then [ImportVals(lines[0].data.value, env)] else []) + rest;
      idx[j] < |lines| && Importable(lines[idx[j]], wizards) && lines[idx[j]].data.Some?
      && values[j] == ImportVals(lines[idx[j]].data.value, env)
  {
    var idx := Shift(t, keep);
    var d := |idx| - |t|;
    if j >= d {
      ShiftAt(t, keep, j - d);
    }
  }

  /** One step of `action_import`'s loop: the first line's value, when it is
      importable, goes in front of the tail's values. */
  lemma ImportedAtCons(lines: seq<Line>, wizards: map<nat, Wizard>, env: ImportEnv,
                       rest: seq<map<string, Value>>, t: seq<nat>)
    requires |lines| > 0
    requires Importable(lines[0], wizards) ==> lines[0].data.Some?
    requires ImportedAt(lines[1..], wizards, env, rest, t)
    ensures var keep := Importable(lines[0], wizards);
      ImportedAt(lines, wizards, env, (if keep then [ImportVals(lines[0].data.value, env)] else []) + rest, Shift(t, keep))
  {
    var keep := Importable(lines[0], wizards);
    var tail := lines[1..];
    var values := (if keep then [ImportVals(lines[0].data.value, env)] else []) + rest;
    var idx := Shift(t, keep);
    ShiftAscending(t, |lines| - 1, keep);
    forall j | 0 <= j < |idx|
      ensures Importable(lines[idx[j]], wizards) && lines[idx[j]].data.Some?
              && values[j] == ImportVals(lines[idx[j]].data.value, env)
    {
      if j >= |idx| - |t| {
        var k := j - (|idx| - |t|);
        assert lines[1..][t[k]] == lines[t[k] + 1];
      }
      ImportedConsAt(lines, wizards, env, rest, t, keep, j);
    }
    forall i | 0 <= i < |lines| && Importable(lines[i], wizards)
      ensures i in idx
    {
      if i > 0 {
        assert tail[i - 1] == lines[i];
      }
      ShiftHits(t, keep, i);
    }
    assert Ascending(idx, |lines|) && |idx| == |values|;
    assert ImportedAt(lines, wizards, env, values, idx);
  }

  /** `action_import` creates one partner per importable line, in line order:
      the importable lines and the created values correspond position by
      position. */
  lemma {:induction false} ActionImportInOrder(lines: seq<Line>, wizards: map<nat, Wizard>, env: ImportEnv)
    ensures ActionImport(lines, wizards, env).Ok? ==>
              exists idx :: ImportedAt(lines, wizards, env, ActionImport(lines, wizards, env).value, idx)
    decreases |lines|
  {
    var r := ActionImport(lines, wizards, env);
    if |lines| == 0 {
      assert ImportedAt(lines, wizards, env, [], []);
    } else if r.Ok? {
      var l := lines[0];
      var tail := lines[1..];
      var rest := ActionImport(tail, wizards, env);
      var keep := Importable(l, wizards);
      assert rest.Ok?;
      ActionImportInOrder(tail, wizards, env);
      var t :| ImportedAt(tail, wizards, env, rest.value, t);
      assert r.value == (if keep then [ImportVals(l.data.value, env)] else []) + rest.value;
      ImportedAtCons(lines, wizards, env, rest.value, t);
    }
  }

  // ---------------------------------------------------------------------
  // get_ids

  /** The lines all belong to one wizard. */
  predicate SingleSync(lines: seq<Line>) {
    |lines| > 0 && forall i :: 0 <= i < |lines| ==> lines[i].sync == lines[0].sync
  }

  lemma {:induction false} SingleSyncIffOneWizard(lines: seq<Line>)
    ensures SingleSync(lines) <==> |set i | 0 <= i < |lines| :: lines[i].sync| == 1
  {
    var syncs := set i | 0 <= i < |lines| :: lines[i].sync;
    if SingleSync(lines) {
      assert syncs == {lines[0].sync};
    } else if |lines| > 0 {
      var j :| 0 <= j < |lines| && lines[j].sync != lines[0].sync;
      assert lines[0].sync in syncs && lines[j].sync in syncs;
      assert {lines[0].sync, lines[j].sync} <= syncs;
      assert |{lines[0].sync, lines[j].sync}| == 2;
      SubsetCard({lines[0].sync, lines[j].sync}, syncs);
    } else {
      assert syncs == {};
    }
  }

  lemma SubsetCard(a: set<nat>, b: set<nat>)
    requires a <= b
    ensures |a| <= |b|
  {
    assert b == a + (b - a);
  }

  /** The records of kind `e` the lines link, each once, in order of first
      appearance after those in `acc`. */
  function Linked(lines: seq<Line>, e: Entity, acc: seq<nat>): (r: seq<nat>)
    ensures |acc| <= |r| && r[..|acc|] == acc
    decreases |lines|
  {
    if |lines| == 0 then acc
    else
      var l := Link(lines[0], e);
      Linked(lines[1..], e, if l.Some? && l.value !in acc then acc + [l.value] else acc)
  }

  predicate Distinct(s: seq<nat>) {
    forall i, j :: 0 <= i < j < |s| ==> s[i] != s[j]
  }

  /** `mapped(...).ids`: every linked record once and nothing else. */
  lemma {:induction false} LinkedIsDistinctLinks(lines: seq<Line>, e: Entity, acc: seq<nat>)
    requires Distinct(acc)
    ensures Distinct(Linked(lines, e, acc))
    ensures forall id :: id in Linked(lines, e, acc) <==>
              id in acc || exists i :: 0 <= i < |lines| && Link(lines[i], e) == Some(id)
    decreases |lines|
  {
    if |lines| > 0 {
      var l := Link(lines[0], e);
      var acc2 := if l.Some? && l.value !in acc then acc + [l.value] else acc;
      var tail := lines[1..];
      assert forall i :: 0 <= i < |tail| ==> tail[i] == lines[i + 1];
      LinkedIsDistinctLinks(tail, e, acc2);
      forall id ensures id in Linked(lines, e, acc) <==>
                        id in acc || exists i :: 0 <= i < |lines| && Link(lines[i], e) == Some(id)
      {
        if exists i :: 0 <= i < |lines| && Link(lines[i], e) == Some(id) {
          var i :| 0 <= i < |lines| && Link(lines[i], e) == Some(id);
          if i > 0 {
            assert Link(tail[i - 1], e) == Some(id);
          }
        }
      }
    }
  }

  /** `get_ids`: the ids of the records of the wizard's current step that the
      lines link, for lines of a single wizard. */
  function GetIds(lines: seq<Line>, wizards: map<nat, Wizard>): (r: Result<seq<nat>>)
    requires forall i :: 0 <= i < |lines| ==> lines[i].sync in wizards
    ensures r.Err? <==> !SingleSync(lines)
    ensures r.Err? ==> r.failure == MixedSyncs
    ensures r.Ok? && StepEntity(wizards[lines[0].sync].state).None? ==> r.value == []
    ensures r.Ok? ==> Distinct(r.value)
    ensures r.Ok? && StepEntity(wizards[lines[0].sync].state).Some? ==>
              var e := StepEntity(wizards[lines[0].sync].state).value;
              forall id :: id in r.value <==> exists i :: 0 <= i < |lines| && Link(lines[i], e) == Some(id)
  {
    if !SingleSync(lines) then Err(MixedSyncs)
    else
      var step := StepEntity(wizards[lines[0].sync].state);
      if step.None? then Ok([])
      else
        LinkedIsDistinctLinks(lines, step.value, []);
        Ok(Linked(lines, step.value, []))
  }
}

=== FILE: sync_mixin.dfy ===
/** The behaviour every synchronised model inherits (`exact.sync.mixin`):
    which writes are worth a transaction, which companies a record is queued
    for, how its company is resolved, and that records known remotely cannot
    be deleted. */
module SyncMixin {
  import opened Common
  import opened Transactions

  /** The three fields the connector itself maintains. */
  const ConnectorFields: set<string> := {"exact_online_code", "exact_online_guid", "exact_online_state"}

  datatype FieldType = BinaryField | Many2oneField(comodel: string) | OtherField

  /** The context keys the mixin reads. Company ids are positive, so `Some`
      stands for a truthy value. */
  datatype Context = Context(companyId: Option<nat>, forceCompany: Option<nat>, noSync: bool)

  /** `get_ignored_fields`: the binary fields of the model plus the
      connector's own fields. */
  function IgnoredFields(fields: map<string, FieldType>): (r: set<string>)
    ensures forall f :: f in r <==> (f in fields && fields[f] == BinaryField) || f in ConnectorFields
    ensures ConnectorFields <= r
  {
    (set f | f in fields && fields[f] == BinaryField) + ConnectorFields
  }

  /** `exact_handle_create`: a created record is queued unless the context
      says not to. */
  predicate CreateEnqueues(ctx: Context) {
    !ctx.noSync
  }

  /** `exact_handle_write`: a write is queued unless the context says not to
      or every written field is ignored. */
  function WriteEnqueues(ctx: Context, written: set<string>, fields: map<string, FieldType>): (r: bool)
    ensures r <==> !ctx.noSync && exists f :: f in written && f !in ConnectorFields
                                        && !(f in fields && fields[f] == BinaryField)
    ensures written <= ConnectorFields ==> !r
    ensures written == {} ==> !r
  {
    var ignored := IgnoredFields(fields);
    if ctx.noSync then false
    else !(forall f :: f in written ==> f in ignored)
  }

  /** What `exact_get_company` reads of a record: whether its model has a
      `company_id` field and its value, and the values of the model's other
      many2one fields to companies, in field order. */
  datatype CompanyFields = CompanyFields(hasCompanyId: bool, companyId: Option<nat>, companyLinks: seq<Option<nat>>)

  /** `exact_get_company` on a recordset: the context first, then a singleton's
      own company field, then its first link to a company, then the user's
      company. `None` is an empty company recordset. */
  function ExactGetCompany(ctx: Context, recs: seq<CompanyFields>, userCompany: nat): (r: Result<Option<nat>>)
    ensures ctx.companyId.Some? ==> r == Ok(ctx.companyId)
    ensures ctx.companyId.None? && ctx.forceCompany.Some? ==> r == Ok(ctx.forceCompany)
    ensures ctx.companyId.None? && ctx.forceCompany.None? ==>
              && (|recs| == 0 ==> r == Ok(Some(userCompany)))
              && (|recs| > 1 ==> r == Err(NotSingleton))
              && (|recs| == 1 && recs[0].hasCompanyId ==> r == Ok(recs[0].companyId))
              && (|recs| == 1 && !recs[0].hasCompanyId && |recs[0].companyLinks| > 0 ==> r == Ok(recs[0].companyLinks[0]))
              && (|recs| == 1 && !recs[0].hasCompanyId && |recs[0].companyLinks| == 0 ==> r == Ok(Some(userCompany)))
    ensures r.Err? ==> |recs| > 1
  {
    if ctx.companyId.Some? then Ok(ctx.companyId)
    else if ctx.forceCompany.Some? then Ok(ctx.forceCompany)
    else if |recs| == 0 then Ok(Some(userCompany))
    else if |recs| > 1 then Err(NotSingleton)
    else if recs[0].hasCompanyId then Ok(recs[0].companyId)
    else if |recs[0].companyLinks| > 0 then Ok(recs[0].companyLinks[0])
    else Ok(Some(userCompany))
  }

  /** The company given in the context decides, whatever the record and user. */
  lemma ContextCompanyWins(ctx: Context, a: seq<CompanyFields>, b: seq<CompanyFields>, ua: nat, ub: nat)
    requires ctx.companyId.Some?
    ensures ExactGetCompany(ctx, a, ua) == ExactGetCompany(ctx, b, ub) == Ok(ctx.companyId)
  {
  }

  /** The companies of `ids` whose connector is active, in order. */
  function ActiveOnly(cs: seq<Company>, ids: seq<nat>): (r: seq<nat>)
    ensures forall c :: c in r <==> c in ids && CompanyActive(cs, c)
    ensures |r| <= |ids|
  {
    if |ids| == 0 then []
    else
      var rest := ActiveOnly(cs, ids[1..]);
      assert forall c :: c in ids <==> c == ids[0] || c in ids[1..];
      if CompanyActive(cs, ids[0]) then [ids[0]] + rest else rest
  }

  /** The companies a record is queued for: the given ones, else those
      `exact_get_company` resolves it to (`own`); outside an initial sync only
      the active ones. */
  function TargetCompanies(db: Db, companies: Option<seq<nat>>, own: seq<nat>, initial: bool): (r: seq<nat>)
    ensures !initial ==> forall c :: c in r ==> CompanyActive(db.companies, c)
    ensures companies.Some? ==> forall c :: c in r ==> c in companies.value
    ensures companies.Some? ==> forall c :: c in companies.value ==> (c in r <==> initial || CompanyActive(db.companies, c))
    ensures companies.None? ==> forall c :: c in r <==> c in own && (initial || CompanyActive(db.companies, c))
  {
    var cs := if companies.Some? then companies.value else own;
    if initial then cs else ActiveOnly(db.companies, cs)
  }

  /** `exact_create_transaction` for one record: queue it for its target
      companies and mark it queued, or change nothing when none remain. */
  function ExactCreateTransaction(db: Db, ref: Ref, companies: Option<seq<nat>>, own: seq<nat>,
                                  initial: bool, now: int): (r: Db)
    requires Fresh(db) && ref in db.records
    ensures Fresh(r) && r.companies == db.companies
    ensures ref in r.records && r.records.Keys == db.records.Keys
    ensures forall x :: x in db.records && x != ref ==> r.records[x] == db.records[x]
    ensures forall k :: k in db.txs ==> k in r.txs && r.txs[k] == db.txs[k]
    ensures AtMostOneTodo(db.txs) ==> AtMostOneTodo(r.txs)
    ensures var cs := TargetCompanies(db, companies, own, initial);
      && (|cs| == 0 ==> r == db)
      && (|cs| > 0 ==> r.records[ref] == db.records[ref].(status := Some(Queued)))
      && (forall c :: c in cs ==> HasTodo(r.txs, c, ref.model, ref.id))
      && (forall k :: k in r.txs && k !in db.txs ==>
            r.txs[k].company in cs && IsTodoFor(r.txs[k], r.txs[k].company, ref.model, ref.id))
  {
    var cs := TargetCompanies(db, companies, own, initial);
    if |cs| == 0 then db
    else
      var created := CreateTransactions(db, ref.model, ref.id, cs, now).0;
      created.(records := created.records[ref := created.records[ref].(status := Some(Queued))])
  }

  /** Outside an initial sync, a record is never queued for an inactive
      company, and queuing for no active company leaves everything as it was. */
  lemma NonInitialQueuesOnlyActive(db: Db, ref: Ref, companies: Option<seq<nat>>, own: seq<nat>, now: int)
    requires Fresh(db) && ref in db.records
    ensures var r := ExactCreateTransaction(db, ref, companies, own, false, now);
      && (forall k :: k in r.txs && k !in db.txs ==> CompanyActive(db.companies, r.txs[k].company))
      && (r.records[ref].status == Some(Queued) || r == db)
  {
  }

  /** The record has a company, among those `exact_get_company` resolves it
      to, whose connector is active. */
  predicate HasActiveCompany(db: Db, own: seq<nat>) {
    exists c :: c in own && CompanyActive(db.companies, c)
  }

  /** `write` followed by `exact_handle_write` and the queueing it triggers;
      `own` is the company recordset `exact_get_company` resolves. A write of
      a field the mixin does not ignore queues the record, with a todo for
      each of its active companies; any other write, or a record without an
      active company, leaves everything as it was. */
  function HandleWrite(db: Db, ref: Ref, ctx: Context, written: set<string>, fields: map<string, FieldType>,
                       own: seq<nat>, now: int): (r: Db)
    requires Fresh(db) && ref in db.records
    ensures Fresh(r) && r.companies == db.companies && r.records.Keys == db.records.Keys
    ensures forall x :: x in db.records && x != ref ==> r.records[x] == db.records[x]
    ensures forall k :: k in db.txs ==> k in r.txs && r.txs[k] == db.txs[k]
    ensures !(WriteEnqueues(ctx, written, fields) && HasActiveCompany(db, own)) ==> r == db
    ensures WriteEnqueues(ctx, written, fields) && HasActiveCompany(db, own) ==>
              && r.records[ref] == db.records[ref].(status := Some(Queued))
              && forall c :: c in own && CompanyActive(db.companies, c) ==> HasTodo(r.txs, c, ref.model, ref.id)
    ensures forall k :: k in r.txs && k !in db.txs ==>
              && r.txs[k].company in own && CompanyActive(db.companies, r.txs[k].company)
              && IsTodoFor(r.txs[k], r.txs[k].company, ref.model, ref.id)
    ensures AtMostOneTodo(db.txs) ==> AtMostOneTodo(r.txs)
  {
    if !WriteEnqueues(ctx, written, fields) then db
    else
      var cs := TargetCompanies(db, None, own, false);
      assert |cs| > 0 ==> cs[0] in own && CompanyActive(db.companies, cs[0]);
      ExactCreateTransaction(db, ref, None, own, false, now)
  }

  /** A record that carries a remote code or guid must be archived instead. */
  predicate Deletable(r: Rec) {
    r.guid == "" && !HasCode(r.code)
  }

  /** The `unlink` guard: the first record known remotely aborts the deletion. */
  function Unlink(recs: Records, refs: seq<Ref>): (r: Result<Records>)
    requires forall i :: 0 <= i < |refs| ==> refs[i] in recs
    ensures r.Ok? <==> forall i :: 0 <= i < |refs| ==> Deletable(recs[refs[i]])
    ensures r.Ok? ==> r.value == recs - (set x | x in refs)
    ensures r.Err? ==> exists i :: 0 <= i < |refs| && r.failure == SyncedRecordNotDeletable(refs[i])
                                   && !Deletable(recs[refs[i]])
    decreases |refs|
  {
    if |refs| == 0 then Ok(recs)
    else if !Deletable(recs[refs[0]]) then Err(SyncedRecordNotDeletable(refs[0]))
    else
      var rest := Unlink(recs, refs[1..]);
      assert forall i :: 0 < i < |refs| ==> refs[i] == refs[1..][i - 1];
      if rest.Ok? then
        assert (set x | x in refs) == {refs[0]} + (set x | x in refs[1..]);
        Ok(rest.value - {refs[0]})
      else rest
  }
}

=== FILE: transaction.dfy ===
/** The outbound transaction queue (`exact.transaction`): one transaction
    per record and company that has to be pushed to the remote connector,
    its lifecycle, the classification of the connector's reply, retries
    with linear back-off, the cron selection and the status revert on
    deletion. Times (`now`, `datePlanned`, `dateSent`) are minutes. */
module Transactions {
  import opened Common

  datatype TxState = Todo | Retry | InSync | ExceptOdoo | ExceptExact | ExceptConnector | Done

  /** The `exception` text of a transaction, by meaning rather than wording. */
  datatype Exception =
    | NoException                        // unset or cleared
    | RecordGone                         // the record no longer exists locally
    | ConnectorSaid(message: string)     // message carried by a failure reply
    | ProcessingFailed                   // failure reply without a message
    | TemporarilyOffline(minutes: nat)   // retry scheduled that many minutes ahead
    | TooManyAttempts                    // retries exhausted
    | ResponseBody(text: string)         // raw body of an unexpected response

  datatype Transaction = Transaction(
    company: nat,
    model: string,
    resId: int,
    state: TxState,
    retryAttempt: nat,
    datePlanned: int,
    dateSent: Option<int>,
    exception: Exception)

  /** The part of the database the queue touches: transactions by id, the id
      sequence, the companies in database order and the synchronised records. */
  datatype Db = Db(txs: map<nat, Transaction>, nextId: nat, companies: seq<Company>, records: Records)

  /** The id sequence is ahead of every existing transaction. */
  ghost predicate Fresh(db: Db) {
    forall k :: k in db.txs ==> k < db.nextId
  }

  function RecordOf(t: Transaction): Ref { Ref(t.model, t.resId) }

  /** Maximum number of attempts, and back-off step in minutes. */
  const MaxAttempts: nat := 5
  const BackoffMinutes: nat := 3

  predicate Runnable(s: TxState) { s == Todo || s == Retry }

  predicate IsTodoFor(t: Transaction, c: nat, m: string, id: int) {
    t.state == Todo && t.company == c && t.model == m && t.resId == id
  }

  predicate HasTodo(txs: map<nat, Transaction>, c: nat, m: string, id: int) {
    exists k :: k in txs && IsTodoFor(txs[k], c, m, id)
  }

  /** Keeping every transaction keeps every todo. */
  lemma HasTodoKept(txs: map<nat, Transaction>, txs2: map<nat, Transaction>, c: nat, m: string, id: int)
    requires forall k :: k in txs ==> k in txs2 && txs2[k] == txs[k]
    requires HasTodo(txs, c, m, id)
    ensures HasTodo(txs2, c, m, id)
  {
    var k :| k in txs && IsTodoFor(txs[k], c, m, id);
    assert k in txs2 && IsTodoFor(txs2[k], c, m, id);
  }

  /** No two `todo` transactions share company, model and record id. */
  ghost predicate AtMostOneTodo(txs: map<nat, Transaction>) {
    forall k1, k2 ::
      (k1 in txs && k2 in txs && txs[k1].state == Todo
       && IsTodoFor(txs[k2], txs[k1].company, txs[k1].model, txs[k1].resId)) ==> k1 == k2
  }

  function NewTx(c: nat, m: string, id: int, now: int): Transaction {
    Transaction(c, m, id, Todo, 0, now, None, NoException)
  }

  /** The loop of `create_transactions`: for each company in turn, a new
      `todo` transaction unless one already exists (including one created
      earlier in the same loop). Returns the new store and the created ids. */
  function Enqueue(db: Db, m: string, id: int, cs: seq<nat>, now: int): (r: (Db, seq<nat>))
    requires Fresh(db)
    ensures Fresh(r.0)
    ensures r.0.companies == db.companies && r.0.records == db.records
    ensures forall k :: k in db.txs ==> k in r.0.txs && r.0.txs[k] == db.txs[k]
    ensures forall k :: k in r.1 <==> k in r.0.txs && k !in db.txs
    ensures forall k :: k in r.0.txs && k !in db.txs ==>
              r.0.txs[k].company in cs && r.0.txs[k] == NewTx(r.0.txs[k].company, m, id, now)
    ensures forall c :: c in cs ==> HasTodo(r.0.txs, c, m, id)
    ensures AtMostOneTodo(db.txs) ==> AtMostOneTodo(r.0.txs)
    decreases |cs|
  {
    if |cs| == 0 then (db, [])
    else if HasTodo(db.txs, cs[0], m, id) then
      Enqueue(db, m, id, cs[1..], now)
    else
      var k := db.nextId;
      var db1 := db.(txs := db.txs[k := NewTx(cs[0], m, id, now)], nextId := k + 1);
      assert IsTodoFor(db1.txs[k], cs[0], m, id);
      var rest := Enqueue(db1, m, id, cs[1..], now);
      (rest.0, [k] + rest.1)
  }

  /** Companies that have the connector enabled and registered, in order. */
  function ConnectedCompanies(cs: seq<Company>): (r: seq<nat>)
    ensures forall c :: c in r <==> exists k :: 0 <= k < |cs| && cs[k].id == c && cs[k].active && cs[k].uuid != ""
  {
    if |cs| == 0 then []
    else
      var rest := ConnectedCompanies(cs[1..]);
      assert forall k :: 0 < k < |cs| ==> cs[k] == cs[1..][k - 1];
      if cs[0].active && cs[0].uuid != "" then [cs[0].id] + rest else rest
  }

  /** `create_transactions`: an empty company list means every connected one. */
  function CreateTransactions(db: Db, m: string, id: int, cs: seq<nat>, now: int): (r: (Db, seq<nat>))
    requires Fresh(db)
    ensures Fresh(r.0)
    ensures forall k :: k in db.txs ==> k in r.0.txs && r.0.txs[k] == db.txs[k]
    ensures |cs| > 0 ==> forall c :: c in cs ==> HasTodo(r.0.txs, c, m, id)
    ensures |cs| == 0 ==> forall k ::
              (0 <= k < |db.companies| && db.companies[k].active && db.companies[k].uuid != "")
              ==> HasTodo(r.0.txs, db.companies[k].id, m, id)
    ensures forall k :: k in r.0.txs && k !in db.txs ==>
              (r.0.txs[k].state == Todo && (|cs| > 0 ==> r.0.txs[k].company in cs))
    ensures AtMostOneTodo(db.txs) ==> AtMostOneTodo(r.0.txs)
  {
    Enqueue(db, m, id, if |cs| == 0 then ConnectedCompanies(db.companies) else cs, now)
  }

  /** Enqueueing creates a transaction for a company exactly when the company
      is asked for and has no `todo` transaction for the record yet. */
  lemma EnqueueCreatesIffMissing(db: Db, m: string, id: int, cs: seq<nat>, now: int, c: nat)
    requires Fresh(db) && AtMostOneTodo(db.txs)
    ensures var r := Enqueue(db, m, id, cs, now);
      (exists k :: k in r.0.txs && k !in db.txs && r.0.txs[k].company == c)
      <==> c in cs && !HasTodo(db.txs, c, m, id)
  {
    var r := Enqueue(db, m, id, cs, now);
    if exists k :: k in r.0.txs && k !in db.txs && r.0.txs[k].company == c {
      var k :| k in r.0.txs && k !in db.txs && r.0.txs[k].company == c;
      assert IsTodoFor(r.0.txs[k], c, m, id);
    } else if c in cs {
      var j :| j in r.0.txs && IsTodoFor(r.0.txs[j], c, m, id);
      assert j in db.txs;
    }
  }

  /** `_get_mapped_state`: the record status a transaction state stands for. */
  function MappedStatus(s: TxState): (r: SyncStatus)
    ensures r == Queued <==> Runnable(s)
    ensures r == Syncing <==> s == InSync
    ensures r == Synced <==> s == Done
    ensures r == SyncError <==> s == ExceptOdoo || s == ExceptExact || s == ExceptConnector
    ensures r != NothingToSync
  {
    if s == Todo || s == Retry then Queued
    else if s == InSync then Syncing
    else if s == Done then Synced
    else SyncError
  }

  /** The transaction after a reply, and whether the company must reconnect. */
  datatype Handled = Handled(tx: Transaction, reconnect: bool)

  predicate IsCredentialsFailure(resp: Response) {
    var r := Unwrap(resp.payload);
    resp.status == 200 && !r.success && r.error == ErrorTag("credentials")
  }

  /** The transaction part of `handle_response`. */
  function Classify(t: Transaction, resp: Response, now: int): (h: Handled)
    // the reply never changes what the transaction is about
    ensures h.tx.company == t.company && h.tx.model == t.model && h.tx.resId == t.resId
    ensures h.tx.dateSent == t.dateSent
    // lost credentials: only the company is affected
    ensures h.reconnect <==> IsCredentialsFailure(resp)
    ensures h.reconnect ==> h.tx == t
    // a successful reply
    ensures !h.reconnect ==> (h.tx.state == InSync <==> resp.status == 200 && Unwrap(resp.payload).success)
    ensures !h.reconnect && h.tx.state == InSync ==> h.tx.exception == NoException
    // any other reply ends in retry or in a connector exception
    ensures !h.reconnect ==> h.tx.state in {InSync, Retry, ExceptConnector}
    ensures resp.status == 200 && !Unwrap(resp.payload).success && !h.reconnect ==>
              h.tx.state == ExceptConnector
              && h.tx.exception == (match Unwrap(resp.payload).message
                                    case Some(msg) => ConnectorSaid(msg)
                                    case None => ProcessingFailed)
    // every non-200 reply counts as an attempt, a 200 reply never does
    ensures h.tx.retryAttempt == t.retryAttempt + (if resp.status == 200 then 0 else 1)
    ensures !h.reconnect ==> (h.tx.state == Retry <==> Offline(resp.status) && t.retryAttempt + 1 < MaxAttempts)
    ensures !h.reconnect && h.tx.state == Retry ==>
              (h.tx.datePlanned == now + BackoffMinutes * h.tx.retryAttempt
               && h.tx.exception == TemporarilyOffline(BackoffMinutes * h.tx.retryAttempt))
    ensures h.reconnect || h.tx.state != Retry ==> h.tx.datePlanned == t.datePlanned
    ensures Offline(resp.status) && h.tx.retryAttempt >= MaxAttempts ==>
              h.tx.state == ExceptConnector && h.tx.exception == TooManyAttempts
    ensures resp.status != 200 && !Offline(resp.status) ==>
              h.tx.state == ExceptConnector && h.tx.exception == ResponseBody(resp.text)
  {
    if resp.status == 200 then
      var r := Unwrap(resp.payload);
      if !r.success then
        if r.error == ErrorTag("credentials") then Handled(t, true)
        else Handled(t.(state := ExceptConnector,
                        exception := if r.message.Some? then ConnectorSaid(r.message.value) else ProcessingFailed), false)
      else Handled(t.(exception := NoException, state := InSync), false)
    else if Offline(resp.status) then
      var n := t.retryAttempt + 1;
      if n < MaxAttempts then
        Handled(t.(retryAttempt := n, datePlanned := now + BackoffMinutes * n, state := Retry,
                   exception := TemporarilyOffline(BackoffMinutes * n)), false)
      else Handled(t.(retryAttempt := n, state := ExceptConnector, exception := TooManyAttempts), false)
    else Handled(t.(retryAttempt := t.retryAttempt + 1, state := ExceptConnector,
                    exception := ResponseBody(resp.text)), false)
  }

  /** Number of automatic reschedules along a series of replies, each paired
      with the time it arrives. */
  function Reschedules(t: Transaction, replies: seq<(Response, int)>): nat
    decreases |replies|
  {
    if |replies| == 0 then 0
    else
      var h := Classify(t, replies[0].0, replies[0].1);
      (if !h.reconnect && h.tx.state == Retry then 1 else 0) + Reschedules(h.tx, replies[1..])
  }

  /** Retrying is bounded: whatever the replies, a transaction that already
      counted `a` attempts is rescheduled at most `4 - a` more times, so a
      fresh one at most four times. */
  lemma {:induction false} RetryBudget(t: Transaction, replies: seq<(Response, int)>)
    ensures Reschedules(t, replies) + t.retryAttempt <= MaxAttempts - 1
            || (Reschedules(t, replies) == 0 && t.retryAttempt >= MaxAttempts - 1)
    decreases |replies|
  {
    if |replies| > 0 {
      var h := Classify(t, replies[0].0, replies[0].1);
      RetryBudget(h.tx, replies[1..]);
    }
  }

  lemma FreshTransactionReschedulesAtMostFourTimes(t: Transaction, replies: seq<(Response, int)>)
    requires t.retryAttempt == 0
    ensures Reschedules(t, replies) <= 4
  {
    RetryBudget(t, replies);
  }

  /** Sets the connection state of the company with the given id. */
  function SetConnState(cs: seq<Company>, id: nat, s: ConnState): (r: seq<Company>)
    ensures |r| == |cs|
    ensures forall k :: 0 <= k < |cs| ==> r[k] == if cs[k].id == id then cs[k].(state := s) else cs[k]
  {
    seq(|cs|, k requires 0 <= k < |cs| => if cs[k].id == id then cs[k].(state := s) else cs[k])
  }

  /** Looking a company up after the write finds the new connection state
      for that company and everything else as before; in particular which
      companies are active does not change. */
  lemma {:induction false} FindAfterSetConnState(cs: seq<Company>, id: nat, s: ConnState, x: nat)
    ensures var f := FindCompany(SetConnState(cs, id, s), x);
      f == if x == id && FindCompany(cs, x).Some? then Some(FindCompany(cs, x).value.(state := s))
           else FindCompany(cs, x)
    ensures CompanyActive(SetConnState(cs, id, s), x) == CompanyActive(cs, x)
    decreases |cs|
  {
    if |cs| > 0 {
      var r := SetConnState(cs, id, s);
      assert r[1..] == SetConnState(cs[1..], id, s);
      FindAfterSetConnState(cs[1..], id, s, x);
    }
  }

  /** `action_update_record_state` for one transaction: the record takes the
      status the transaction state maps to; writing to a record that no
      longer exists fails. */
  function UpdateRecordState(db: Db, id: nat): (r: Result<Db>)
    requires id in db.txs
    ensures r.Ok? <==> RecordOf(db.txs[id]) in db.records
    ensures r.Ok? ==> r.value.txs == db.txs && r.value.companies == db.companies
    ensures r.Ok? ==>
              (&& r.value.records.Keys == db.records.Keys
               && r.value.records[RecordOf(db.txs[id])].status == Some(MappedStatus(db.txs[id].state))
               && forall ref :: ref in db.records && ref != RecordOf(db.txs[id]) ==> r.value.records[ref] == db.records[ref])
  {
    var ref := RecordOf(db.txs[id]);
    if ref in db.records then
      Ok(db.(records := db.records[ref := db.records[ref].(status := Some(MappedStatus(db.txs[id].state)))]))
    else Err(MissingRecord(ref))
  }

  /** `handle_response` on the stored transaction `id`. */
  function HandleResponse(db: Db, id: nat, resp: Response, now: int): (r: Result<Db>)
    requires id in db.txs
    ensures IsCredentialsFailure(resp) ==>
              r.Ok? && r.value.txs == db.txs && r.value.records == db.records
              && r.value.companies == SetConnState(db.companies, db.txs[id].company, Reconnect)
    ensures !IsCredentialsFailure(resp) ==> (r.Ok? <==> RecordOf(db.txs[id]) in db.records)
    ensures !IsCredentialsFailure(resp) && r.Ok? ==>
              && r.value.txs == db.txs[id := Classify(db.txs[id], resp, now).tx]
              && r.value.companies == db.companies
              && RecordOf(db.txs[id]) in r.value.records
              && r.value.records[RecordOf(db.txs[id])].status == Some(MappedStatus(r.value.txs[id].state))
  {
    var h := Classify(db.txs[id], resp, now);
    if h.reconnect then
      Ok(db.(companies := SetConnState(db.companies, db.txs[id].company, Reconnect)))
    else
      UpdateRecordState(db.(txs := db.txs[id := h.tx]), id)
  }

  /** One iteration of `run`. The connector is only called (`remote`) for a
      runnable transaction whose record still exists. */
  function RunOne(db: Db, id: nat, now: int, remote: nat -> Response): (r: Db)
    requires id in db.txs
    ensures r.txs.Keys == db.txs.Keys
    ensures forall k :: k in db.txs && k != id ==> r.txs[k] == db.txs[k]
    ensures !Runnable(db.txs[id].state) ==> r == db
    ensures Runnable(db.txs[id].state) && RecordOf(db.txs[id]) !in db.records ==>
              r == db.(txs := db.txs[id := db.txs[id].(state := ExceptOdoo, exception := RecordGone)])
  {
    var t := db.txs[id];
    if !Runnable(t.state) then db
    else if RecordOf(t) !in db.records then
      db.(txs := db.txs[id := t.(state := ExceptOdoo, exception := RecordGone)])
    else
      var db1 := db.(txs := db.txs[id := t.(dateSent := Some(now))]);
      var r := HandleResponse(db1, id, remote(id), now);
      // the record was found above, so the status write cannot fail
      if r.Ok? then r.value else db1
  }

  /** Transactions in any state other than todo/retry, and transactions whose
      record is gone, never depend on what the connector would answer. */
  lemma RunOneNoRemoteCall(db: Db, id: nat, now: int, remote1: nat -> Response, remote2: nat -> Response)
    requires id in db.txs
    requires !Runnable(db.txs[id].state) || RecordOf(db.txs[id]) !in db.records
    ensures RunOne(db, id, now, remote1) == RunOne(db, id, now, remote2)
  {
  }

  /** For a runnable transaction with an existing record, the record's status
      afterwards is the mapped state, unless the credentials were lost. */
  lemma RunOneUpdatesRecordStatus(db: Db, id: nat, now: int, remote: nat -> Response)
    requires id in db.txs && Runnable(db.txs[id].state) && RecordOf(db.txs[id]) in db.records
    requires !IsCredentialsFailure(remote(id))
    ensures var r := RunOne(db, id, now, remote);
      r.records[RecordOf(db.txs[id])].status == Some(MappedStatus(r.txs[id].state))
      && r.txs[id].dateSent == Some(now)
  {
  }

  /** `run` over a recordset of transactions, in order. */
  function Run(db: Db, ids: seq<nat>, now: int, remote: nat -> Response): (r: Db)
    requires forall i :: 0 <= i < |ids| ==> ids[i] in db.txs
    ensures r.txs.Keys == db.txs.Keys
    ensures forall k :: k in db.txs && k !in ids ==> r.txs[k] == db.txs[k]
    ensures forall k :: k in db.txs && !Runnable(db.txs[k].state) ==> r.txs[k] == db.txs[k]
    decreases |ids|
  {
    if |ids| == 0 then db
    else
      var db1 := RunOne(db, ids[0], now, remote);
      Run(db1, ids[1..], now, remote)
  }

  /** The filter of `_cron_run`. */
  predicate Due(db: Db, t: Transaction, now: int) {
    var c := FindCompany(db.companies, t.company);
    && c.Some? && c.value.active && c.value.state == Operating
    && t.datePlanned <= now
    && Runnable(t.state)
  }

  ghost predicate Distinct(s: seq<nat>) {
    forall i, j :: 0 <= i < j < |s| ==> s[i] != s[j]
  }

  ghost predicate SortedByPlan(txs: map<nat, Transaction>, s: seq<nat>)
    requires forall i :: 0 <= i < |s| ==> s[i] in txs
  {
    forall i, j :: 0 <= i < j < |s| ==> txs[s[i]].datePlanned <= txs[s[j]].datePlanned
  }

  /** The due transactions of `_cron_run`, earliest planned date first. */
  method CronSelect(db: Db, now: int) returns (order: seq<nat>)
    ensures forall i :: 0 <= i < |order| ==> order[i] in db.txs
    ensures forall k :: k in order <==> k in db.txs && Due(db, db.txs[k], now)
    ensures Distinct(order)
    ensures SortedByPlan(db.txs, order)
  {
    var pending := set k | k in db.txs && Due(db, db.txs[k], now);
    order := [];
    while pending != {}
      invariant forall i :: 0 <= i < |order| ==> order[i] in db.txs
      invariant forall k :: k in order || k in pending <==> k in db.txs && Due(db, db.txs[k], now)
      invariant forall k :: k in order ==> k !in pending
      invariant Distinct(order)
      invariant SortedByPlan(db.txs, order)
      decreases pending
    {
      var k :| k in pending;
      var d := db.txs[k].datePlanned;
      var i := 0;
      while i < |order| && db.txs[order[i]].datePlanned <= d
        invariant 0 <= i <= |order|
        invariant forall j :: 0 <= j < i ==> db.txs[order[j]].datePlanned <= d
      {
        i := i + 1;
      }
      InsertKeepsOrder(db.txs, order, i, k);
      order := order[..i] + [k] + order[i..];
      pending := pending - {k};
    }
  }

  lemma InsertKeepsOrder(txs: map<nat, Transaction>, s: seq<nat>, i: nat, k: nat)
    requires forall j :: 0 <= j < |s| ==> s[j] in txs
    requires k in txs && k !in s && i <= |s|
    requires Distinct(s) && SortedByPlan(txs, s)
    requires forall j :: 0 <= j < i ==> txs[s[j]].datePlanned <= txs[k].datePlanned
    requires i < |s| ==> txs[s[i]].datePlanned > txs[k].datePlanned
    ensures var r := s[..i] + [k] + s[i..];
      (forall j :: 0 <= j < |r| ==> r[j] in txs) && Distinct(r) && SortedByPlan(txs, r)
      && forall x :: x in r <==> x in s || x == k
  {
    var r := s[..i] + [k] + s[i..];
    assert |r| == |s| + 1;
    assert forall j :: 0 <= j < i ==> r[j] == s[j];
    assert r[i] == k;
    assert forall j :: i < j < |r| ==> r[j] == s[j - 1];
    InsertSorted(txs, s, i, k, r);
    InsertDistinct(s, i, k, r);
    assert s == s[..i] + s[i..];
  }

  lemma InsertSorted(txs: map<nat, Transaction>, s: seq<nat>, i: nat, k: nat, r: seq<nat>)
    requires forall j :: 0 <= j < |s| ==> s[j] in txs
    requires k in txs && i <= |s| && |r| == |s| + 1
    requires SortedByPlan(txs, s)
    requires forall j :: 0 <= j < i ==> txs[s[j]].datePlanned <= txs[k].datePlanned
    requires i < |s| ==> txs[s[i]].datePlanned > txs[k].datePlanned
    requires forall j :: 0 <= j < i ==> r[j] == s[j]
    requires r[i] == k
    requires forall j :: i < j < |r| ==> r[j] == s[j - 1]
    ensures forall j :: 0 <= j < |r| ==> r[j] in txs
    ensures SortedByPlan(txs, r)
  {
    assert forall j :: 0 <= j < |r| ==> r[j] in txs by {
      forall j | 0 <= j < |r| ensures r[j] in txs {
        if j > i { assert r[j] == s[j - 1]; }
      }
    }
    forall a, b | 0 <= a < b < |r|
      ensures txs[r[a]].datePlanned <= txs[r[b]].datePlanned
    {
      if a == i {
        assert txs[s[i]].datePlanned <= txs[s[b - 1]].datePlanned;
      } else if a < i && b > i {
        assert txs[s[a]].datePlanned <= txs[s[b - 1]].datePlanned;
      }
    }
  }

  lemma InsertDistinct(s: seq<nat>, i: nat, k: nat, r: seq<nat>)
    requires k !in s && i <= |s| && |r| == |s| + 1
    requires Distinct(s)
    requires forall j :: 0 <= j < i ==> r[j] == s[j]
    requires r[i] == k
    requires forall j :: i < j < |r| ==> r[j] == s[j - 1]
    ensures Distinct(r)
  {
    forall a, b | 0 <= a < b < |r|
      ensures r[a] != r[b]
    {
      if a == i {
        assert r[b] == s[b - 1];
      } else if b == i {
        assert r[a] == s[a];
      } else if a < i && b > i {
        assert r[a] == s[a] && r[b] == s[b - 1];
      } else if a > i {
        assert r[a] == s[a - 1] && r[b] == s[b - 1];
      }
    }
  }

  /** `_cron_run`: run every due transaction, earliest planned first. */
  method CronRun(db: Db, now: int, remote: nat -> Response) returns (r: Db, order: seq<nat>)
    ensures forall k :: k in order <==> k in db.txs && Due(db, db.txs[k], now)
    ensures SortedByPlan(db.txs, order) && Distinct(order)
    ensures r.txs.Keys == db.txs.Keys
    ensures forall k :: k in db.txs && !Due(db, db.txs[k], now) ==> r.txs[k] == db.txs[k]
    ensures r == Run(db, order, now, remote)
  {
    order := CronSelect(db, now);
    r := Run(db, order, now, remote);
  }

  // ----- deletion -----

  /** Another live (todo, retry or syncing) transaction for the same company
      and record remains after deleting `doomed`. */
  predicate OtherPending(txs: map<nat, Transaction>, doomed: set<nat>, t: Transaction) {
    exists k :: k in txs && k !in doomed && txs[k].company == t.company
      && txs[k].model == t.model && txs[k].resId == t.resId
      && (Runnable(txs[k].state) || txs[k].state == InSync)
  }

  function Members(ids: seq<nat>): set<nat> { set k | k in ids }

  /** Status a record falls back to once nothing is queued for it any more. */
  function RevertedStatus(r: Rec): (s: SyncStatus)
    ensures s == Synced <==> HasCode(r.code)
    ensures s == NothingToSync <==> !HasCode(r.code)
  {
    if !HasCode(r.code) then NothingToSync else Synced
  }

  /** The record of `t` must fall back, because `t` is being deleted and
      nothing else is pending for it. */
  ghost predicate Reverts(db: Db, ids: seq<nat>, doomed: set<nat>, ref: Ref)
    requires forall i :: 0 <= i < |ids| ==> ids[i] in db.txs
  {
    exists i :: 0 <= i < |ids| && RecordOf(db.txs[ids[i]]) == ref && !OtherPending(db.txs, doomed, db.txs[ids[i]])
  }

  /** The loop of `unlink`, each transaction reverting its own record. */
  function Revert(db: Db, ids: seq<nat>, doomed: set<nat>, recs: Records): (r: Result<Records>)
    requires forall i :: 0 <= i < |ids| ==> ids[i] in db.txs
    ensures r.Err? <==> exists i :: 0 <= i < |ids| && !OtherPending(db.txs, doomed, db.txs[ids[i]])
                                    && RecordOf(db.txs[ids[i]]) !in recs
    ensures r.Err? ==> r.failure.MissingRecord?
    ensures r.Ok? ==> r.value.Keys == recs.Keys
    ensures r.Ok? ==> forall ref :: ref in recs ==>
              r.value[ref] == if Reverts(db, ids, doomed, ref)
                              then recs[ref].(status := Some(RevertedStatus(recs[ref])))
                              else recs[ref]
    decreases |ids|
  {
    if |ids| == 0 then Ok(recs)
    else
      var t := db.txs[ids[0]];
      var ref := RecordOf(t);
      var next: Result<Records> :=
        if OtherPending(db.txs, doomed, t) then Ok(recs)
        else if ref in recs then Ok(recs[ref := recs[ref].(status := Some(RevertedStatus(recs[ref])))])
        else Err(MissingRecord(ref));
      if next.Err? then next
      else
        var rest := Revert(db, ids[1..], doomed, next.value);
        assert forall i :: 0 < i < |ids| ==> ids[i] == ids[1..][i - 1];
        assert forall ref' :: Reverts(db, ids, doomed, ref') <==>
                 Reverts(db, ids[1..], doomed, ref') || (ref' == ref && !OtherPending(db.txs, doomed, t));
        rest
  }

  /** `unlink` as it should be: every deleted transaction whose record has no
      other live transaction for that company makes the record fall back to
      `synced` or `no`, then the transactions disappear. */
  function Unlink(db: Db, ids: seq<nat>): (r: Result<Db>)
    requires forall i :: 0 <= i < |ids| ==> ids[i] in db.txs
    ensures r.Err? ==> r.failure.MissingRecord?
    ensures r.Ok? ==> r.value.txs == db.txs - Members(ids) && r.value.companies == db.companies
    ensures r.Ok? ==> r.value.records.Keys == db.records.Keys
    ensures r.Ok? ==> forall ref :: ref in db.records ==>
              r.value.records[ref] == if Reverts(db, ids, Members(ids), ref)
                                      then db.records[ref].(status := Some(RevertedStatus(db.records[ref])))
                                      else db.records[ref]
  {
    var recs :- Revert(db, ids, Members(ids), db.records);
    Ok(db.(txs := db.txs - Members(ids), records := recs))
  }

  /** `unlink` as written: the record is fetched through the whole recordset,
      whose `ensure_one` rejects the deletion of several transactions at once. */
  function UnlinkAsWritten(db: Db, ids: seq<nat>): (r: Result<Db>)
    requires forall i :: 0 <= i < |ids| ==> ids[i] in db.txs
    ensures |ids| > 1 ==> r == Err(NotSingleton)
    ensures |ids| <= 1 ==> r == Unlink(db, ids)
  {
    if |ids| > 1 then Err(NotSingleton) else Unlink(db, ids)
  }

  /** The discrepancy: deleting two transactions whose records exist fails as
      written, while the intended deletion succeeds. */
  lemma UnlinkTwoTransactions(db: Db, a: nat, b: nat)
    requires a in db.txs && b in db.txs && a != b
    requires RecordOf(db.txs[a]) in db.records && RecordOf(db.txs[b]) in db.records
    ensures UnlinkAsWritten(db, [a, b]) == Err(NotSingleton)
    ensures Unlink(db, [a, b]).Ok?
  {
  }
}
